=== FILE: README.md ===
# Café pairing demo: a Dafny model

This project models the core of a small café web application. Customers scan a
café's QR code, pick a coffee, and get pastry suggestions ranked by a pairing
score. They then go through a cart and a checkout, and every step is recorded as an
analytics event. Café owners sign up, then manage shops, coffees, pastries and
pairing rules in admin forms and lists, and read an analytics dashboard.

The model follows the application module by module.

- **Database** (`Schema`, `SchemaProps`, `Storage`)
  - The tables are sequences of rows inside one `Store` value. Every insert,
    update and delete is a function from the old contents to the new contents, or to
    the constraint it violates.
  - These constraints are modelled: primary keys, the unique slug and QR code, the
    unique pairing triple, NOT NULL columns without a default, the `integer` range of
    the score, and the foreign keys with their cascade and set-null actions.
  - `SchemaProps` proves that every statement that succeeds keeps the constraints. It
    also proves what each delete removes and what it keeps.
  - `Storage.Db` is the connection the components use: a class holding the current
    contents. A network or service failure is a parameter.
- **Catalog queries** (`ShopLookup`, `Pairing`)
  - The lookups by slug and by QR code return exactly one row or nothing.
  - The pairing query keeps the shop's active rules for a coffee, sorts them by
    descending score (a stable insertion sort) and joins in the coffee and the pastry.
- **Events** (`Analytics`, `AnalyticsServer`, `TrackScanRoute`)
  - The browser session id is get-or-create over local storage.
  - One event row is appended per tracked call; a failed insert is only logged.
  - The server-side scan tracker and the `POST /api/track-scan` handler answer
    400, 404, 500 or 200. Only a 200 appends exactly one `scan` row.
- **Customer screens** (`PairingViewComponent`, `CartViewComponent`,
  `CheckoutViewComponent`, `Basket`, `Urls`, `SafeImage`)
  - Components are classes whose fields are the React state.
  - The `trackEvent` calls a component makes are kept in a `tracked` sequence, and
    the page it opens is kept in `navigation`.
  - The pairing screen's view-tracking loop is a `while` loop over the pairings with
    its invariants.
- **Admin** (`FormFields`, `CoffeeFormComponent`, `PastryFormComponent`,
  `PairingFormComponent`, `ShopFormComponent`, `AdminLists`, `Dashboard`)
  - The conversions between stored values and form text: empty text becomes null, the
    tasting-notes parser, the slug sanitiser, the settings merge and the QR token.
  - The browser's check of the `required` inputs and the score's bounds before a
    form is submitted.
  - Insert versus update.
  - The list updates after a delete.
  - The dashboard's counts, rates, distinct sessions and recent slice.
- **Accounts** (`Auth`, `Passwords`, `AdminSignup`, `ResetPassword`)
  - The sign-in guards.
  - The password rules shared by sign-up and reset.
  - The sign-up page's outcome sequence.
  - The reset page's link check and its gating on a valid session.
- **Seed data** (`SeedScenario`): the seeded café worked through the queries. Its two
  Espresso rules come back with the croissant (95) before the biscotti (90).

The following behaviours of the code are modelled as written.

- **The sign-up page cannot create a shop.** Its shop insert leaves out `qr_code`, a
  NOT NULL column with no default, so every such insert is refused
  (`AdminSignup.SignupShopRefused`). The page ignores that error and reports success.
- **A stored shop description overrides the form.** The shop form spreads the stored
  settings after the typed description. Once a shop has a description, editing it in
  the form has no effect (`ShopFormComponent.StoredDescriptionWins`).
- **The table does not enforce 1–100 on pairing scores.** Any `integer` score is
  stored (`SchemaProps.ScoreRangeNotEnforced`). The form's number input keeps a score
  written in digits within 1–100 (`PairingFormComponent.PairingForm.StatementKeepsScores`).
  It does not do so for every spelling: the browser takes "0.5e1" as 5, and `parseInt`
  saves it as 0 (`PairingFormComponent.ExponentScoreSavedAsZero`).
- **`trackEvent` writes columns the table definitions do not declare.** It writes
  `user_id` and `event_data`, while the definitions have `metadata`. The event row
  carries all three columns.
- **Inactive pastries are still suggested.** The pairing query checks only the rule's
  own `active` flag (`Pairing.SelectedRuleReturned`).

## Model

| member | source | states |
|---|---|---|
| Types.KindName | lib/types.ts:62-68 | every event kind is stored under a non-empty `event_type` name |
| Types.KindOf | lib/types.ts:62-68 | a name read back as a kind is the name of that kind |
| Types.KindOfName | lib/types.ts:62-68 | reading back a stored kind name gives the same kind |
| Types.KindNameInjective | lib/types.ts:62-68 | different kinds are stored under different names |
| Schema.NullAll | lib/db/schema.ts:75-77 | set-null keeps every event row in place and clears only the references to removed rows |
| Schema.Cascade | lib/db/schema.ts:20-90 | after a delete, the shops left are exactly those not removed, and so are the sessions; every coffee, pastry and rule left was there before and is not reached by the delete or its cascades |
| Schema.ShopTextError | lib/db/schema.ts:7-9 | no error iff the name, slug and QR code each fit `varchar(255)`; otherwise value too long for 255 |
| Schema.InsertShop | lib/db/schema.ts:5-15 | a name, slug or QR code over 255 characters is refused as too long, before anything else; a shop insert without a QR code fails on NOT NULL; an insert succeeds iff every text fits, the QR code is given and the id, slug and QR code are all new; on success exactly that row is appended |
| Schema.NewCoffee | lib/db/schema.ts:28 | a new coffee is active unless the insert says `active = false` |
| Schema.CoffeeColumnError | lib/db/schema.ts:21-27 | no error iff the name and origin fit 255 characters, the roast 50, the image 500 and the price `decimal(10,2)`; otherwise value too long or numeric overflow |
| Schema.InsertCoffee | lib/db/schema.ts:18-33 | a value its column refuses fails first; succeeds iff every column fits, the id is new and the shop exists; then exactly the new row is appended |
| Schema.NewPastry | lib/db/schema.ts:44 | a new pastry is active unless the insert says otherwise |
| Schema.PastryColumnError | lib/db/schema.ts:39-43 | no error iff the name fits 255 characters, the image 500 and the price `decimal(10,2)` |
| Schema.InsertPastry | lib/db/schema.ts:36-49 | a value its column refuses fails first; succeeds iff every column fits, the id is new and the shop exists; then exactly the new row is appended |
| Schema.ScoreError | lib/db/schema.ts:57 | a score is refused iff it is null or outside the `integer` range |
| Schema.NewRule | lib/db/schema.ts:59 | a new rule carries the score given and is active unless the insert says otherwise |
| Schema.RuleRefError | lib/db/schema.ts:54-56 | a rule's references fail iff its shop, coffee or pastry does not exist |
| Schema.InsertPairingRule | lib/db/schema.ts:52-67 | a null score fails on NOT NULL; success iff the score fits, the id and the (shop, coffee, pastry) triple are new and the references resolve; then exactly that rule is appended |
| Schema.EventRefError | lib/db/schema.ts:72-77 | an event's references fail iff the shop is missing or a non-null coffee, pastry or rule reference names no row |
| Schema.EventTextError | lib/db/schema.ts:73-74 | no error iff the session id fits 255 characters and the event type 50 |
| Schema.InsertEvent | lib/db/schema.ts:70-85 | the event log only grows: a session id over 255 or an event type over 50 characters is refused first; success iff both fit, the id is new and the references resolve, and then exactly that row is appended |
| Schema.UpdateShop | lib/db/schema.ts:5-15 | an update of a missing id changes nothing; otherwise it fails iff the name or slug exceeds 255 characters or another shop already has the slug; on success only the shop with that id changes (name, slug and settings), and its QR code is kept |
| Schema.UpdateCoffee | lib/db/schema.ts:18-33 | an update of a missing id changes nothing; otherwise it succeeds iff every column fits its type and the shop exists; only that row changes, and a column left out keeps its value |
| Schema.UpdatePastry | lib/db/schema.ts:36-49 | the same for pastries, with their column limits |
| Schema.UpdatePairingRule | lib/db/schema.ts:52-67 | an update of a missing id changes nothing; otherwise it succeeds iff the score, the triple and the references are acceptable, and only that rule changes |
| SchemaProps.CascadeKeeps | lib/db/schema.ts:20-90 | a delete keeps exactly the rows it does not reach |
| SchemaProps.CascadeKeysUnique | lib/db/schema.ts:6-90 | deletes keep every key unique |
| SchemaProps.CascadeCatalogRefs | lib/db/schema.ts:20-56 | after a delete, coffees, pastries, rules and sessions still name existing rows |
| SchemaProps.CascadeEventRefs | lib/db/schema.ts:72-77 | after a delete, every event row names existing rows |
| SchemaProps.CascadeValid | lib/db/schema.ts:5-93 | deletes keep all the constraints |
| SchemaProps.CascadeNoShop | lib/db/schema.ts:72-90 | a delete that removes no shop keeps shops and sessions as they were and every event row, with set-null applied |
| SchemaProps.DeleteShopValid | lib/db/schema.ts:20-90 | deleting a shop keeps the constraints |
| SchemaProps.DeleteShopRemovesDependents | lib/db/schema.ts:20-90 | after a shop is deleted no coffee, pastry, rule, event or session names it |
| SchemaProps.DeleteShopKeepsOthers | lib/db/schema.ts:20-72 | deleting a shop keeps every other shop's coffees, pastries and events |
| SchemaProps.DeleteCoffeeValid | lib/db/schema.ts:55 | deleting a coffee keeps the constraints |
| SchemaProps.DeleteCoffeeCascades | lib/db/schema.ts:55 | deleting a coffee removes it and exactly the rules that name it; shops, pastries and sessions stay |
| SchemaProps.DeleteCoffeeSetsNull | lib/db/schema.ts:75-77 | deleting a coffee keeps every event row in place and nulls only the references to the coffee and its removed rules |
| SchemaProps.DeletePastryValid | lib/db/schema.ts:56 | deleting a pastry keeps the constraints |
| SchemaProps.DeletePastryCascades | lib/db/schema.ts:56 | deleting a pastry removes it and exactly the rules that name it |
| SchemaProps.DeletePastrySetsNull | lib/db/schema.ts:75-77 | deleting a pastry keeps every event row, with the matching references nulled |
| SchemaProps.DeletePairingRuleValid | lib/db/schema.ts:52-77 | deleting a rule keeps the constraints |
| SchemaProps.DeletePairingRuleSetsNull | lib/db/schema.ts:77 | deleting a rule removes only it; events that named it keep their row with the reference nulled |
| SchemaProps.InsertShopValid | lib/db/schema.ts:5-15 | a successful shop insert keeps the constraints |
| SchemaProps.InsertCoffeeValid | lib/db/schema.ts:18-33 | a successful coffee insert keeps the constraints |
| SchemaProps.InsertPastryValid | lib/db/schema.ts:36-49 | a successful pastry insert keeps the constraints |
| SchemaProps.InsertPairingRuleValid | lib/db/schema.ts:52-67 | a successful rule insert keeps the constraints, the unique triple included |
| SchemaProps.ScoreRangeNotEnforced | lib/db/schema.ts:57 | where one score is accepted, every `integer` score is accepted; there is no 1–100 check |
| SchemaProps.InsertEventValid | lib/db/schema.ts:70-85 | a successful event insert keeps the constraints |
| SchemaProps.UpdateShopValid | lib/db/schema.ts:5-15 | a successful shop update keeps the constraints |
| SchemaProps.UpdateCoffeeValid | lib/db/schema.ts:18-33 | a successful coffee update keeps the constraints |
| SchemaProps.UpdatePastryValid | lib/db/schema.ts:36-49 | a successful pastry update keeps the constraints |
| SchemaProps.UpdatePairingRuleValid | lib/db/schema.ts:52-67 | a successful rule update keeps the constraints |
| ShopLookup.Single | lib/shop.ts:12 | `.single()` gives a row iff there is exactly one |
| ShopLookup.GetShopBySlug | lib/shop.ts:5-20 | a shop returned has that slug and is in the table; a failed query or no matching slug gives null |
| ShopLookup.GetShopByQRCode | lib/shop.ts:23-38 | a shop returned has that QR code and is in the table; a failed query or no matching code gives null |
| ShopLookup.GetShopBySlugFinds | lib/shop.ts:8-12 | with unique slugs, a lookup that does not fail finds the shop holding the slug |
| ShopLookup.GetShopByQRCodeFinds | lib/shop.ts:26-30 | with unique QR codes, a lookup that does not fail finds the shop holding the code |
| Pairing.Selected | lib/pairing.ts:18-20 | a rule is selected iff it has the shop, the coffee and `active` |
| Pairing.InsertByScore | lib/pairing.ts:21 | inserting into a list sorted by descending score keeps it sorted and adds exactly that rule |
| Pairing.SortByScore | lib/pairing.ts:21 | the result is sorted by descending score and is a permutation of the input |
| Pairing.CoffeeById | lib/pairing.ts:15 | the joined coffee has the id and is in the table; none only when no coffee has it |
| Pairing.PastryById | lib/pairing.ts:16 | the joined pastry has the id and is in the table; none only when no pastry has it |
| Pairing.AllWithDetails | lib/pairing.ts:28-32 | the join maps each rule, in order, to one pairing with its coffee and pastry |
| Pairing.GetPairingsForCoffee | lib/pairing.ts:5-33 | a failed query gives []; every result is an active rule of the shop and coffee; scores never increase; the rules returned are a permutation of the selected rules |
| Pairing.NoMatchNoPairings | lib/pairing.ts:28 | with no matching rule the list is empty |
| Pairing.SelectedRuleReturned | lib/pairing.ts:18-20 | every matching active rule is returned, whatever the state of its pastry |
| Pairing.JoinedRowsPresent | lib/pairing.ts:14-16 | in a database whose references resolve, every pairing carries the coffee asked for and its rule's pastry |
| Analytics.StoredId | lib/analytics.ts:9 | the stored session id, with a missing item read as empty |
| Analytics.Browser.constructor | lib/analytics.ts:7 | a browser with or without a window and the given storage |
| Analytics.Browser.CurrentId | lib/analytics.ts:6-9 | the id is empty without a window and the stored one otherwise |
| Analytics.Browser.GetSessionId | lib/analytics.ts:5-15 | without a window it returns '' and stores nothing; a stored id is returned and nothing is written; otherwise the fresh id is stored and returned; the result is always what a later call returns |
| Analytics.OrNull | lib/analytics.ts:37 | `x \|\| null` is null iff x is absent or empty, and x otherwise |
| Analytics.OrNullKeepsValue | lib/analytics.ts:39-41 | `\|\| null` loses only the difference between empty and absent, and is idempotent |
| Analytics.TrackedRowReadsBack | lib/analytics.ts:34-43 | the row reads back as the request: shop, session, kind, the ids up to `\|\| null`, and the metadata under `event_data` |
| Analytics.TrackEvent | lib/analytics.ts:18-48 | exactly one row is appended with the current session id, or, on an error, the error is logged and the log is unchanged; the browser storage follows `getSessionId` |
| AnalyticsServer.ScanSessionId | lib/analytics-server.ts:11 | a scan session id starts with `qr_scan_` and is longer than the prefix and suffix |
| AnalyticsServer.ScanTimeRoundTrip | lib/analytics-server.ts:11 | `parseInt` of the id after the prefix gives back the timestamp, whatever the suffix |
| AnalyticsServer.ScanRowInsert | lib/analytics-server.ts:13-33 | the scan row is a `scan` with the QR code and source in its metadata; its insert succeeds iff the session id fits its column, the id is new and the shop exists |
| AnalyticsServer.TrackScanEvent | lib/analytics-server.ts:7-48 | an insert error is returned as a failure with the log unchanged; a successful insert appends exactly the scan row and returns it, or fails with "No data returned from insert" when the row is not read back |
| TrackScanRoute.Post | app/api/track-scan/route.ts:5-75 | the status is one of 200, 400, 404 and 500, and `success` holds iff it is 200; a bad body gives 500 and an empty QR code 400, an unknown code gives 404, and an insert error 500, each with the log unchanged; 200 appends exactly one scan row for the shop of that code and answers its slug and session id; a known code, a new id and a session id within its column always give 200 |
| Auth.GetCurrentUser | lib/auth.ts:8-17 | the user iff there is no error and a user is signed in |
| Auth.VerifyUserId | lib/auth.ts:37-44 | true iff the first id is non-empty and equals the second; false when either is empty |
| Auth.EncodeURIComponent | lib/auth.ts:27 | never shorter than its input; every character left is unreserved or the `%` of an escape; the result equals the input iff every character is unreserved |
| Auth.LoginRedirect | lib/auth.ts:27 | the login redirect is `/auth/login?redirect=%2Fadmin` |
| Auth.RequireAuth | lib/auth.ts:23-31 | no user gives the login redirect; a user proceeds |
| Auth.RequireAuthAndOwnership | lib/auth.ts:50-58 | no user gives the redirect; the page proceeds iff the user's id verifies against the requested id, with that user; otherwise it throws the unauthorised message |
| Basket.PriceOrZero | components/CartView.tsx:72-74 | a missing price counts as 0 |
| Basket.Total | components/CartView.tsx:72-74 | the total is the coffee's price plus the pastry's, each missing one counted as 0 |
| Basket.TotalBounds | components/CheckoutView.tsx:80-82 | with non-negative prices the total is non-negative and at least each listed price, and it is 0 iff no item has a positive price |
| Basket.ItemData | components/CartView.tsx:21-29 | cart and checkout events carry the coffee, pastry and pairing ids |
| Urls.ItemsUrlReadsBack | components/PairingView.tsx:40 | a cart or checkout link built from coffee, pastry and pairing ids reads back exactly those ids on the page it opens |
| Urls.ItemLinksReadBack | components/CartView.tsx:44 | the cart and checkout links carry their three ids through to the next page |
| PairingViewComponent.IdsOf | components/PairingView.tsx:29 | the set of pairing ids is exactly the ids of the listed pairings |
| PairingViewComponent.ViewRequests | components/PairingView.tsx:22-31 | one run of the effect makes at most one call per listed pairing |
| PairingViewComponent.ViewRequestsCover | components/PairingView.tsx:22-28 | every call is a `pairing_view` of a listed, unseen pairing with its coffee, pastry and pairing ids, and every unseen pairing gets its call |
| PairingViewComponent.ViewRequestsSeen | components/PairingView.tsx:22-23 | once every listed pairing is in the set, a run tracks nothing |
| PairingViewComponent.ViewRequestsOncePerPairing | components/PairingView.tsx:22-31 | with unique pairing ids, one run records each pairing at most once |
| PairingViewComponent.PairingViewState.constructor | components/PairingView.tsx:18 | the screen starts with an empty viewed set, no calls and no navigation |
| PairingViewComponent.PairingViewState.TrackViews | components/PairingView.tsx:20-32 | the loop adds every listed id to the viewed set and makes exactly the calls for the pairings unseen when the run began |
| PairingViewComponent.PairingViewState.Mount | components/PairingView.tsx:20-32 | the mount run and the run its set change triggers together record one view per unseen pairing |
| PairingViewComponent.PairingViewState.AcceptPairing | components/PairingView.tsx:34-41 | records `pairing_accept` with the same three ids as a view and opens the cart link for them |
| PairingViewComponent.PairingViewState.EmptyMessage | components/PairingView.tsx:96-98 | the no-pairings message shows iff the list is empty |
| CartViewComponent.CartView.constructor | components/CartView.tsx:19 | the cart starts not checking out, with no calls and no navigation |
| CartViewComponent.CartView.HandleAddToCart | components/CartView.tsx:21-29 | one `add_to_cart` call with the three ids iff coffee, pastry and pairing are all present |
| CartViewComponent.CartView.Mount | components/CartView.tsx:48-52 | the mount effect records `add_to_cart` only for a complete cart |
| CartViewComponent.CartView.HandleCheckout | components/CartView.tsx:31-45 | nothing happens unless the cart is complete; then it sets `isCheckingOut`, records `checkout` with the three ids and opens the checkout link (the button press is `PressCheckout`) |
| CartViewComponent.CartView.PressCheckout | components/CartView.tsx:168-174 | a press while checking out does nothing, so at most one checkout is recorded; otherwise a complete cart records `checkout` with the three ids and opens the checkout link, and an incomplete one changes nothing |
| CartViewComponent.CartView.Screen | components/CartView.tsx:54-74 | the empty-cart view iff there is no coffee; otherwise the total |
| CheckoutViewComponent.DisplayName | components/CheckoutView.tsx:36 | the profile name, else the e-mail, else `Guest`; never empty |
| CheckoutViewComponent.OrderMetadata | components/CheckoutView.tsx:50-54 | the checkout metadata holds exactly name, table number and order type, and no notes |
| CheckoutViewComponent.CheckoutView.constructor | components/CheckoutView.tsx:20-27 | the form starts with `Guest`, `Table 4`, `Serve to table` and empty notes |
| CheckoutViewComponent.CheckoutView.LoadUser | components/CheckoutView.tsx:29-40 | a signed-in user replaces only the name, with the display name |
| CheckoutViewComponent.CheckoutView.SetName | components/CheckoutView.tsx:98 | typing a name changes only the name |
| CheckoutViewComponent.CheckoutView.SetTableNumber | components/CheckoutView.tsx:108 | typing a table number changes only the table number |
| CheckoutViewComponent.CheckoutView.SetOrderType | components/CheckoutView.tsx:115-123 | choosing an order type changes only that field, to one of the three choices |
| CheckoutViewComponent.CheckoutView.SetNotes | components/CheckoutView.tsx:132 | the notes become the longest prefix of the text within 240 UTF-16 code units: the whole text when it fits, otherwise one more character would not fit |
| CheckoutViewComponent.CheckoutView.PlaceOrder | components/CheckoutView.tsx:42-62 | `checkout` is recorded only for a complete cart; the success page opens either way |
| CheckoutViewComponent.CheckoutView.PressPlaceOrder | components/CheckoutView.tsx:140-141 | a press while an order is being placed does nothing, so at most one checkout is recorded; otherwise a complete cart appends exactly one `checkout` call with the three ids and the order metadata |
| CheckoutViewComponent.CheckoutView.Screen | components/CheckoutView.tsx:64-82 | the empty-cart message iff there is no coffee; otherwise the total |
| Dashboard.FilterByShop | components/admin/AnalyticsDashboard.tsx:14-18 | all events when no shop is selected, otherwise exactly the events of that shop |
| Dashboard.CountOf | components/admin/AnalyticsDashboard.tsx:21-26 | a count of one kind never exceeds the number of events |
| Dashboard.CountOfCons | components/admin/AnalyticsDashboard.tsx:21-26 | one more event adds one to its own kind's count only |
| Dashboard.Rate | components/admin/AnalyticsDashboard.tsx:28-29 | 0 when the base count is 0, else part × 100 / whole |
| Dashboard.RateIsPercentage | components/admin/AnalyticsDashboard.tsx:28-29 | a rate of a part no larger than its whole lies between 0 and 100 |
| Dashboard.StatsOf | components/admin/AnalyticsDashboard.tsx:20-41 | the six counts are the per-kind counts and add up to at most the number of events; the rates are accepts per view and checkouts per scan, each between 0 and 100 when its part is no larger than its whole |
| Dashboard.CountsBound | components/admin/AnalyticsDashboard.tsx:21-26 | the six counts add up to at most the number of events, and to exactly that number when every kind is known |
| Dashboard.UniqueSessions | components/admin/AnalyticsDashboard.tsx:43-45 | the distinct sessions number at most the events and at least one when there is an event |
| Dashboard.UniqueSessionsAllDistinct | components/admin/AnalyticsDashboard.tsx:43-45 | with no shared session the count equals the number of events |
| Dashboard.UniqueSessionsOne | components/admin/AnalyticsDashboard.tsx:43-45 | events of a single session count as one session |
| Dashboard.Recent | components/admin/AnalyticsDashboard.tsx:140 | a prefix of the events, at most 50 long, and all of them when there are fewer |
| Dashboard.ShortSessionId | components/admin/AnalyticsDashboard.tsx:151 | a prefix of at most eight characters of the id followed by `...`; an id of at most eight characters is shown whole |
| FormFields.NullIfEmpty | components/admin/CoffeeForm.tsx:41-45 | null iff the text is empty, the text otherwise |
| FormFields.EmptyIfNull | components/admin/CoffeeForm.tsx:18-22 | a null value shows as empty text |
| FormFields.NullIfEmptyRoundTrip | components/admin/CoffeeForm.tsx:18-45 | showing a value and saving it gives it back, except that an empty string is saved as null |
| FormFields.PriceText | components/admin/CoffeeForm.tsx:23 | the text is empty iff the price is missing |
| FormFields.PriceValue | components/admin/CoffeeForm.tsx:46 | empty text saves a null price |
| FormFields.PriceRoundTrip | components/admin/CoffeeForm.tsx:23-46 | a price shown and saved unchanged is the same price |
| FormFields.InitialShopId | components/admin/CoffeeForm.tsx:16 | the current shop, else the first shop, else '' |
| FormFields.TrimEach | components/admin/CoffeeForm.tsx:35 | each piece trimmed, in order |
| FormFields.ParseTastingNotes | components/admin/CoffeeForm.tsx:33-36 | every parsed note is non-empty, trimmed and free of commas |
| FormFields.TastingNotesValue | components/admin/CoffeeForm.tsx:43 | null iff there is no note, the parsed notes otherwise |
| FormFields.NoNotes | components/admin/CoffeeForm.tsx:33-43 | an empty input stores null notes |
| FormFields.TastingNotesRoundTrip | components/admin/CoffeeForm.tsx:20-36 | notes joined with ', ' and parsed again come back unchanged when each is a note |
| CoffeeFormComponent.InitialCoffeeForm | components/admin/CoffeeForm.tsx:15-25 | a new coffee starts active and blank on the initial shop; an edit starts from the coffee's values |
| CoffeeFormComponent.CoffeePayload | components/admin/CoffeeForm.tsx:38-48 | empty roast, origin, description and image become null, others pass through; the price is the price text read as cents, null when empty; the notes are the parsed notes, null iff none parse |
| CoffeeFormComponent.EditUntouchedKeepsCoffee | components/admin/CoffeeForm.tsx:15-55 | opening a coffee and saving it untouched writes the row back unchanged |
| CoffeeFormComponent.NewFormDefaults | components/admin/CoffeeForm.tsx:16-24 | a coffee saved from the untouched new form is active, on the first shop, with no price and no notes |
| CoffeeFormComponent.CoffeeForm.constructor | components/admin/CoffeeForm.tsx:15-26 | the form opens with the initial values, not submitting |
| CoffeeFormComponent.CoffeeForm.Edit | components/admin/CoffeeForm.tsx:86 | an input's change replaces the form data and nothing else |
| CoffeeFormComponent.CoffeeForm.Submit | components/admin/CoffeeForm.tsx:79-107 | a form the browser holds back changes nothing; it holds back a form without a name or without a shop among those listed; otherwise it does what `HandleSubmit` does |
| CoffeeFormComponent.CoffeeForm.UnlistedShopHeldBack | components/admin/CoffeeForm.tsx:84-96 | a shop id that no listed shop has (none are listed when the shop query fails) keeps the form from being submitted |
| CoffeeFormComponent.CoffeeForm.HandleSubmit | components/admin/CoffeeForm.tsx:29-70 | runs the form's statement (`Statement`: an update by id for an edit, an insert otherwise); a fault or a refused statement leaves the tables as they were, is alerted with its message and `onSuccess` is not called; success stores the result and calls it |
| PastryFormComponent.InitialPastryForm | components/admin/PastryForm.tsx:15-23 | a new pastry starts active and blank on the initial shop; an edit starts from the pastry's values |
| PastryFormComponent.PastryPayload | components/admin/PastryForm.tsx:31-39 | empty notes, flavour profile and image become null; the name passes through; the price is the price text read as cents, null when empty |
| PastryFormComponent.EditUntouchedKeepsPastry | components/admin/PastryForm.tsx:15-46 | opening a pastry and saving it untouched writes the row back unchanged |
| PastryFormComponent.PastryForm.constructor | components/admin/PastryForm.tsx:15-24 | the form opens with the initial values, not submitting |
| PastryFormComponent.PastryForm.Edit | components/admin/PastryForm.tsx:77 | an input's change replaces the form data and nothing else |
| PastryFormComponent.PastryForm.Submit | components/admin/PastryForm.tsx:70-98 | a form the browser holds back changes nothing; it holds back a form without a name or without a shop among those listed; otherwise it does what `HandleSubmit` does |
| PastryFormComponent.PastryForm.UnlistedShopHeldBack | components/admin/PastryForm.tsx:75-87 | a shop id that no listed shop has (none are listed when the shop query fails) keeps the form from being submitted |
| PastryFormComponent.PastryForm.HandleSubmit | components/admin/PastryForm.tsx:27-61 | runs the form's statement (an update by id or an insert); an error leaves the tables as they were, is alerted and `onSuccess` is not called; success stores the result and calls it |
| PairingFormComponent.InitialPairingForm | components/admin/PairingForm.tsx:24-31 | a new rule starts with score '50', no coffee or pastry and active; an edit starts from the rule |
| PairingFormComponent.CoffeeOptions | components/admin/PairingForm.tsx:35-37 | none without a shop, otherwise exactly the coffees of the selected shop |
| PairingFormComponent.PastryOptions | components/admin/PairingForm.tsx:38-40 | none without a shop, otherwise exactly the pastries of the selected shop |
| PairingFormComponent.PairingPayload | components/admin/PairingForm.tsx:46-53 | the score is `parseInt` of its text; empty reasoning becomes null |
| PairingFormComponent.DefaultScoreIsFifty | components/admin/PairingForm.tsx:28-50 | a new rule saved with the score untouched scores 50 |
| PairingFormComponent.EditUntouchedKeepsRule | components/admin/PairingForm.tsx:24-60 | opening a rule and saving it untouched writes it back unchanged |
| PairingFormComponent.ScoreAcceptedIff | components/admin/PairingForm.tsx:156-162 | the score input accepts a stored score written out iff it lies from 1 to 100 |
| PairingFormComponent.ExponentScoreSavedAsZero | components/admin/PairingForm.tsx:50-162 | the spelling "0.5e1" is outside what the model's input accepts, and `parseInt` reads it as 0 |
| PairingFormComponent.SavedScoresInRange | components/admin/PairingForm.tsx:46-60 | saving an accepted score, by insert or update, keeps every rule's score from 1 to 100 |
| PairingFormComponent.PairingForm.constructor | components/admin/PairingForm.tsx:24-33 | the form opens with the initial values, not submitting |
| PairingFormComponent.PairingForm.Coffees | components/admin/PairingForm.tsx:35-37 | every coffee offered belongs to the selected shop |
| PairingFormComponent.PairingForm.Pastries | components/admin/PairingForm.tsx:38-40 | every pastry offered belongs to the selected shop |
| PairingFormComponent.PairingForm.ChangeShop | components/admin/PairingForm.tsx:93 | choosing a shop clears the coffee and the pastry |
| PairingFormComponent.PairingForm.Edit | components/admin/PairingForm.tsx:112-185 | any other input replaces the form data and keeps the shop |
| PairingFormComponent.PairingForm.StatementKeepsScores | components/admin/PairingForm.tsx:42-162 | the statement a submittable form runs keeps every score from 1 to 100, so no score `Submit` saves lies outside |
| PairingFormComponent.PairingForm.Submit | components/admin/PairingForm.tsx:86-162 | a form the browser holds back changes nothing; it holds back a form without a listed shop, without an offered coffee or pastry while the shop offers some, or with a score the input refuses; otherwise it does what `HandleSubmit` does |
| PairingFormComponent.PairingForm.StaleCoffeeHeldBack | components/admin/PairingForm.tsx:110-123 | a coffee id that none of the offered coffees has (a deactivated coffee) keeps the form from being submitted |
| PairingFormComponent.PairingForm.HandleSubmit | components/admin/PairingForm.tsx:42-77 | runs the form's statement (an update by id or an insert); an error leaves the tables as they were, is alerted and `onSuccess` is not called; success stores the result and calls it |
| ShopFormComponent.DashRuns | components/admin/ShopForm.tsx:94 | no white space is left |
| ShopFormComponent.DashRunsNoSpace | components/admin/ShopForm.tsx:94 | text without white space is unchanged |
| ShopFormComponent.SanitizeSlug | components/admin/ShopForm.tsx:94 | the result holds only `a-z`, `0-9` and `-` |
| ShopFormComponent.SanitizeSlugKeepsSlug | components/admin/ShopForm.tsx:94 | a slug comes out unchanged |
| ShopFormComponent.SanitizeSlugIdempotent | components/admin/ShopForm.tsx:94 | sanitising twice is sanitising once |
| ShopFormComponent.InitialDescription | components/admin/ShopForm.tsx:17 | the stored description, else '' |
| ShopFormComponent.MergeSettings | components/admin/ShopForm.tsx:29-32 | every stored setting is kept, and the form's description is used only when none is stored |
| ShopFormComponent.StoredDescriptionWins | components/admin/ShopForm.tsx:29-32 | once a description is stored, the form's description makes no difference |
| ShopFormComponent.UntouchedSettings | components/admin/ShopForm.tsx:17-32 | saving settings untouched keeps them, adding an empty description only when none was stored |
| ShopFormComponent.QrToken | components/admin/ShopForm.tsx:44 | a new shop's QR code starts with `shop-` |
| ShopFormComponent.QrTokenReadsBack | components/admin/ShopForm.tsx:44 | the slug and the time can be read back from a QR code |
| ShopFormComponent.QrTokenInjective | components/admin/ShopForm.tsx:44 | equal QR codes come from the same slug at the same millisecond |
| ShopFormComponent.InitialShopForm | components/admin/ShopForm.tsx:14-18 | blank for a new shop, the shop's name, slug and description for an edit |
| ShopFormComponent.EditKeepsQrCodes | components/admin/ShopForm.tsx:36-41 | an edit keeps every shop's QR code, and the edited shop keeps its slug |
| ShopFormComponent.ShopForm.constructor | components/admin/ShopForm.tsx:14-19 | the form opens with the initial values |
| ShopFormComponent.ShopForm.SetName | components/admin/ShopForm.tsx:77 | typing a name changes only the name |
| ShopFormComponent.ShopForm.SetSlug | components/admin/ShopForm.tsx:91-98 | the slug input, enabled only for a new shop, stores the sanitised text |
| ShopFormComponent.ShopForm.SetDescription | components/admin/ShopForm.tsx:113 | typing a description changes only the description |
| ShopFormComponent.ShopForm.Submit | components/admin/ShopForm.tsx:69-98 | a form the browser holds back (no name, or no slug for a new shop) changes nothing; otherwise it does what `HandleSubmit` does |
| ShopFormComponent.ShopForm.HandleSubmit | components/admin/ShopForm.tsx:22-60 | an edit updates name, slug and merged settings and keeps the QR code; a new shop is inserted with a fresh QR code; an error is alerted and `onSuccess` is not called |
| ShopFormComponent.LongSlugQrCodeRefused | components/admin/ShopForm.tsx:44 | a new shop whose slug leaves no room for the prefix, dash and timestamp in 255 characters is refused as a QR code too long |
| AdminLists.OfShop | components/admin/PairingList.tsx:131 | every row without a filter, otherwise exactly the rows of that shop |
| AdminLists.DescriptionText | components/admin/ShopList.tsx:92 | the stored description, or `-` when it is missing or empty |
| AdminLists.FlavourText | components/admin/PastryList.tsx:104 | the flavour profile, else the notes, else `-` |
| AdminLists.CoffeeLabel | components/admin/PairingList.tsx:135 | the joined coffee's name, or `N/A` when there is none or it is empty, so the cell is never blank |
| AdminLists.PastryLabel | components/admin/PairingList.tsx:138 | the joined pastry's name, or `N/A` when there is none or it is empty, so the cell is never blank |
| AdminLists.DeleteRemovesOneRow | components/admin/PairingList.tsx:44 | with distinct ids, removing a listed id removes exactly that row and keeps the others in order |
| AdminLists.ShopList.constructor | components/admin/ShopList.tsx:13 | the list starts as given |
| AdminLists.ShopList.HandleDelete | components/admin/ShopList.tsx:18-29 | no confirmation changes nothing; an error is alerted and leaves the list unchanged; a success runs the cascading delete and drops exactly that id |
| AdminLists.ShopList.EmptyMessage | components/admin/ShopList.tsx:134-135 | "No shops found" iff the list is empty |
| AdminLists.CoffeeList.constructor | components/admin/CoffeeList.tsx:14 | the list starts as given |
| AdminLists.CoffeeList.HandleDelete | components/admin/CoffeeList.tsx:19-30 | no confirmation changes nothing; an error leaves the list unchanged; a success drops exactly that id |
| AdminLists.CoffeeList.EmptyMessage | components/admin/CoffeeList.tsx:141-142 | "No coffees found" iff the list is empty |
| AdminLists.PastryList.constructor | components/admin/PastryList.tsx:14 | the list starts as given |
| AdminLists.PastryList.HandleDelete | components/admin/PastryList.tsx:19-30 | no confirmation changes nothing; an error leaves the list unchanged; a success drops exactly that id |
| AdminLists.PastryList.EmptyMessage | components/admin/PastryList.tsx:138-139 | "No pastries found" iff the list is empty |
| AdminLists.PairingList.constructor | components/admin/PairingList.tsx:21-24 | the list starts as given, with no shop selected |
| AdminLists.PairingList.SelectShop | components/admin/PairingList.tsx:24 | choosing a filter changes only the filter |
| AdminLists.PairingList.HandleDelete | components/admin/PairingList.tsx:34-45 | no confirmation changes nothing; an error leaves the list unchanged; a success drops exactly that id |
| AdminLists.PairingList.Rows | components/admin/PairingList.tsx:131 | all rows without a filter, otherwise exactly those of the shop |
| AdminLists.PairingList.FormCoffees | components/admin/PairingList.tsx:27-29 | every coffee, or exactly the selected shop's |
| AdminLists.PairingList.FormPastries | components/admin/PairingList.tsx:30-32 | every pastry, or exactly the selected shop's |
| AdminLists.PairingList.EmptyMessage | components/admin/PairingList.tsx:179-180 | "No pairings found" iff no row is shown |
| JsString.Utf16Length | app/auth/signup/admin/page.tsx:17 | the `length` the rule measures is at least the number of characters and at most twice it |
| JsString.TakeUnits | components/CheckoutView.tsx:132 | a prefix of the text within `n` code units, the whole text when it fits, and no shorter than that: one more character would go over |
| JsString.TakeUnitsBmp | components/CheckoutView.tsx:132 | for text inside the Basic Multilingual Plane the cut is the cut at `n` characters |
| JsString.Utf16LengthBmp | app/auth/signup/admin/page.tsx:17 | for characters inside the Basic Multilingual Plane it is the number of characters |
| Passwords.PasswordErrors | app/auth/signup/admin/page.tsx:15-18 | no error iff the password has at least 8 UTF-16 code units and a digit, and each rule gives its own message |
| Passwords.ConfirmErrors | app/auth/signup/admin/page.tsx:22-25 | the mismatch error, under `confirmPassword`, iff the two differ |
| Passwords.AcceptedConfirmationIsStrong | app/auth/reset-password/page.tsx:11-22 | an accepted form has a confirmation equal to a strong password |
| Passwords.DigitsOnlyPasswordPasses | app/auth/signup/admin/page.tsx:15-18 | any password of at least eight characters, all digits, passes: no letter is required |
| Passwords.Shown | app/auth/signup/admin/page.tsx:39-41 | the messages shown are empty iff there are none |
| Passwords.ShownFirstPerField | app/auth/signup/admin/page.tsx:39-41 | each message shown is the first of its field, every failing field shows one, and no field shows two |
| Passwords.ShortPasswordShowsLength | app/auth/signup/admin/page.tsx:15-18 | a short password with no digit shows only the length message |
| Passwords.CodeUnitsNotCharacters | app/auth/signup/admin/page.tsx:15-17 | the length rule counts code units: four emoji and a digit pass, seven digits do not |
| AdminSignup.SignupErrors | app/auth/signup/admin/page.tsx:11-25 | no error iff both names have at least 2 UTF-16 code units, the e-mail is valid, the password is strong and the confirmation matches; a short name, a short café name and the mismatch each give their own message |
| AdminSignup.SignupMetadata | app/auth/signup/admin/page.tsx:52-62 | the account carries the name, the café name and the `admin` role |
| AdminSignup.SignupSlug | app/auth/signup/admin/page.tsx:74 | the new shop's slug is a slug |
| AdminSignup.SignupSlugParts | app/auth/signup/admin/page.tsx:74 | the slug is the sanitised café name, a dash and the last six digits of the timestamp |
| AdminSignup.SignupShopInsert | app/auth/signup/admin/page.tsx:72-77 | the insert names the café and the derived slug and gives no QR code |
| AdminSignup.SignupShopRefused | app/auth/signup/admin/page.tsx:72-77 | whatever the database holds, that insert is refused; when the café name and its slug fit their columns, for the missing QR code |
| AdminSignup.AdminSignupPage.constructor | app/auth/signup/admin/page.tsx:31-33 | the page starts idle with no error |
| AdminSignup.AdminSignupPage.HandleSubmit | app/auth/signup/admin/page.tsx:39-94 | the messages shown are the first of each failing field, and none iff the form keeps every rule; a form breaking a rule sends nothing; an auth error shows its message; a sign-up succeeds whatever happens to the shop insert, which never changes the database |
| AdminSignup.AdminSignupPage.Submit | app/auth/signup/admin/page.tsx:229-235 | while loading or after success the disabled button changes nothing; otherwise it does what `HandleSubmit` does |
| ResetPassword.HashParam | app/auth/reset-password/page.tsx:49-51 | an empty fragment holds no parameter |
| ResetPassword.LinkTokens | app/auth/reset-password/page.tsx:53 | the token pair is present iff both tokens are present and non-empty |
| ResetPassword.LinkTokensReadBack | app/auth/reset-password/page.tsx:49-53 | a reset link carrying both tokens yields exactly them |
| ResetPassword.ResetPasswordPage.constructor | app/auth/reset-password/page.tsx:28-31 | the page starts with no valid session |
| ResetPassword.ResetPasswordPage.CheckLink | app/auth/reset-password/page.tsx:41-73 | `setSession` is asked only with both tokens; its error marks the link invalid; otherwise the session found decides |
| ResetPassword.ResetPasswordPage.Screen | app/auth/reset-password/page.tsx:103 | the form shows iff the session is valid |
| ResetPassword.ResetPasswordPage.HandleSubmit | app/auth/reset-password/page.tsx:37-101 | the messages shown are the first of each failing field; a rule-breaking password sends nothing; an update error shows its message and does not navigate; success leads to the login page |
| ResetPassword.ResetPasswordPage.Submit | app/auth/reset-password/page.tsx:209-215 | while loading or after success the disabled button changes nothing; otherwise it does what `HandleSubmit` does |
| SafeImage.OrElse | components/SafeImage.tsx:17 | a present, non-empty string wins over the alternative |
| SafeImage.InitialSource | components/SafeImage.tsx:17 | the source, else the fallback, else the placeholder; never empty |
| SafeImage.ErrorSource | components/SafeImage.tsx:24 | the fallback, else the built-in inline picture |
| SafeImage.BuiltInPictures | components/SafeImage.tsx:17-24 | the built-in failure picture is inline and the placeholder is not |
| SafeImage.SafeImageState.constructor | components/SafeImage.tsx:17-18 | the initial picture is shown and no error is recorded |
| SafeImage.SafeImageState.HandleError | components/SafeImage.tsx:20-25 | the first error switches to the failure picture; a later one changes nothing |
| SafeImage.SafeImageState.Unoptimized | components/SafeImage.tsx:36-49 | unoptimised iff the picture is inline; always so after a failure without fallback |
| SeedScenario.SeedKeysUnique | scripts/seed.ts:12-206 | the seeded rows have distinct keys, slugs, QR codes and pairing triples |
| SeedScenario.SeedRefsResolve | scripts/seed.ts:12-206 | every seeded row names rows that exist |
| SeedScenario.SeedShopFound | scripts/seed.ts:12-18 | the seeded café is found by its slug and by its QR code |
| SeedScenario.TwoSelectedByScore | lib/pairing.ts:17-20 | when a query selects two rules with different scores, the higher-scoring one is offered first |
| SeedScenario.SeedEspressoSelected | scripts/seed.ts:135-149 | the query for Espresso selects exactly its two rules |
| SeedScenario.SeedEspressoPairings | scripts/seed.ts:135-149 | Espresso is offered the croissant (95) before the biscotti (90), each with its coffee and pastry |

## Left out

- The database service, the authentication service, the network and the console are
  not modelled. Their answers are parameters: a failure before a statement reaches
  the tables, the signed-in user, `signUp`, `setSession`, `getSession` and
  `updateUser` replies.
- Identifiers, clocks and randomness are parameters: `uuidv4`, `Date.now`,
  `Math.random` and the ids the database draws.
- React rendering, markup and effect scheduling are not modelled. An effect is a
  method the model calls when the effect would run.
- `router.push`/`refresh` are not modelled as navigation; the page opened is kept
  as a value instead.
- The 2-second timers before navigation are modelled as immediate navigation.
- The fire-and-forget timing of un-awaited `trackEvent` calls is not modelled, and
  neither is the delivery order of concurrent writes.
- Basket.Total: prices are integer cents. `parseFloat`, `toString` and `toFixed` of
  decimal prices are not modelled, so FormFields.PriceRoundTrip is about cents.
- FormFields.PriceValue: reads the price text as whole cents with `parseInt`
  semantics, not as the decimal `parseFloat` reads.
- PairingFormComponent.ScoreAccepted: the score input accepts only decimal digits
  here. Other spellings the browser takes for a number from 1 to 100 ("5.0", "1e2",
  "0.5e1") are treated as refused; `parseInt` reads the last of these as 0.
- PairingFormComponent.PairingForm.StatementKeepsScores: holds for the scores the
  model's input accepts, digits only. The browser also accepts "0.5e1", which is
  saved as 0, outside 1–100 (`PairingFormComponent.ExponentScoreSavedAsZero`).
- CoffeeFormComponent.CoffeeForm.Submittable: the browser's URL check on the image
  input and the `step` check on the price input are not modelled; only the
  `required` inputs are.
- PastryFormComponent.PastryForm.Submittable: the same for the pastry form.
- Schema: `varchar(n)` counts characters, and Postgres's truncation of trailing
  spaces beyond the limit is not modelled. Ids are strings; the `uuid` syntax of the
  key columns is not checked.
- Dashboard.Rate: rates are exact rationals rather than floating-point numbers.
- ShopFormComponent.SanitizeSlug: lower-casing covers ASCII letters only; Unicode case
  mapping is not modelled.
- ResetPassword.HashParam: `URLSearchParams` percent-decoding and `+` handling are not
  modelled, so tokens are read as written.
- Urls.ItemsUrlReadsBack: query values are read as written. Percent-decoding is not
  modelled.
- AdminSignup.SignupErrors: the e-mail format check belongs to the validation library
  and is a parameter.
- The reset page's check that a window exists is left out.
- The signup page's `owner_email` and `active` insert fields name no column of the
  table definitions and are not modelled.
- Display-only fallbacks are not modelled: the shop name `N/A` and the roast `-` of
  the coffee table.
- The admin pages that only query and render are not modelled, and neither are the
  scan tracker that fires on every mount, the navigation bar, the menu, the coffee
  selection screen, the login and plain sign-up pages, the orders page and the test
  analytics route.
- The seed scenario uses fixed names instead of generated ids and omits
  descriptions, images and the rules' reasoning text. The migration and test-user scripts are I/O and are not
  modelled.

=== FILE: admin_lists.dfy ===
/** The admin tables of shops, coffees, pastries and pairing rules. Each keeps its own
    copy of the rows it was given; a confirmed delete that the database accepts drops
    the row with that id from the copy, and a cancelled or failed one leaves it alone. */
module AdminLists {
  import opened Wrappers
  import opened Seqs
  import opened Types
  import opened Schema
  import opened Storage

  /** `!selected || shopOf(x) === selected`: every row when no shop is selected,
      otherwise the rows of that shop, in their order. */
  function OfShop<T(!new)>(xs: seq<T>, shopOf: T -> string, selected: string): (r: seq<T>)
    ensures selected == "" ==> r == xs
    ensures selected != "" ==> forall x :: x in r <==> x in xs && shopOf(x) == selected
    ensures |r| <= |xs|
  {
    if selected == "" then xs else Keep(xs, KeyIs(shopOf, selected))
  }

  // ---------------------------------------------------------------- shops

  const NO_SHOPS: string := "No shops found"

  /** The description column: `settings.description || '-'`. */
  function DescriptionText(s: Shop): (text: string)
    ensures text != ""
    ensures "description" in s.settings && s.settings["description"] != "" ==> text == s.settings["description"]
    ensures "description" !in s.settings || s.settings["description"] == "" ==> text == "-"
  {
    if "description" in s.settings && s.settings["description"] != "" then s.settings["description"] else "-"
  }

  class ShopList {
    var shops: seq<Shop>
    /** The last `alert` shown. */
    var alert: Option<string>

    constructor(initial: seq<Shop>)
      ensures shops == initial && alert.None?
    {
      shops := initial;
      alert := None;
    }

    /** `handleDelete`: nothing without confirmation; a failed delete is alerted and
        keeps the list; otherwise the shop goes, with what the database removes along
        with it, and the list loses exactly the rows with that id. */
    method HandleDelete(db: Db, id: string, confirmed: bool, fault: Option<string>)
      modifies this, db
      ensures !confirmed ==> shops == old(shops) && alert == old(alert) && db.store == old(db.store)
      ensures confirmed && fault.Some? ==>
        shops == old(shops) && alert == Some("Error deleting shop: " + fault.value) && db.store == old(db.store)
      ensures confirmed && fault.None? ==>
        shops == Without(old(shops), ShopId, id) && alert == old(alert) && db.store == DeleteShop(old(db.store), id)
    {
      if !confirmed {
        return;
      }
      var err := db.Run(Success(DeleteShop(db.store, id)), fault);
      if err.Some? {
        alert := Some("Error deleting shop: " + err.value);
        return;
      }
      shops := Without(shops, ShopId, id);
    }

    /** "No shops found" exactly when the list is empty. */
    function EmptyMessage(): (m: Option<string>)
      reads this
      ensures m.Some? <==> shops == []
      ensures m.Some? ==> m.value == NO_SHOPS
    {
      if shops == [] then Some(NO_SHOPS) else None
    }
  }

  // ---------------------------------------------------------------- coffees

  const NO_COFFEES: string := "No coffees found"

  class CoffeeList {
    var coffees: seq<Coffee>
    var alert: Option<string>

    constructor(initial: seq<Coffee>)
      ensures coffees == initial && alert.None?
    {
      coffees := initial;
      alert := None;
    }

    method HandleDelete(db: Db, id: string, confirmed: bool, fault: Option<string>)
      modifies this, db
      ensures !confirmed ==> coffees == old(coffees) && alert == old(alert) && db.store == old(db.store)
      ensures confirmed && fault.Some? ==>
        coffees == old(coffees) && alert == Some("Error deleting coffee: " + fault.value) && db.store == old(db.store)
      ensures confirmed && fault.None? ==>
        coffees == Without(old(coffees), CoffeeId, id) && alert == old(alert) && db.store == DeleteCoffee(old(db.store), id)
    {
      if !confirmed {
        return;
      }
      var err := db.Run(Success(DeleteCoffee(db.store, id)), fault);
      if err.Some? {
        alert := Some("Error deleting coffee: " + err.value);
        return;
      }
      coffees := Without(coffees, CoffeeId, id);
    }

    function EmptyMessage(): (m: Option<string>)
      reads this
      ensures m.Some? <==> coffees == []
      ensures m.Some? ==> m.value == NO_COFFEES
    {
      if coffees == [] then Some(NO_COFFEES) else None
    }
  }

  // ---------------------------------------------------------------- pastries

  const NO_PASTRIES: string := "No pastries found"

  /** The flavour column: `flavor_profile || notes || '-'`. */
  function FlavourText(p: Pastry): (text: string)
    ensures text != ""
    ensures p.flavorProfile.Some? && p.flavorProfile.value != "" ==> text == p.flavorProfile.value
    ensures (p.flavorProfile.None? || p.flavorProfile.value == "") && p.notes.Some? && p.notes.value != "" ==>
      text == p.notes.value
    ensures text == "-" || Some(text) == p.flavorProfile || Some(text) == p.notes
  {
    if p.flavorProfile.Some? && p.flavorProfile.value != "" then p.flavorProfile.value
    else if p.notes.Some? && p.notes.value != "" then p.notes.value
    else "-"
  }

  class PastryList {
    var pastries: seq<Pastry>
    var alert: Option<string>

    constructor(initial: seq<Pastry>)
      ensures pastries == initial && alert.None?
    {
      pastries := initial;
      alert := None;
    }

    method HandleDelete(db: Db, id: string, confirmed: bool, fault: Option<string>)
      modifies this, db
      ensures !confirmed ==> pastries == old(pastries) && alert == old(alert) && db.store == old(db.store)
      ensures confirmed && fault.Some? ==>
        pastries == old(pastries) && alert == Some("Error deleting pastry: " + fault.value) && db.store == old(db.store)
      ensures confirmed && fault.None? ==>
        pastries == Without(old(pastries), PastryId, id) && alert == old(alert) && db.store == DeletePastry(old(db.store), id)
    {
      if !confirmed {
        return;
      }
      var err := db.Run(Success(DeletePastry(db.store, id)), fault);
      if err.Some? {
        alert := Some("Error deleting pastry: " + err.value);
        return;
      }
      pastries := Without(pastries, PastryId, id);
    }

    function EmptyMessage(): (m: Option<string>)
      reads this
      ensures m.Some? <==> pastries == []
      ensures m.Some? ==> m.value == NO_PASTRIES
    {
      if pastries == [] then Some(NO_PASTRIES) else None
    }
  }

  // ---------------------------------------------------------------- pairing rules

  const NO_PAIRINGS: string := "No pairings found"

  function DetailsId(p: PairingWithDetails): string { p.rule.id }
  function DetailsShop(p: PairingWithDetails): string { p.rule.shopId }

  /** The coffee column: the joined coffee's name, or `N/A`. */
  function CoffeeLabel(p: PairingWithDetails): (text: string)
    ensures p.coffee.Some? && p.coffee.value.name != "" ==> text == p.coffee.value.name
    ensures p.coffee.None? || p.coffee.value.name == "" ==> text == "N/A"
    ensures text != ""
  {
    if p.coffee.Some? && p.coffee.value.name != "" then p.coffee.value.name else "N/A"
  }

  /** The pastry column, chosen the same way. */
  function PastryLabel(p: PairingWithDetails): (text: string)
    ensures p.pastry.Some? && p.pastry.value.name != "" ==> text == p.pastry.value.name
    ensures p.pastry.None? || p.pastry.value.name == "" ==> text == "N/A"
    ensures text != ""
  {
    if p.pastry.Some? && p.pastry.value.name != "" then p.pastry.value.name else "N/A"
  }

  class PairingList {
    const allCoffees: seq<Coffee>
    const allPastries: seq<Pastry>
    var pairings: seq<PairingWithDetails>
    /** The shop filter; empty for every shop. */
    var selectedShop: string
    var alert: Option<string>

    constructor(allCoffees: seq<Coffee>, allPastries: seq<Pastry>, initial: seq<PairingWithDetails>)
      ensures this.allCoffees == allCoffees && this.allPastries == allPastries
      ensures pairings == initial && selectedShop == "" && alert.None?
    {
      this.allCoffees := allCoffees;
      this.allPastries := allPastries;
      pairings := initial;
      selectedShop := "";
      alert := None;
    }

    method SelectShop(shopId: string)
      modifies this
      ensures selectedShop == shopId && pairings == old(pairings) && alert == old(alert)
    {
      selectedShop := shopId;
    }

    method HandleDelete(db: Db, id: string, confirmed: bool, fault: Option<string>)
      modifies this, db
      ensures selectedShop == old(selectedShop)
      ensures !confirmed ==> pairings == old(pairings) && alert == old(alert) && db.store == old(db.store)
      ensures confirmed && fault.Some? ==>
        pairings == old(pairings) && alert == Some("Error deleting pairing: " + fault.value) && db.store == old(db.store)
      ensures confirmed && fault.None? ==>
        && pairings == Without(old(pairings), DetailsId, id) && alert == old(alert)
        && db.store == DeletePairingRule(old(db.store), id)
    {
      if !confirmed {
        return;
      }
      var err := db.Run(Success(DeletePairingRule(db.store, id)), fault);
      if err.Some? {
        alert := Some("Error deleting pairing: " + err.value);
        return;
      }
      pairings := Without(pairings, DetailsId, id);
    }

    /** The rows the table shows. */
    function Rows(): (r: seq<PairingWithDetails>)
      reads this
      ensures selectedShop == "" ==> r == pairings
      ensures selectedShop != "" ==> forall p :: p in r <==> p in pairings && p.rule.shopId == selectedShop
    {
      OfShop(pairings, DetailsShop, selectedShop)
    }

    /** The coffees handed to the form: every coffee, or the selected shop's. */
    function FormCoffees(): (r: seq<Coffee>)
      reads this
      ensures selectedShop == "" ==> r == allCoffees
      ensures selectedShop != "" ==> forall c :: c in r <==> c in allCoffees && c.shopId == selectedShop
    {
      OfShop(allCoffees, CoffeeShop, selectedShop)
    }

    /** The pastries handed to the form, chosen the same way. */
    function FormPastries(): (r: seq<Pastry>)
      reads this
      ensures selectedShop == "" ==> r == allPastries
      ensures selectedShop != "" ==> forall p :: p in r <==> p in allPastries && p.shopId == selectedShop
    {
      OfShop(allPastries, PastryShop, selectedShop)
    }

    /** "No pairings found" exactly when no row is shown. */
    function EmptyMessage(): (m: Option<string>)
      reads this
      ensures m.Some? <==> Rows() == []
      ensures m.Some? ==> m.value == NO_PAIRINGS
    {
      if Rows() == [] then Some(NO_PAIRINGS) else None
    }
  }

  /** A delete of a listed row, in a list whose ids are distinct, removes that row and
      no other, and keeps the rest in order. */
  lemma DeleteRemovesOneRow(pairings: seq<PairingWithDetails>, k: nat)
    requires UniqueBy(pairings, DetailsId) && k < |pairings|
    ensures Without(pairings, DetailsId, pairings[k].rule.id) == pairings[..k] + pairings[k + 1..]
  {
    WithoutAt(pairings, DetailsId, k);
  }
}

=== FILE: analytics.dfy ===
/** The client-side tracker: a session id kept in the browser's local storage, and one
    `analytics_events` row written per tracked event. Tracking never fails the page: a
    failed insert is only logged. */
module Analytics {
  import opened Wrappers
  import opened Types
  import opened Schema
  import opened Storage

  const SESSION_KEY: string := "session_id"

  /** The session id stored in local storage; a missing item reads as empty, which is
      how `!sessionId` treats both. */
  function StoredId(storage: map<string, string>): (id: string)
    ensures SESSION_KEY in storage ==> id == storage[SESSION_KEY]
    ensures SESSION_KEY !in storage ==> id == ""
  {
    if SESSION_KEY in storage then storage[SESSION_KEY] else ""
  }

  /** The part of the browser the tracker uses: whether a window exists at all (it does
      not while rendering on the server) and local storage. */
  class Browser {
    var hasWindow: bool
    var storage: map<string, string>

    constructor(hasWindow: bool, storage: map<string, string>)
      ensures this.hasWindow == hasWindow && this.storage == storage
    {
      this.hasWindow := hasWindow;
      this.storage := storage;
    }

    /** The id the tracker uses right now: the stored one in a browser, empty on the
        server. */
    function CurrentId(): (id: string)
      reads this
      ensures !hasWindow ==> id == ""
      ensures hasWindow ==> id == StoredId(storage)
    {
      if hasWindow then StoredId(storage) else ""
    }

    /** `getSessionId`: on the server the id is empty and nothing is stored; in a
        browser a stored non-empty id is reused, and otherwise `freshId` (a new uuid) is
        stored and returned. Either way the id returned is the one now stored, so every
        later call returns it again. */
    method GetSessionId(freshId: string) returns (id: string)
      modifies this
      ensures hasWindow == old(hasWindow)
      ensures id == CurrentId()
      ensures !hasWindow ==> id == "" && storage == old(storage)
      ensures hasWindow && StoredId(old(storage)) != "" ==> id == StoredId(old(storage)) && storage == old(storage)
      ensures hasWindow && StoredId(old(storage)) == "" ==>
        id == freshId && storage == old(storage)[SESSION_KEY := freshId]
    {
      if !hasWindow {
        return "";
      }
      id := StoredId(storage);
      if id == "" {
        id := freshId;
        storage := storage[SESSION_KEY := freshId];
      }
    }
  }

  /** The optional fields a caller passes along with an event. */
  datatype TrackData = TrackData(
    coffeeId: Option<string>,
    pastryId: Option<string>,
    pairingRuleId: Option<string>,
    metadata: Option<map<string, string>>)

  const NoData: TrackData := TrackData(None, None, None, None)

  /** One call of `trackEvent`, as the components make it. */
  datatype TrackRequest = TrackRequest(shopId: string, kind: EventKind, data: TrackData)

  /** `x || null` on an optional string: absent and empty both become null. */
  function OrNull(x: Option<string>): (r: Option<string>)
    ensures r.None? <==> x.None? || x.value == ""
    ensures r.Some? ==> r == x
  {
    if x.None? || x.value == "" then None else x
  }

  /** The row `trackEvent` inserts: the nullable references and the user id go through
      `|| null`, the caller's metadata goes to `event_data` (an empty object when there
      is none), and the `metadata` column keeps its default. */
  function TrackedRow(req: TrackRequest, sessionId: string, userId: Option<string>): EventRow {
    EventRow(
      req.shopId, sessionId, KindName(req.kind),
      OrNull(req.data.coffeeId), OrNull(req.data.pastryId), OrNull(req.data.pairingRuleId),
      OrNull(userId), map[],
      Some(if req.data.metadata.Some? then req.data.metadata.value else map[]))
  }

  /** Going through `|| null` loses only the difference between an empty and an absent
      value, and doing it twice changes nothing more. */
  lemma OrNullKeepsValue(x: Option<string>)
    ensures x.GetOr("") == OrNull(x).GetOr("")
    ensures OrNull(OrNull(x)) == OrNull(x)
  {
  }

  /** The stored row reads back as the request: the shop, the kind, the references as
      far as `|| null` keeps them, and the metadata. */
  lemma TrackedRowReadsBack(req: TrackRequest, sessionId: string, userId: Option<string>)
    ensures var row := TrackedRow(req, sessionId, userId);
      && row.shopId == req.shopId && row.sessionId == sessionId
      && (forall k :: KindName(k) == row.eventType ==> k == req.kind)
      && row.coffeeId.GetOr("") == req.data.coffeeId.GetOr("")
      && row.pastryId.GetOr("") == req.data.pastryId.GetOr("")
      && row.pairingRuleId.GetOr("") == req.data.pairingRuleId.GetOr("")
      && row.eventData.Some?
      && (req.data.metadata.Some? ==> row.eventData.value == req.data.metadata.value)
  {
    forall k | KindName(k) == KindName(req.kind)
      ensures k == req.kind
    {
      KindNameInjective(k, req.kind);
    }
    OrNullKeepsValue(req.data.coffeeId);
    OrNullKeepsValue(req.data.pastryId);
    OrNullKeepsValue(req.data.pairingRuleId);
  }

  /** `trackEvent`: takes the session id, then inserts one row. `userId` is the signed-in
      user, `freshSession` the uuid a new session would get, `eventId` the id the database
      assigns, and `fault` a failure before the insert reaches the table. Exactly one row
      is appended, or nothing changes and the error is logged; it never throws. */
  method TrackEvent(browser: Browser, db: Db, req: TrackRequest, userId: Option<string>,
                    freshSession: string, eventId: string, fault: Option<string>)
    returns (logged: Option<string>)
    modifies browser, db
    ensures browser.hasWindow == old(browser.hasWindow)
    ensures !browser.hasWindow || StoredId(old(browser.storage)) != "" ==> browser.storage == old(browser.storage)
    ensures browser.hasWindow && StoredId(old(browser.storage)) == "" ==>
      browser.storage == old(browser.storage)[SESSION_KEY := freshSession]
    ensures var next := InsertEvent(old(db.store), eventId, TrackedRow(req, browser.CurrentId(), userId));
      && (fault.Some? ==> logged == fault && db.store == old(db.store))
      && (fault.None? && next.Failure? ==> logged == Some(ErrorMessage(next.error)) && db.store == old(db.store))
      && (fault.None? && next.Success? ==> logged.None? && db.store == next.value)
    ensures logged.None? ==>
      db.store == old(db.store).(events := old(db.store.events) + [Event(eventId, TrackedRow(req, browser.CurrentId(), userId))])
  {
    var sessionId := browser.GetSessionId(freshSession);
    var row := TrackedRow(req, sessionId, userId);
    logged := db.Run(InsertEvent(db.store, eventId, row), fault);
  }
}

=== FILE: analytics_server.dfy ===
/** The server-side scan tracker: records a QR-code scan before the visitor is
    redirected, under a session id made from the clock and a random suffix. */
module AnalyticsServer {
  import opened Wrappers
  import opened JsString
  import opened Types
  import opened Schema
  import opened Storage

  const SCAN_PREFIX: string := "qr_scan_"
  const NO_DATA: string := "No data returned from insert"

  /** The session id of a scan: the prefix, `Date.now()` in decimal, an underscore and
      the random suffix. */
  function ScanSessionId(now: nat, suffix: string): (id: string)
    ensures StartsWith(id, SCAN_PREFIX)
    ensures |id| > |SCAN_PREFIX| + |suffix|
  {
    SCAN_PREFIX + NatToString(now) + "_" + suffix
  }

  /** When a scan session began, read back from its id with `parseInt`. */
  function ScanTime(sessionId: string): Option<int> {
    if StartsWith(sessionId, SCAN_PREFIX) then ParseInt(sessionId[|SCAN_PREFIX|..]) else None
  }

  /** A scan session id records the moment of the scan, whatever the suffix. */
  lemma ScanTimeRoundTrip(now: nat, suffix: string)
    ensures ScanTime(ScanSessionId(now, suffix)) == Some(now)
  {
    var d := NatToString(now);
    var t := "_" + suffix;
    var id := ScanSessionId(now, suffix);
    assert id == SCAN_PREFIX + (d + t);
    assert id[|SCAN_PREFIX|..] == d + t;
    ParseIntNatThen(now, t);
  }

  /** The row a scan writes: no user, no catalog references, and `metadata` holding the
      QR code, the ISO time `isoNow` and the source. */
  function ScanRow(shopId: string, qrCode: string, sessionId: string, isoNow: string): EventRow {
    EventRow(shopId, sessionId, KindName(Scan), None, None, None, None,
      map["qr_code" := qrCode, "timestamp" := isoNow, "source" := "qr_scan"], None)
  }

  /** A scan row names no coffee, pastry or rule, so its insert can fail only on an
      over-long session id, the shop reference or a taken id. */
  lemma ScanRowInsert(st: Store, id: string, shopId: string, qrCode: string, sessionId: string, isoNow: string)
    ensures InsertEvent(st, id, ScanRow(shopId, qrCode, sessionId, isoNow)).Success? <==>
      |sessionId| <= 255 && id !in EventIds(st) && shopId in ShopIds(st)
    ensures var row := ScanRow(shopId, qrCode, sessionId, isoNow);
      row.eventType == "scan" && row.metadata["qr_code"] == qrCode && row.metadata["source"] == "qr_scan"
  {
  }

  /** `trackScanEvent`. `now`, `suffix` and `isoNow` are the clock and the random part of
      the session id, `eventId` the id the database assigns, `fault` a failure before the
      insert reaches the table, and `visible` whether the select after the insert returns
      the new row. An error is thrown as a failure; a successful insert whose row is not
      returned still fails, with the row stored. */
  method TrackScanEvent(db: Db, shopId: string, qrCode: string, now: nat, suffix: string,
                        isoNow: string, eventId: string, fault: Option<string>, visible: bool)
    returns (r: Result<Event, string>)
    modifies db
    ensures var row := ScanRow(shopId, qrCode, ScanSessionId(now, suffix), isoNow);
      var next := InsertEvent(old(db.store), eventId, row);
      && (fault.Some? ==> r == Failure(fault.value) && db.store == old(db.store))
      && (fault.None? && next.Failure? ==> r == Failure(ErrorMessage(next.error)) && db.store == old(db.store))
      && (fault.None? && next.Success? ==>
            db.store == next.value && r == if visible then Success(Event(eventId, row)) else Failure(NO_DATA))
    ensures r.Success? ==> r.value in db.store.events && r.value.row.shopId == shopId
  {
    var row := ScanRow(shopId, qrCode, ScanSessionId(now, suffix), isoNow);
    var err := db.Run(InsertEvent(db.store, eventId, row), fault);
    if err.Some? {
      return Failure(err.value);
    }
    if visible {
      r := Success(Event(eventId, row));
    } else {
      r := Failure(NO_DATA);
    }
  }
}

=== FILE: auth.dfy ===
/** The server-side authentication guards: who is signed in, the ownership check, and
    the redirect to the login page. */
module Auth {
  import opened Wrappers
  import opened JsString

  /** A signed-in account; `name` is `user_metadata.name`. */
  datatype User = User(id: string, email: Option<string>, name: Option<string>)

  /** What the authentication service answers when asked for the current user. */
  datatype AuthAnswer = AuthAnswer(user: Option<User>, error: bool)

  /** What a guard does: send the browser elsewhere, throw, or let the page go on. */
  datatype Outcome = Redirect(url: string) | Throw(message: string) | Proceed(user: User)

  const UNAUTHORIZED: string := "Unauthorized: You do not have permission to access this resource"

  /** `getCurrentUser`: the user, or null on an error or when nobody is signed in. */
  function GetCurrentUser(a: AuthAnswer): (r: Option<User>)
    ensures r.Some? <==> !a.error && a.user.Some?
    ensures r.Some? ==> r == a.user
  {
    if a.error || a.user.None? then None else a.user
  }

  /** `verifyUserId`: both ids present and equal. */
  function VerifyUserId(userId: string, requestedUserId: string): (ok: bool)
    ensures ok <==> userId != "" && userId == requestedUserId
    ensures userId == "" || requestedUserId == "" ==> !ok
  {
    if userId == "" || requestedUserId == "" then false else userId == requestedUserId
  }

  /** Characters `encodeURIComponent` leaves as they are. */
  predicate IsUnreserved(c: char) {
    ('A' <= c <= 'Z') || ('a' <= c <= 'z') || ('0' <= c <= '9') ||
    c == '-' || c == '_' || c == '.' || c == '!' || c == '~' || c == '*' || c == '\'' || c == '(' || c == ')'
  }

  function HexDigit(n: nat): (c: char)
    requires n < 16
    ensures ('0' <= c <= '9') || ('A' <= c <= 'F')
  {
    if n < 10 then ('0' as int + n) as char else ('A' as int + n - 10) as char
  }

  /** The UTF-8 bytes of a code point. */
  function Utf8(n: nat): (bytes: seq<nat>)
    requires n < 0x11_0000
    ensures 1 <= |bytes| <= 4
    ensures forall i :: 0 <= i < |bytes| ==> bytes[i] < 256
  {
    if n < 0x80 then [n]
    else if n < 0x800 then [0xC0 + n / 0x40, 0x80 + n % 0x40]
    else if n < 0x1_0000 then [0xE0 + n / 0x1000, 0x80 + (n / 0x40) % 0x40, 0x80 + n % 0x40]
    else [0xF0 + n / 0x4_0000, 0x80 + (n / 0x1000) % 0x40, 0x80 + (n / 0x40) % 0x40, 0x80 + n % 0x40]
  }

  /** `%XX` for each byte. */
  function PercentBytes(bytes: seq<nat>): (r: string)
    requires forall i :: 0 <= i < |bytes| ==> bytes[i] < 256
    ensures |r| == 3 * |bytes|
    ensures forall i :: 0 <= i < |r| ==> IsUnreserved(r[i]) || r[i] == '%'
  {
    if bytes == [] then ""
    else ['%', HexDigit(bytes[0] / 16), HexDigit(bytes[0] % 16)] + PercentBytes(bytes[1..])
  }

  /** `encodeURIComponent`: unreserved characters stay, every other one becomes the
      percent-encoding of its UTF-8 bytes. No reserved character other than the `%` of
      an escape is left, and the text comes out unchanged exactly when it has nothing to
      escape. */
  function EncodeURIComponent(s: string): (r: string)
    ensures |r| >= |s|
    ensures forall i :: 0 <= i < |r| ==> IsUnreserved(r[i]) || r[i] == '%'
    ensures (forall i :: 0 <= i < |s| ==> IsUnreserved(s[i])) ==> r == s
    ensures r == s ==> forall i :: 0 <= i < |s| ==> IsUnreserved(s[i])
  {
    if s == [] then ""
    else if IsUnreserved(s[0]) then [s[0]] + EncodeURIComponent(s[1..])
    else PercentBytes(Utf8(s[0] as nat)) + EncodeURIComponent(s[1..])
  }

  /** Where `requireAuth` sends a visitor who is not signed in. */
  function LoginRedirect(): (url: string)
    ensures url == "/auth/login?redirect=%2Fadmin"
  {
    var enc := EncodeURIComponent("/admin");
    assert "/admin"[1..] == "admin";
    assert EncodeURIComponent("admin") == "admin";
    assert Utf8('/' as nat) == [0x2F];
    "/auth/login?redirect=" + enc
  }

  /** `requireAuth`: the user, or a redirect to the login page. */
  function RequireAuth(a: AuthAnswer): (r: Outcome)
    ensures GetCurrentUser(a).None? ==> r == Redirect("/auth/login?redirect=%2Fadmin")
    ensures GetCurrentUser(a).Some? ==> r == Proceed(GetCurrentUser(a).value)
  {
    match GetCurrentUser(a)
    case None => Redirect(LoginRedirect())
    case Some(u) => Proceed(u)
  }

  /** `requireAuthAndOwnership`: a visitor who is not signed in is redirected; a user
      whose id does not match the resource's owner gets the error thrown; only the
      owner proceeds. */
  function RequireAuthAndOwnership(a: AuthAnswer, requestedUserId: string): (r: Outcome)
    ensures GetCurrentUser(a).None? ==> r == Redirect("/auth/login?redirect=%2Fadmin")
    ensures r.Proceed? <==>
      GetCurrentUser(a).Some? && GetCurrentUser(a).value.id != "" && GetCurrentUser(a).value.id == requestedUserId
    ensures r.Proceed? ==> r.user == GetCurrentUser(a).value
    ensures r.Throw? ==> r.message == UNAUTHORIZED
  {
    match RequireAuth(a)
    case Proceed(u) => if VerifyUserId(u.id, requestedUserId) then Proceed(u) else Throw(UNAUTHORIZED)
    case other => other
  }
}

=== FILE: basket.dfy ===
/** What the cart and the checkout screens show and record for the chosen coffee,
    pastry and pairing. */
module Basket {
  import opened Wrappers
  import opened Types
  import opened Analytics

  /** `price || 0`: a missing price counts as nothing. */
  function PriceOrZero(price: Option<int>): (p: int)
    ensures price.None? ==> p == 0
    ensures price.Some? ==> p == price.value
  {
    if price.Some? then price.value else 0
  }

  /** `coffee.price || 0` plus `pastry?.price || 0`. */
  function Total(coffee: Coffee, pastry: Option<Pastry>): (t: int)
    ensures pastry.None? ==> t == PriceOrZero(coffee.price)
    ensures pastry.Some? ==> t == PriceOrZero(coffee.price) + PriceOrZero(pastry.value.price)
  {
    PriceOrZero(coffee.price) + if pastry.Some? then PriceOrZero(pastry.value.price) else 0
  }

  /** With prices that are not negative, the total is at least each listed price, and it
      is zero exactly when neither item has a positive price. */
  lemma TotalBounds(coffee: Coffee, pastry: Option<Pastry>)
    requires coffee.price.Some? ==> coffee.price.value >= 0
    requires pastry.Some? && pastry.value.price.Some? ==> pastry.value.price.value >= 0
    ensures Total(coffee, pastry) >= 0
    ensures coffee.price.Some? ==> Total(coffee, pastry) >= coffee.price.value
    ensures pastry.Some? && pastry.value.price.Some? ==> Total(coffee, pastry) >= pastry.value.price.value
    ensures Total(coffee, pastry) == 0 <==>
      PriceOrZero(coffee.price) == 0 && (pastry.None? || PriceOrZero(pastry.value.price) == 0)
  {
  }

  /** The three ids the cart and checkout events carry. */
  function ItemData(coffee: Coffee, pastry: Pastry, pairing: PairingRule, metadata: Option<map<string, string>>)
    : (d: TrackData)
    ensures d.coffeeId == Some(coffee.id) && d.pastryId == Some(pastry.id) && d.pairingRuleId == Some(pairing.id)
    ensures d.metadata == metadata
  {
    TrackData(Some(coffee.id), Some(pastry.id), Some(pairing.id), metadata)
  }
}

=== FILE: cart_view.dfy ===
/** The cart screen: it records `add_to_cart` when it opens with a complete pairing,
    and checking out records `checkout` and opens the checkout page. Nothing is
    recorded unless the coffee, the pastry and the pairing are all present. */
module CartViewComponent {
  import opened Wrappers
  import opened Types
  import opened Analytics
  import opened Urls
  import opened Basket

  /** What the screen shows: the empty-cart message, or the items and their total. */
  datatype CartScreen = EmptyCart(message: string) | Items(total: int)

  class CartView {
    const shop: Shop
    const coffee: Option<Coffee>
    const pastry: Option<Pastry>
    const pairing: Option<PairingRule>
    var isCheckingOut: bool
    /** The `trackEvent` calls made so far. */
    var tracked: seq<TrackRequest>
    /** The page `router.push` last opened. */
    var navigation: Option<string>

    constructor(shop: Shop, coffee: Option<Coffee>, pastry: Option<Pastry>, pairing: Option<PairingRule>)
      ensures this.shop == shop && this.coffee == coffee && this.pastry == pastry && this.pairing == pairing
      ensures !isCheckingOut && tracked == [] && navigation.None?
    {
      this.shop := shop;
      this.coffee := coffee;
      this.pastry := pastry;
      this.pairing := pairing;
      isCheckingOut := false;
      tracked := [];
      navigation := None;
    }

    /** Coffee, pastry and pairing are all present. */
    predicate Complete() {
      coffee.Some? && pastry.Some? && pairing.Some?
    }

    /** `handleAddToCart`: one `add_to_cart` call with the three ids when the cart is
        complete, nothing otherwise. */
    method HandleAddToCart()
      modifies this
      ensures Complete() ==>
        tracked == old(tracked) + [TrackRequest(shop.id, AddToCart, ItemData(coffee.value, pastry.value, pairing.value, None))]
      ensures !Complete() ==> tracked == old(tracked)
      ensures isCheckingOut == old(isCheckingOut) && navigation == old(navigation)
    {
      if coffee.Some? && pastry.Some? && pairing.Some? {
        tracked := tracked + [TrackRequest(shop.id, AddToCart, ItemData(coffee.value, pastry.value, pairing.value, None))];
      }
    }

    /** The mount effect: calls `handleAddToCart` when the cart is complete. */
    method Mount()
      modifies this
      ensures Complete() ==>
        tracked == old(tracked) + [TrackRequest(shop.id, AddToCart, ItemData(coffee.value, pastry.value, pairing.value, None))]
      ensures !Complete() ==> tracked == old(tracked)
      ensures isCheckingOut == old(isCheckingOut) && navigation == old(navigation)
    {
      if Complete() {
        HandleAddToCart();
      }
    }

    /** `handleCheckout`: does nothing unless the cart is complete; then it marks the
        checkout as under way, records `checkout` with the three ids and opens the
        checkout page for them. */
    method HandleCheckout()
      modifies this
      ensures !Complete() ==>
        isCheckingOut == old(isCheckingOut) && tracked == old(tracked) && navigation == old(navigation)
      ensures Complete() ==>
        && isCheckingOut
        && tracked == old(tracked) + [TrackRequest(shop.id, Checkout, ItemData(coffee.value, pastry.value, pairing.value, None))]
        && navigation == Some(CheckoutUrl(shop.slug, coffee.value.id, pastry.value.id, pairing.value.id))
    {
      if coffee.None? || pastry.None? || pairing.None? {
        return;
      }
      isCheckingOut := true;
      tracked := tracked + [TrackRequest(shop.id, Checkout, ItemData(coffee.value, pastry.value, pairing.value, None))];
      navigation := Some(CheckoutUrl(shop.slug, coffee.value.id, pastry.value.id, pairing.value.id));
    }

    /** A press of the checkout button, which is disabled once a checkout is under
        way: the first press of a complete cart checks out, every later one does
        nothing, so one screen records at most one checkout. */
    method PressCheckout()
      modifies this
      ensures old(isCheckingOut) ==>
        isCheckingOut && tracked == old(tracked) && navigation == old(navigation)
      ensures !old(isCheckingOut) && !Complete() ==>
        !isCheckingOut && tracked == old(tracked) && navigation == old(navigation)
      ensures !old(isCheckingOut) && Complete() ==>
        && isCheckingOut
        && tracked == old(tracked) + [TrackRequest(shop.id, Checkout, ItemData(coffee.value, pastry.value, pairing.value, None))]
        && navigation == Some(CheckoutUrl(shop.slug, coffee.value.id, pastry.value.id, pairing.value.id))
    {
      if !isCheckingOut {
        HandleCheckout();
      }
    }

    /** The empty-cart message exactly when there is no coffee; otherwise the total,
        with a missing pastry or price counted as zero. */
    function Screen(): (s: CartScreen)
      ensures s.EmptyCart? <==> coffee.None?
      ensures s.Items? ==> s.total == Total(coffee.value, pastry)
    {
      if coffee.None? then EmptyCart("No items in cart.") else Items(Total(coffee.value, pastry))
    }
  }
}

=== FILE: checkout_view.dfy ===
/** The checkout screen: a small order form, prefilled for a signed-in user; placing
    the order records `checkout` with the form's name, table and order type when the
    cart is complete, and always goes on to the success page. */
module CheckoutViewComponent {
  import opened Wrappers
  import opened JsString
  import opened Types
  import opened Analytics
  import opened Urls
  import opened Basket
  import Auth

  datatype OrderForm = OrderForm(name: string, tableNumber: string, orderType: string, notes: string)

  const DefaultForm: OrderForm := OrderForm("Guest", "Table 4", "Serve to table", "")

  /** The choices of the order-type select. */
  const OrderTypes: seq<string> := ["Serve to table", "Pickup at counter", "Takeaway"]

  /** The `maxLength` of the notes box. */
  const NOTES_MAX: nat := 240

  /** The name prefilled for a signed-in user: the profile name, else the e-mail, else
      `Guest`; an empty value counts as missing. */
  function DisplayName(user: Auth.User): (name: string)
    ensures name != ""
    ensures user.name.Some? && user.name.value != "" ==> name == user.name.value
    ensures (user.name.None? || user.name.value == "") && user.email.Some? && user.email.value != "" ==>
      name == user.email.value
    ensures name == "Guest" || Some(name) == user.name || Some(name) == user.email
  {
    if user.name.Some? && user.name.value != "" then user.name.value
    else if user.email.Some? && user.email.value != "" then user.email.value
    else "Guest"
  }

  /** What the checkout event records about the order: no notes. */
  function OrderMetadata(form: OrderForm): (m: map<string, string>)
    ensures m.Keys == {"name", "tableNumber", "orderType"}
    ensures m["name"] == form.name && m["tableNumber"] == form.tableNumber && m["orderType"] == form.orderType
  {
    map["name" := form.name, "tableNumber" := form.tableNumber, "orderType" := form.orderType]
  }

  /** What the screen shows: the empty-cart message, or the form and the total. */
  datatype CheckoutScreen = EmptyCart(message: string) | Order(total: int)

  class CheckoutView {
    const shop: Shop
    const coffee: Option<Coffee>
    const pastry: Option<Pastry>
    const pairing: Option<PairingRule>
    var form: OrderForm
    var isPlacingOrder: bool
    var user: Option<Auth.User>
    /** The `trackEvent` calls made so far. */
    var tracked: seq<TrackRequest>
    /** The page `router.push` last opened. */
    var navigation: Option<string>

    /** The form keeps notes within the box's limit and the order type among the
        select's choices. */
    predicate Valid()
      reads this
    {
      Utf16Length(form.notes) <= NOTES_MAX && form.orderType in OrderTypes
    }

    constructor(shop: Shop, coffee: Option<Coffee>, pastry: Option<Pastry>, pairing: Option<PairingRule>)
      ensures this.shop == shop && this.coffee == coffee && this.pastry == pastry && this.pairing == pairing
      ensures form == DefaultForm && !isPlacingOrder && user.None? && tracked == [] && navigation.None?
      ensures Valid()
    {
      this.shop := shop;
      this.coffee := coffee;
      this.pastry := pastry;
      this.pairing := pairing;
      form := DefaultForm;
      isPlacingOrder := false;
      user := None;
      tracked := [];
      navigation := None;
    }

    predicate Complete() {
      coffee.Some? && pastry.Some? && pairing.Some?
    }

    /** The mount effect once the signed-in user is known: a user replaces the name with
        their display name and leaves the rest of the form; nobody signed in changes
        nothing. */
    method LoadUser(signedIn: Option<Auth.User>)
      modifies this
      requires Valid()
      ensures Valid()
      ensures signedIn.None? ==> form == old(form) && user == old(user)
      ensures signedIn.Some? ==> user == signedIn && form == old(form).(name := DisplayName(signedIn.value))
      ensures tracked == old(tracked) && navigation == old(navigation) && isPlacingOrder == old(isPlacingOrder)
    {
      if signedIn.Some? {
        user := signedIn;
        form := form.(name := DisplayName(signedIn.value));
      }
    }

    method SetName(text: string)
      modifies this
      requires Valid()
      ensures Valid() && form == old(form).(name := text)
      ensures tracked == old(tracked) && navigation == old(navigation) && isPlacingOrder == old(isPlacingOrder)
    {
      form := form.(name := text);
    }

    method SetTableNumber(text: string)
      modifies this
      requires Valid()
      ensures Valid() && form == old(form).(tableNumber := text)
      ensures tracked == old(tracked) && navigation == old(navigation) && isPlacingOrder == old(isPlacingOrder)
    {
      form := form.(tableNumber := text);
    }

    /** The select only offers its three choices. */
    method SetOrderType(choice: string)
      modifies this
      requires Valid() && choice in OrderTypes
      ensures Valid() && form == old(form).(orderType := choice)
      ensures tracked == old(tracked) && navigation == old(navigation) && isPlacingOrder == old(isPlacingOrder)
    {
      form := form.(orderType := choice);
    }

    /** The notes box holds at most 240 UTF-16 code units (`maxLength` counts them, so a
        character beyond the Basic Multilingual Plane takes two): longer input keeps its
        longest prefix that fits. */
    method SetNotes(text: string)
      modifies this
      requires Valid()
      ensures Valid() && form == old(form).(notes := TakeUnits(text, NOTES_MAX))
      ensures StartsWith(text, form.notes)
      ensures Utf16Length(text) <= NOTES_MAX ==> form.notes == text
      ensures |form.notes| < |text| ==> Utf16Length(form.notes) + Units(text[|form.notes|]) > NOTES_MAX
      ensures tracked == old(tracked) && navigation == old(navigation) && isPlacingOrder == old(isPlacingOrder)
    {
      form := form.(notes := TakeUnits(text, NOTES_MAX));
    }

    /** `handlePlaceOrder`: marks the order as being placed, records `checkout` with the
        three ids and the order metadata when the cart is complete, and opens the
        success page either way. */
    method PlaceOrder()
      modifies this
      requires Valid()
      ensures Valid() && form == old(form) && isPlacingOrder
      ensures Complete() ==>
        tracked == old(tracked) + [TrackRequest(shop.id, Checkout, ItemData(coffee.value, pastry.value, pairing.value,
          Some(OrderMetadata(form))))]
      ensures !Complete() ==> tracked == old(tracked)
      ensures navigation == Some(SuccessUrl(shop.slug))
    {
      isPlacingOrder := true;
      if coffee.Some? && pastry.Some? && pairing.Some? {
        tracked := tracked +
          [TrackRequest(shop.id, Checkout, ItemData(coffee.value, pastry.value, pairing.value, Some(OrderMetadata(form))))];
      }
      navigation := Some(SuccessUrl(shop.slug));
    }

    /** A press of the order button, which is disabled while an order is being placed:
        the first press places the order, every later one does nothing, so one screen
        records at most one checkout. */
    method PressPlaceOrder()
      modifies this
      requires Valid()
      ensures Valid() && form == old(form) && isPlacingOrder
      ensures old(isPlacingOrder) ==> tracked == old(tracked) && navigation == old(navigation)
      ensures !old(isPlacingOrder) && Complete() ==>
        tracked == old(tracked) + [TrackRequest(shop.id, Checkout, ItemData(coffee.value, pastry.value, pairing.value,
          Some(OrderMetadata(form))))]
      ensures !Complete() ==> tracked == old(tracked)
      ensures !old(isPlacingOrder) ==> navigation == Some(SuccessUrl(shop.slug))
    {
      if !isPlacingOrder {
        PlaceOrder();
      }
    }

    /** The empty-cart message exactly when there is no coffee; otherwise the total,
        with a missing pastry or price counted as zero. */
    function Screen(): (s: CheckoutScreen)
      ensures s.EmptyCart? <==> coffee.None?
      ensures s.Order? ==> s.total == Total(coffee.value, pastry)
    {
      if coffee.None? then EmptyCart("Your cart is empty. Add items before completing checkout.")
      else Order(Total(coffee.value, pastry))
    }
  }
}

=== FILE: coffee_form.dfy ===
/** The admin form that creates or edits a coffee: the text its inputs start with, the
    row it saves, and the save itself, which updates the coffee being edited or inserts
    a new one. */
module CoffeeFormComponent {
  import opened Wrappers
  import opened JsString
  import opened Types
  import opened Schema
  import opened Storage
  import opened FormFields

  /** `formData`: every input as text, except the active checkbox. */
  datatype CoffeeFormData = CoffeeFormData(
    shopId: string,
    name: string,
    roast: string,
    origin: string,
    tastingNotes: string,
    description: string,
    image: string,
    price: string,
    active: bool)

  /** What the inputs hold when the form opens: the coffee being edited, or a blank,
      active coffee on the first shop. */
  function InitialCoffeeForm(shops: seq<Shop>, coffee: Option<Coffee>): (f: CoffeeFormData)
    ensures f.shopId == InitialShopId(if coffee.Some? then Some(coffee.value.shopId) else None, shops)
    ensures coffee.None? ==> f.active && f.name == "" && f.price == "" && f.tastingNotes == ""
    ensures coffee.Some? ==> f.active == coffee.value.active && f.name == coffee.value.name
    ensures coffee.Some? ==> f.price == PriceText(coffee.value.price)
    ensures coffee.Some? ==> f.tastingNotes == TastingNotesText(coffee.value.tastingNotes)
  {
    match coffee
    case None => CoffeeFormData(InitialShopId(None, shops), "", "", "", "", "", "", "", true)
    case Some(c) =>
      CoffeeFormData(InitialShopId(Some(c.shopId), shops), c.name, EmptyIfNull(c.roast), EmptyIfNull(c.origin),
        TastingNotesText(c.tastingNotes), EmptyIfNull(c.description), EmptyIfNull(c.image),
        PriceText(c.price), c.active)
  }

  /** `coffeeData`: empty text becomes null, the notes are parsed (none is null), the
      price is parsed, and the name, the shop and the checkbox go through as they are. */
  function CoffeePayload(form: CoffeeFormData): (f: CoffeeFields)
    ensures f.shopId == form.shopId && f.name == form.name && f.active == Some(form.active)
    ensures f.roast.None? <==> form.roast == ""
    ensures f.origin.None? <==> form.origin == ""
    ensures f.description.None? <==> form.description == ""
    ensures f.image.None? <==> form.image == ""
    ensures f.roast.Some? ==> f.roast.value == form.roast
    ensures f.origin.Some? ==> f.origin.value == form.origin
    ensures f.description.Some? ==> f.description.value == form.description
    ensures f.image.Some? ==> f.image.value == form.image
    ensures form.price == "" ==> f.price.None?
    ensures f.price == PriceValue(form.price)
    ensures f.tastingNotes == TastingNotesValue(form.tastingNotes)
    ensures f.tastingNotes.None? <==> ParseTastingNotes(form.tastingNotes) == []
    ensures f.tastingNotes.Some? ==> forall n :: n in f.tastingNotes.value ==> IsNote(n)
  {
    CoffeeFields(form.shopId, form.name, NullIfEmpty(form.roast), NullIfEmpty(form.origin),
      TastingNotesValue(form.tastingNotes), NullIfEmpty(form.description), NullIfEmpty(form.image),
      PriceValue(form.price), Some(form.active))
  }

  /** A coffee as the form itself would have saved it: no empty text where the form
      writes null, notes that the parse gives back, and a shop. */
  predicate Saveable(c: Coffee) {
    && c.shopId != ""
    && c.roast != Some("") && c.origin != Some("") && c.description != Some("") && c.image != Some("")
    && c.tastingNotes != Some([])
    && (c.tastingNotes.Some? ==> forall n :: n in c.tastingNotes.value ==> IsNote(n))
  }

  /** Opening a coffee in the form and saving it untouched writes the row back as it
      was. */
  lemma EditUntouchedKeepsCoffee(shops: seq<Shop>, c: Coffee)
    requires Saveable(c)
    ensures ApplyCoffee(c, CoffeePayload(InitialCoffeeForm(shops, Some(c)))) == c
  {
    NullIfEmptyRoundTrip(c.roast);
    NullIfEmptyRoundTrip(c.origin);
    NullIfEmptyRoundTrip(c.description);
    NullIfEmptyRoundTrip(c.image);
    PriceRoundTrip(c.price);
    TastingNotesColumnRoundTrip(c.tastingNotes);
  }

  /** A new coffee saved from the untouched form is active, on the first shop, with no
      price and no notes. */
  lemma NewFormDefaults(first: Shop, rest: seq<Shop>, id: string)
    requires first.id != ""
    ensures var c := NewCoffee(id, CoffeePayload(InitialCoffeeForm([first] + rest, None)));
      c.active && c.shopId == first.id && c.price.None? && c.tastingNotes.None? && c.roast.None?
  {
    var shops := [first] + rest;
    assert shops[0] == first;
    var form := InitialCoffeeForm(shops, None);
    assert form == CoffeeFormData(first.id, "", "", "", "", "", "", "", true);
    NoNotes();
    var f := CoffeePayload(form);
    assert f.tastingNotes.None? && f.price.None? && f.roast.None?;
  }

  const ALERT_PREFIX: string := "Error saving coffee: "

  class CoffeeForm {
    const shops: seq<Shop>
    /** The coffee being edited; none for a new one. */
    const coffee: Option<Coffee>
    var form: CoffeeFormData
    var isSubmitting: bool
    /** The last `alert` shown. */
    var alert: Option<string>
    /** Whether `onSuccess` has been called. */
    var saved: bool

    constructor(shops: seq<Shop>, coffee: Option<Coffee>)
      ensures this.shops == shops && this.coffee == coffee
      ensures form == InitialCoffeeForm(shops, coffee) && !isSubmitting && alert.None? && !saved
    {
      this.shops := shops;
      this.coffee := coffee;
      form := InitialCoffeeForm(shops, coffee);
      isSubmitting := false;
      alert := None;
      saved := false;
    }

    /** An input's `onChange`: the form data replaced with one field changed. */
    method Edit(data: CoffeeFormData)
      modifies this
      ensures form == data
      ensures isSubmitting == old(isSubmitting) && alert == old(alert) && saved == old(saved)
    {
      form := data;
    }

    /** The statement a submit runs on the current contents: an update of the coffee
        being edited, or an insert under `newId`. */
    function Statement(st: Store, newId: string): (r: Result<Store, DbError>)
      reads this`form
      ensures coffee.Some? ==> r == UpdateCoffee(st, coffee.value.id, CoffeePayload(form))
      ensures coffee.None? ==> r == InsertCoffee(st, newId, CoffeePayload(form))
    {
      if coffee.Some? then UpdateCoffee(st, coffee.value.id, CoffeePayload(form))
      else InsertCoffee(st, newId, CoffeePayload(form))
    }

    /** The browser fires `onSubmit` only when the `required` inputs, the shop select and
        the name, are filled in. The select shows its empty placeholder for an id none of
        its options carries, so the shop must be one of those listed. */
    predicate Submittable()
      reads this`form
    {
      && form.shopId != "" && (exists s :: s in shops && s.id == form.shopId)
      && form.name != ""
    }

    /** A coffee whose shop is not among those listed (none are, when the shop query
        failed) cannot be saved from the form until a listed shop is picked. */
    lemma UnlistedShopHeldBack()
      requires forall s :: s in shops ==> s.id != form.shopId
      ensures !Submittable()
    {
    }

    /** `handleSubmit`: runs the statement; an error is alerted with its message and
        `onSuccess` is not called; success calls `onSuccess`. `newId` is the key the
        database draws for an insert. */
    method HandleSubmit(db: Db, newId: string, fault: Option<string>)
      modifies this, db
      ensures form == old(form) && !isSubmitting
      ensures fault.Some? ==>
        db.store == old(db.store) && alert == Some(ALERT_PREFIX + fault.value) && saved == old(saved)
      ensures fault.None? && old(Statement(db.store, newId)).Failure? ==>
        && db.store == old(db.store)
        && alert == Some(ALERT_PREFIX + ErrorMessage(old(Statement(db.store, newId)).error))
        && saved == old(saved)
      ensures fault.None? && old(Statement(db.store, newId)).Success? ==>
        db.store == old(Statement(db.store, newId)).value && alert == old(alert) && saved
    {
      isSubmitting := true;
      var err := db.Run(Statement(db.store, newId), fault);
      isSubmitting := false;
      if err.Some? {
        alert := Some(ALERT_PREFIX + err.value);
        return;
      }
      saved := true;
    }

    /** A submit: a form the browser holds back changes nothing; otherwise it runs
        `handleSubmit`. */
    method Submit(db: Db, newId: string, fault: Option<string>)
      modifies this, db
      ensures form == old(form)
      ensures !old(Submittable()) ==>
        db.store == old(db.store) && isSubmitting == old(isSubmitting) && alert == old(alert) && saved == old(saved)
      ensures old(Submittable()) ==> !isSubmitting
      ensures old(Submittable()) && fault.Some? ==>
        db.store == old(db.store) && alert == Some(ALERT_PREFIX + fault.value) && saved == old(saved)
      ensures old(Submittable()) && fault.None? && old(Statement(db.store, newId)).Failure? ==>
        && db.store == old(db.store)
        && alert == Some(ALERT_PREFIX + ErrorMessage(old(Statement(db.store, newId)).error))
        && saved == old(saved)
      ensures old(Submittable()) && fault.None? && old(Statement(db.store, newId)).Success? ==>
        db.store == old(Statement(db.store, newId)).value && alert == old(alert) && saved
    {
      if Submittable() {
        HandleSubmit(db, newId, fault);
      }
    }
  }
}

=== FILE: dashboard.dfy ===
/** The analytics dashboard: the events of the selected shop (or of every shop),
    counted by kind, two rates, the number of distinct sessions and the most recent
    rows. Rates are exact rationals here; the page computes them in floating point. */
module Dashboard {
  import opened Wrappers
  import opened JsString
  import opened Seqs
  import opened Types
  import opened Schema

  /** `filteredEvents`: every event when no shop is selected (the empty value of the
      selector), otherwise the events of that shop, in their order. */
  function FilterByShop(events: seq<Event>, selectedShop: string): (r: seq<Event>)
    ensures selectedShop == "" ==> r == events
    ensures selectedShop != "" ==> forall e :: e in r <==> e in events && e.row.shopId == selectedShop
    ensures |r| <= |events|
  {
    if selectedShop == "" then events else Keep(events, KeyIs(EventShop, selectedShop))
  }

  function EventType(e: Event): string { e.row.eventType }

  /** The number of events of one kind. */
  function CountOf(es: seq<Event>, kind: EventKind): (n: nat)
    ensures n <= |es|
  {
    |Keep(es, KeyIs(EventType, KindName(kind)))|
  }

  /** Counting one event more adds one to its own kind only. */
  lemma CountOfCons(es: seq<Event>, kind: EventKind)
    requires es != []
    ensures CountOf(es, kind) == (if es[0].row.eventType == KindName(kind) then 1 else 0) + CountOf(es[1..], kind)
  {
  }

  /** `(part / whole) * 100`, guarded so that no event of the base kind gives 0. */
  function Rate(part: nat, whole: nat): (r: real)
    ensures whole == 0 ==> r == 0.0
    ensures whole > 0 ==> r * (whole as real) == (part as real) * 100.0
  {
    if whole > 0 then (part as real / whole as real) * 100.0 else 0.0
  }

  /** A rate of a part no larger than its whole is a percentage. */
  lemma RateIsPercentage(part: nat, whole: nat)
    requires part <= whole
    ensures 0.0 <= Rate(part, whole) <= 100.0
  {
    if whole > 0 {
      var r := Rate(part, whole);
      assert r * (whole as real) <= (whole as real) * 100.0;
    }
  }

  datatype Stats = Stats(
    scans: nat,
    coffeeSelects: nat,
    pairingViews: nat,
    pairingAccepts: nat,
    addToCarts: nat,
    checkouts: nat,
    acceptRate: real,
    conversionRate: real)

  /** `stats`: the six counts, accepts per view and checkouts per scan. The counts never
      add up to more than the events shown, and a rate of a part no larger than its whole
      is a percentage. */
  function StatsOf(es: seq<Event>): (s: Stats)
    ensures s.scans == CountOf(es, Scan) && s.coffeeSelects == CountOf(es, CoffeeSelect)
    ensures s.pairingViews == CountOf(es, PairingView) && s.pairingAccepts == CountOf(es, PairingAccept)
    ensures s.addToCarts == CountOf(es, AddToCart) && s.checkouts == CountOf(es, Checkout)
    ensures s.acceptRate == Rate(s.pairingAccepts, s.pairingViews)
    ensures s.conversionRate == Rate(s.checkouts, s.scans)
    ensures s.scans + s.coffeeSelects + s.pairingViews + s.pairingAccepts + s.addToCarts + s.checkouts <= |es|
    ensures s.pairingAccepts <= s.pairingViews ==> 0.0 <= s.acceptRate <= 100.0
    ensures s.checkouts <= s.scans ==> 0.0 <= s.conversionRate <= 100.0
  {
    CountsBound(es);
    var views := CountOf(es, PairingView);
    var scans := CountOf(es, Scan);
    var accepts := CountOf(es, PairingAccept);
    var checkouts := CountOf(es, Checkout);
    assert accepts <= views ==> 0.0 <= Rate(accepts, views) <= 100.0 by {
      if accepts <= views { RateIsPercentage(accepts, views); }
    }
    assert checkouts <= scans ==> 0.0 <= Rate(checkouts, scans) <= 100.0 by {
      if checkouts <= scans { RateIsPercentage(checkouts, scans); }
    }
    Stats(scans, CountOf(es, CoffeeSelect), views, accepts, CountOf(es, AddToCart), checkouts,
      Rate(accepts, views), Rate(checkouts, scans))
  }

  /** The six counts added up. */
  function KindTotal(es: seq<Event>): nat {
    CountOf(es, Scan) + CountOf(es, CoffeeSelect) + CountOf(es, PairingView) +
    CountOf(es, PairingAccept) + CountOf(es, AddToCart) + CountOf(es, Checkout)
  }

  predicate KnownKind(e: Event) {
    KindOf(e.row.eventType).Some?
  }

  function Hit(name: string, k: EventKind): nat {
    if name == KindName(k) then 1 else 0
  }

  /** A name is the name of one kind at most, and of one exactly when it is known. */
  lemma HitsOfName(name: string)
    ensures Hit(name, Scan) + Hit(name, CoffeeSelect) + Hit(name, PairingView) +
      Hit(name, PairingAccept) + Hit(name, AddToCart) + Hit(name, Checkout) ==
      if KindOf(name).Some? then 1 else 0
  {
    match KindOf(name)
    case Some(k) =>
      forall j: EventKind
        ensures Hit(name, j) == if j == k then 1 else 0
      {
        if name == KindName(j) {
          KindNameInjective(j, k);
        }
      }
    case None =>
  }

  /** The first event adds one to the total when its kind is known, else nothing. */
  lemma KindTotalCons(es: seq<Event>)
    requires es != []
    ensures KindTotal(es) == (if KnownKind(es[0]) then 1 else 0) + KindTotal(es[1..])
  {
    CountOfCons(es, Scan);
    CountOfCons(es, CoffeeSelect);
    CountOfCons(es, PairingView);
    CountOfCons(es, PairingAccept);
    CountOfCons(es, AddToCart);
    CountOfCons(es, Checkout);
    HitsOfName(es[0].row.eventType);
  }

  /** Every event falls under at most one of the six counts, so they add up to at most
      the number of events, and to exactly that number when every event is of a known
      kind. */
  lemma {:induction false} CountsBound(es: seq<Event>)
    ensures KindTotal(es) <= |es|
    ensures (forall e :: e in es ==> KnownKind(e)) ==> KindTotal(es) == |es|
  {
    if es != [] {
      CountsBound(es[1..]);
      KindTotalCons(es);
      assert forall e :: e in es[1..] ==> e in es;
      assert es[0] in es;
    }
  }

  function SessionOf(e: Event): string { e.row.sessionId }

  /** `uniqueSessions`: how many distinct session ids the events carry. */
  function UniqueSessions(es: seq<Event>): (n: nat)
    ensures n <= |es|
    ensures es != [] ==> n >= 1
  {
    var ids := KeysOf(es, SessionOf);
    assert es != [] ==> SessionOf(es[0]) in ids;
    |ids|
  }

  /** There are as many sessions as events exactly when no two events share one. */
  lemma UniqueSessionsAllDistinct(es: seq<Event>)
    requires UniqueBy(es, SessionOf)
    ensures UniqueSessions(es) == |es|
  {
    KeysOfUnique(es, SessionOf);
  }

  /** Events of a single session count as one session. */
  lemma {:induction false} UniqueSessionsOne(es: seq<Event>, sid: string)
    requires es != []
    requires forall e :: e in es ==> e.row.sessionId == sid
    ensures UniqueSessions(es) == 1
  {
    var ids := KeysOf(es, SessionOf);
    assert ids == {sid} by {
      forall k | k in ids ensures k == sid {
        var x :| x in es && SessionOf(x) == k;
      }
      assert es[0] in es;
    }
  }

  const RECENT_MAX: nat := 50

  /** `filteredEvents.slice(0, 50)`: the first fifty events, in their order. */
  function Recent(es: seq<Event>): (r: seq<Event>)
    ensures |r| <= RECENT_MAX && |r| <= |es|
    ensures r == es[..|r|]
    ensures |es| <= RECENT_MAX ==> r == es
    ensures |es| > RECENT_MAX ==> |r| == RECENT_MAX
  {
    if |es| <= RECENT_MAX then es else es[..RECENT_MAX]
  }

  /** The session column: the first eight characters and an ellipsis. */
  function ShortSessionId(sessionId: string): (s: string)
    ensures 3 <= |s| <= 11
    ensures StartsWith(sessionId, s[..|s| - 3]) && s[|s| - 3..] == "..."
    ensures |sessionId| >= 8 ==> |s| == 11
    ensures |sessionId| <= 8 ==> s == sessionId + "..."
  {
    Take(sessionId, 8) + "..."
  }
}

=== FILE: form_fields.dfy ===
/** The conversions the admin forms apply between database values and the text in
    their inputs, and back when they build the row they save. */
module FormFields {
  import opened Wrappers
  import opened JsString
  import opened Seqs
  import opened Types

  /** `text || null`: an empty input is stored as null. */
  function NullIfEmpty(text: string): (r: Option<string>)
    ensures r.None? <==> text == ""
    ensures r.Some? ==> r.value == text
  {
    if text == "" then None else Some(text)
  }

  /** `value || ''`: a null value shows as an empty input. */
  function EmptyIfNull(value: Option<string>): (text: string)
    ensures value.None? ==> text == ""
    ensures value.Some? ==> text == value.value
  {
    if value.Some? then value.value else ""
  }

  /** Showing a value and saving it again gives it back, unless it was the empty string,
      which comes back as null. */
  lemma NullIfEmptyRoundTrip(value: Option<string>)
    ensures value != Some("") ==> NullIfEmpty(EmptyIfNull(value)) == value
    ensures value == Some("") ==> NullIfEmpty(EmptyIfNull(value)).None?
  {
  }

  /** `price?.toString() || ''`, for a price in whole cents. */
  function PriceText(price: Option<int>): (text: string)
    ensures price.None? <==> text == ""
  {
    if price.Some? then IntToString(price.value) else ""
  }

  /** `text ? parse(text) : null`: an empty input is null, and so is text that does not
      parse as a number (JSON has no `NaN`). */
  function PriceValue(text: string): (price: Option<int>)
    ensures text == "" ==> price.None?
  {
    if text == "" then None else ParseInt(text)
  }

  /** A price shown in the form and saved unchanged is the same price. */
  lemma PriceRoundTrip(price: Option<int>)
    ensures PriceValue(PriceText(price)) == price
  {
    if price.Some? {
      ParseIntToString(price.value);
      assert IntToString(price.value) != "" by {
        if price.value < 0 {
          assert IntToString(price.value)[0] == '-';
        } else {
          assert |NatToString(price.value)| >= 1;
        }
      }
    }
  }

  /** `current || shops[0]?.id || ''`: the shop a form starts on. */
  function InitialShopId(current: Option<string>, shops: seq<Shop>): (id: string)
    ensures current.Some? && current.value != "" ==> id == current.value
    ensures (current.None? || current.value == "") && shops != [] && shops[0].id != "" ==> id == shops[0].id
    ensures id == "" || (current.Some? && id == current.value) || (shops != [] && id == shops[0].id)
  {
    if current.Some? && current.value != "" then current.value
    else if shops != [] && shops[0].id != "" then shops[0].id
    else ""
  }

  // ---------------------------------------------------------------- tasting notes

  predicate NonEmpty(s: string) { |s| > 0 }

  lemma TrimKeeps(s: string, c: char)
    requires c !in s
    ensures c !in Trim(s)
  {
    var t := TrimStart(s);
    assert t == s[|s| - |t|..];
    assert forall i :: 0 <= i < |t| ==> t[i] == s[|s| - |t| + i];
    var r := TrimEnd(t);
    assert r == t[..|r|];
  }

  /** `map((note) => note.trim())`. */
  function TrimEach(parts: seq<string>): (r: seq<string>)
    ensures |r| == |parts|
    ensures forall i :: 0 <= i < |parts| ==> r[i] == Trim(parts[i])
  {
    if parts == [] then [] else [Trim(parts[0])] + TrimEach(parts[1..])
  }

  /** A note as the form stores it: non-empty, trimmed and without a comma. */
  predicate IsNote(n: string) {
    n != "" && IsTrimmed(n) && ',' !in n
  }

  /** The tasting-notes input parsed: split on commas, each piece trimmed, empty pieces
      dropped. */
  function ParseTastingNotes(text: string): (notes: seq<string>)
    ensures forall n :: n in notes ==> IsNote(n)
  {
    var parts := Split(text, ',');
    var trimmed := TrimEach(parts);
    forall i | 0 <= i < |parts|
      ensures ',' !in trimmed[i]
    {
      TrimKeeps(parts[i], ',');
    }
    Keep(trimmed, NonEmpty)
  }

  /** The saved column: the parsed notes, or null when there are none. */
  function TastingNotesValue(text: string): (r: Option<seq<string>>)
    ensures r.None? <==> ParseTastingNotes(text) == []
    ensures r.Some? ==> r.value == ParseTastingNotes(text)
  {
    var notes := ParseTastingNotes(text);
    if |notes| > 0 then Some(notes) else None
  }

  /** `tasting_notes?.join(', ') || ''`: the text the input starts with. */
  function TastingNotesText(notes: Option<seq<string>>): string {
    if notes.Some? then Join(notes.value, ", ") else ""
  }

  /** Every note but the first, each with the space that follows a comma. */
  function Spaced(ns: seq<string>): (r: seq<string>)
    ensures |r| == |ns|
    ensures forall i :: 0 <= i < |ns| ==> r[i] == " " + ns[i]
  {
    if ns == [] then [] else [" " + ns[0]] + Spaced(ns[1..])
  }

  lemma {:induction false} JoinSpaced(ns: seq<string>)
    requires ns != []
    ensures Join(Spaced(ns), [',']) == " " + Join(ns, ", ")
  {
    if |ns| > 1 {
      JoinSpaced(ns[1..]);
      assert Spaced(ns)[1..] == Spaced(ns[1..]);
    }
  }

  lemma CommaSpace(a: string, x: string)
    ensures a + ", " + x == a + [','] + (" " + x)
  {
    var comma: string := [','];
    var space: string := " ";
    assert ", " == comma + space;
    assert (a + comma) + (space + x) == ((a + comma) + space) + x;
  }

  /** Joining with `", "` is joining with `","` after putting a space before each note
      but the first. */
  lemma JoinCommaSpace(ns: seq<string>)
    requires ns != []
    ensures Join(ns, ", ") == Join([ns[0]] + Spaced(ns[1..]), [','])
  {
    var ps := [ns[0]] + Spaced(ns[1..]);
    if |ns| > 1 {
      var x := Join(ns[1..], ", ");
      JoinSpaced(ns[1..]);
      assert ps[1..] == Spaced(ns[1..]);
      assert Join(ps, [',']) == ns[0] + [','] + (" " + x);
      assert Join(ns, ", ") == ns[0] + ", " + x;
      CommaSpace(ns[0], x);
    } else {
      assert ps == [ns[0]];
    }
  }

  /** An empty input holds no notes. */
  lemma NoNotes()
    ensures ParseTastingNotes("") == [] && TastingNotesValue("").None?
  {
    assert Split("", ',') == [""];
    assert TrimEach([""]) == [Trim("")];
    assert Keep([Trim("")], NonEmpty) == [];
  }

  /** The pieces the joined notes split back into are the notes with their spaces. */
  lemma SplitJoined(notes: seq<string>)
    requires notes != []
    requires forall n :: n in notes ==> IsNote(n)
    ensures Split(Join(notes, ", "), ',') == [notes[0]] + Spaced(notes[1..])
  {
    var ps := [notes[0]] + Spaced(notes[1..]);
    JoinCommaSpace(notes);
    forall i | 0 <= i < |ps|
      ensures ',' !in ps[i]
    {
      if i > 0 {
        assert ps[i] == " " + notes[i];
        assert notes[i] in notes;
      } else {
        assert notes[0] in notes;
      }
    }
    SplitJoin(ps, ',');
  }

  lemma TrimNote(n: string)
    requires IsNote(n)
    ensures Trim(n) == n && Trim(" " + n) == n
  {
    TrimPaddedTrimmed("", n);
    assert "" + n == n;
    TrimPaddedTrimmed(" ", n);
  }

  /** Trimming the pieces takes the spaces off again. */
  lemma TrimSpaced(notes: seq<string>)
    requires notes != []
    requires forall n :: n in notes ==> IsNote(n)
    ensures TrimEach([notes[0]] + Spaced(notes[1..])) == notes
  {
    var rest := Spaced(notes[1..]);
    var ps := [notes[0]] + rest;
    var trimmed := TrimEach(ps);
    assert |trimmed| == |ps| == |notes|;
    forall i | 0 <= i < |ps|
      ensures trimmed[i] == notes[i]
    {
      var n := notes[i];
      assert n in notes;
      TrimNote(n);
      if i == 0 {
        assert ps[i] == n;
      } else {
        assert rest[i - 1] == " " + notes[1..][i - 1];
        assert ps[i] == " " + n;
      }
    }
  }

  /** Notes shown in the input and saved again come back unchanged, as long as each is a
      proper note; no notes come back as null. */
  lemma TastingNotesRoundTrip(notes: seq<string>)
    requires forall n :: n in notes ==> IsNote(n)
    ensures ParseTastingNotes(Join(notes, ", ")) == notes
    ensures TastingNotesValue(TastingNotesText(Some(notes))) == if notes == [] then None else Some(notes)
  {
    if notes == [] {
      NoNotes();
    } else {
      SplitJoined(notes);
      TrimSpaced(notes);
      KeepAll(notes, NonEmpty);
    }
  }

  /** A column of notes shown in the input and saved again comes back as it was, unless
      it held an empty list. */
  lemma TastingNotesColumnRoundTrip(notes: Option<seq<string>>)
    requires notes != Some([])
    requires notes.Some? ==> forall n :: n in notes.value ==> IsNote(n)
    ensures TastingNotesValue(TastingNotesText(notes)) == notes
  {
    if notes.Some? {
      TastingNotesRoundTrip(notes.value);
    } else {
      NoNotes();
    }
  }
}

=== FILE: jsstring.dfy ===
/** The JavaScript string built-ins the application relies on, over `string`:
    white space as `\s` and `trim` see it, `trim`, `split` on one character,
    `join`, `toLowerCase` on ASCII letters, `startsWith`, `substring`/`slice`,
    `Number.prototype.toString` on integers and `parseInt` without a radix. */
module JsString {
  import opened Wrappers

  /** White space for `\s` and `String.prototype.trim`: the ECMAScript
      WhiteSpace and LineTerminator code points. */
  predicate IsSpace(c: char) {
    var n := c as int;
    n == 0x09 || n == 0x0A || n == 0x0B || n == 0x0C || n == 0x0D || n == 0x20 ||
    n == 0xA0 || n == 0x1680 || (0x2000 <= n <= 0x200A) || n == 0x2028 || n == 0x2029 ||
    n == 0x202F || n == 0x205F || n == 0x3000 || n == 0xFEFF
  }

  predicate AllSpace(s: string) {
    forall i :: 0 <= i < |s| ==> IsSpace(s[i])
  }

  /** A string with no white space at either end. */
  predicate IsTrimmed(s: string) {
    s == [] || (!IsSpace(s[0]) && !IsSpace(s[|s| - 1]))
  }

  /** Drops the leading white space. */
  function TrimStart(s: string): (r: string)
    ensures |r| <= |s| && r == s[|s| - |r|..]
    ensures AllSpace(s[..|s| - |r|])
    ensures r == [] || !IsSpace(r[0])
  {
    if |s| > 0 && IsSpace(s[0]) then TrimStart(s[1..]) else s
  }

  /** A string that does not start with white space has none to drop. */
  lemma TrimStartNoSpace(s: string)
    requires s != [] && !IsSpace(s[0])
    ensures TrimStart(s) == s
  {
  }

  /** Drops the trailing white space. */
  function TrimEnd(s: string): (r: string)
    ensures |r| <= |s| && r == s[..|r|]
    ensures AllSpace(s[|r|..])
    ensures r == [] || !IsSpace(r[|r| - 1])
  {
    if |s| > 0 && IsSpace(s[|s| - 1]) then TrimEnd(s[..|s| - 1]) else s
  }

  /** `String.prototype.trim`. */
  function Trim(s: string): (r: string)
    ensures IsTrimmed(r) && |r| <= |s|
  {
    TrimEnd(TrimStart(s))
  }

  /** Leading white space followed by a trimmed, non-empty string trims to that string. */
  lemma {:induction false} TrimPaddedTrimmed(pad: string, t: string)
    requires AllSpace(pad) && IsTrimmed(t) && t != []
    ensures Trim(pad + t) == t
  {
    if pad == [] {
      assert pad + t == t;
    } else {
      assert (pad + t)[1..] == pad[1..] + t;
      TrimPaddedTrimmed(pad[1..], t);
    }
  }

  /** `s.split(sep)` for a one-character separator: the pieces between the separators,
      an empty piece where two separators meet or at either end. */
  function Split(s: string, sep: char): (parts: seq<string>)
    ensures |parts| >= 1
    ensures forall i :: 0 <= i < |parts| ==> sep !in parts[i]
  {
    if s == [] then [""]
    else
      var rest := Split(s[1..], sep);
      if s[0] == sep then [""] + rest else [[s[0]] + rest[0]] + rest[1..]
  }

  /** `parts.join(sep)`. */
  function Join(parts: seq<string>, sep: string): string {
    if |parts| == 0 then ""
    else if |parts| == 1 then parts[0]
    else parts[0] + sep + Join(parts[1..], sep)
  }

  /** A piece free of the separator is not cut. */
  lemma {:induction false} SplitWhole(a: string, sep: char)
    requires sep !in a
    ensures Split(a, sep) == [a]
  {
    if a != [] {
      SplitWhole(a[1..], sep);
      assert a == [a[0]] + a[1..];
    }
  }

  /** Splitting at the first separator. */
  lemma {:induction false} SplitAtFirst(a: string, sep: char, t: string)
    requires sep !in a
    ensures Split(a + [sep] + t, sep) == [a] + Split(t, sep)
  {
    if a == [] {
      assert a + [sep] + t == [sep] + t;
      assert ([sep] + t)[1..] == t;
    } else {
      assert (a + [sep] + t)[1..] == a[1..] + [sep] + t;
      SplitAtFirst(a[1..], sep, t);
      assert a == [a[0]] + a[1..];
    }
  }

  /** Joining the pieces of a split with the same separator gives the input back. */
  lemma {:induction false} JoinSplit(s: string, sep: char)
    ensures Join(Split(s, sep), [sep]) == s
  {
    if s != [] {
      JoinSplit(s[1..], sep);
      var rest := Split(s[1..], sep);
      if s[0] == sep {
        assert s == [sep] + s[1..];
      } else if |rest| == 1 {
        assert s == [s[0]] + s[1..];
      } else {
        assert Join(rest, [sep]) == rest[0] + [sep] + Join(rest[1..], [sep]);
        assert s == [s[0]] + s[1..];
      }
    }
  }

  /** Splitting a join of separator-free pieces gives the pieces back. */
  lemma {:induction false} SplitJoin(parts: seq<string>, sep: char)
    requires |parts| >= 1
    requires forall i :: 0 <= i < |parts| ==> sep !in parts[i]
    ensures Split(Join(parts, [sep]), sep) == parts
  {
    if |parts| == 1 {
      SplitWhole(parts[0], sep);
    } else {
      SplitJoin(parts[1..], sep);
      SplitAtFirst(parts[0], sep, Join(parts[1..], [sep]));
    }
  }

  predicate StartsWith(s: string, prefix: string) {
    |prefix| <= |s| && s[..|prefix|] == prefix
  }

  /** `s.substring(0, n)`: the first `n` characters, or all of `s` when it is shorter. */
  function Take(s: string, n: nat): (r: string)
    ensures |r| == if |s| < n then |s| else n
    ensures StartsWith(s, r)
  {
    if |s| <= n then s else s[..n]
  }

  /** `s.slice(-n)` for `n > 0`: the last `n` characters, or all of `s` when it is shorter. */
  function TakeLast(s: string, n: nat): (r: string)
    ensures |r| == if |s| < n then |s| else n
    ensures s == s[..|s| - |r|] + r
  {
    if |s| <= n then s else s[|s| - n..]
  }

  /** `s.length`: JavaScript counts UTF-16 code units, so a character beyond the Basic
      Multilingual Plane counts twice. */
  function Utf16Length(s: string): (n: nat)
    ensures |s| <= n <= 2 * |s|
  {
    if s == [] then 0 else Units(s[0]) + Utf16Length(s[1..])
  }

  /** The code units one character takes: two beyond the Basic Multilingual Plane. */
  function Units(c: char): nat {
    if c as int >= 0x1_0000 then 2 else 1
  }

  /** The longest prefix of `s` that fits in `n` UTF-16 code units: what a `maxLength`
      of `n` lets into a text box. A character beyond the Basic Multilingual Plane is
      not split; it stays out when only one unit is left. */
  function TakeUnits(s: string, n: nat): (r: string)
    ensures Utf16Length(r) <= n
    ensures StartsWith(s, r)
    ensures Utf16Length(s) <= n ==> r == s
    ensures |r| < |s| ==> Utf16Length(r) + Units(s[|r|]) > n
    decreases |s|
  {
    if s == [] then []
    else if Units(s[0]) > n then []
    else [s[0]] + TakeUnits(s[1..], n - Units(s[0]))
  }

  /** Inside the Basic Multilingual Plane the code-unit cut is the character cut. */
  lemma {:induction false} TakeUnitsBmp(s: string, n: nat)
    requires Utf16Length(s) == |s|
    ensures TakeUnits(s, n) == Take(s, n)
    decreases |s|
  {
    if s == [] {
    } else if n == 0 {
      assert TakeUnits(s, n) == [] == Take(s, n);
    } else {
      TakeUnitsFirst(s, n);
      TakeUnitsBmp(s[1..], n - 1);
      TakeFirst(s, n);
    }
  }

  /** A character that fits is kept, and the rest is cut to the units left. */
  lemma TakeUnitsFirst(s: string, n: nat)
    requires s != [] && Units(s[0]) <= n
    ensures TakeUnits(s, n) == [s[0]] + TakeUnits(s[1..], n - Units(s[0]))
    ensures Utf16Length(s) == Units(s[0]) + Utf16Length(s[1..])
  {
  }

  /** Taking `n > 0` characters keeps the first and `n - 1` of the rest. */
  lemma TakeFirst(s: string, n: nat)
    requires s != [] && n > 0
    ensures Take(s, n) == [s[0]] + Take(s[1..], n - 1)
  {
    if |s| > n {
      assert s[..n] == [s[0]] + s[1..][..n - 1];
    }
  }

  /** A string of characters inside the Basic Multilingual Plane has as many code units as
      characters. */
  lemma {:induction false} Utf16LengthBmp(s: string)
    requires forall i :: 0 <= i < |s| ==> s[i] as int < 0x1_0000
    ensures Utf16Length(s) == |s|
  {
    if s != [] {
      assert forall i :: 0 <= i < |s[1..]| ==> s[1..][i] == s[i + 1];
      Utf16LengthBmp(s[1..]);
    }
  }

  predicate IsUpperAscii(c: char) { 'A' <= c <= 'Z' }

  /** `toLowerCase` on the ASCII letters; every other character is kept. */
  function LowerAscii(s: string): (r: string)
    ensures |r| == |s|
    ensures forall i :: 0 <= i < |r| ==> !IsUpperAscii(r[i])
    ensures forall i :: 0 <= i < |s| && !IsUpperAscii(s[i]) ==> r[i] == s[i]
  {
    if s == [] then []
    else
      var c := if IsUpperAscii(s[0]) then (s[0] as int + 32) as char else s[0];
      [c] + LowerAscii(s[1..])
  }

  predicate IsDecimalDigit(c: char) { '0' <= c <= '9' }

  function DigitChar(d: nat): (c: char)
    requires d < 10
    ensures IsDecimalDigit(c)
  {
    ('0' as int + d) as char
  }

  /** `n.toString()` for a non-negative integer: decimal, no leading zeros. */
  function NatToString(n: nat): (r: string)
    ensures |r| >= 1
    ensures forall i :: 0 <= i < |r| ==> IsDecimalDigit(r[i])
    ensures r[0] == '0' ==> n == 0 && |r| == 1
  {
    if n < 10 then [DigitChar(n)] else NatToString(n / 10) + [DigitChar(n % 10)]
  }

  /** `n.toString()` for an integer. */
  function IntToString(n: int): string {
    if n < 0 then "-" + NatToString(-n) else NatToString(n)
  }

  /** The value of a digit in base 10 or 16 (`0-9`, `a-f`, `A-F`), or -1. */
  function DigitValue(c: char, radix: nat): int {
    var v :=
      if '0' <= c <= '9' then c as int - '0' as int
      else if 'a' <= c <= 'z' then c as int - 'a' as int + 10
      else if 'A' <= c <= 'Z' then c as int - 'A' as int + 10
      else -1;
    if 0 <= v < radix then v else -1
  }

  /** The longest prefix made of digits of the radix. */
  function LeadingDigits(s: string, radix: nat): (r: string)
    ensures StartsWith(s, r)
    ensures forall i :: 0 <= i < |r| ==> DigitValue(r[i], radix) >= 0
    ensures |r| < |s| ==> DigitValue(s[|r|], radix) < 0
  {
    if s != [] && DigitValue(s[0], radix) >= 0 then [s[0]] + LeadingDigits(s[1..], radix) else []
  }

  /** The number a string of digits denotes. */
  function ValueOf(digits: string, radix: nat): nat
    requires forall i :: 0 <= i < |digits| ==> DigitValue(digits[i], radix) >= 0
  {
    if digits == [] then 0
    else ValueOf(digits[..|digits| - 1], radix) * radix + DigitValue(digits[|digits| - 1], radix)
  }

  /** `parseInt(s)` with no radix argument: leading white space is skipped, one sign is
      read, then the digits as `ParseUnsigned` reads them; `None` stands for `NaN`. */
  function ParseInt(s: string): Option<int> {
    var t := TrimStart(s);
    var negative := |t| > 0 && t[0] == '-';
    var body := if |t| > 0 && (t[0] == '-' || t[0] == '+') then t[1..] else t;
    match ParseUnsigned(body)
    case Some(v) => Some(if negative then -(v as int) else v)
    case None => None
  }

  /** The digits after the sign: a `0x`/`0X` prefix selects base 16, then the longest run
      of digits of the base is read; no digit at all gives `None`. */
  function ParseUnsigned(u: string): Option<nat> {
    var hex := |u| >= 2 && u[0] == '0' && (u[1] == 'x' || u[1] == 'X');
    var radix := if hex then 16 else 10;
    var digits := LeadingDigits(if hex then u[2..] else u, radix);
    if digits == [] then None else Some(ValueOf(digits, radix))
  }

  lemma {:induction false} AllDigitsLead(s: string)
    requires forall i :: 0 <= i < |s| ==> IsDecimalDigit(s[i])
    ensures LeadingDigits(s, 10) == s
  {
    if s != [] {
      AllDigitsLead(s[1..]);
    }
  }

  /** The run of digits ends where a character that is not a digit begins. */
  lemma {:induction false} LeadingDigitsStop(d: string, t: string)
    requires forall i :: 0 <= i < |d| ==> IsDecimalDigit(d[i])
    requires t == [] || DigitValue(t[0], 10) < 0
    ensures LeadingDigits(d + t, 10) == d
  {
    if d == [] {
      assert d + t == t;
    } else {
      assert (d + t)[0] == d[0];
      assert (d + t)[1..] == d[1..] + t;
      LeadingDigitsStop(d[1..], t);
    }
  }

  lemma {:induction false} ValueOfNatToString(n: nat)
    ensures ValueOf(NatToString(n), 10) == n
  {
    var r := NatToString(n);
    if n >= 10 {
      ValueOfNatToString(n / 10);
      assert r[..|r| - 1] == NatToString(n / 10);
    }
  }

  lemma ParseUnsignedNatToString(n: nat)
    ensures ParseUnsigned(NatToString(n)) == Some(n)
  {
    var d := NatToString(n);
    AllDigitsLead(d);
    ValueOfNatToString(n);
  }

  /** A number written out and followed by anything that is neither a digit nor the
      `x` of a hexadecimal prefix is read back whole. */
  lemma ParseUnsignedNatThen(n: nat, t: string)
    requires t == [] || (DigitValue(t[0], 10) < 0 && t[0] != 'x' && t[0] != 'X')
    ensures ParseUnsigned(NatToString(n) + t) == Some(n)
  {
    var d := NatToString(n);
    LeadingDigitsStop(d, t);
    ValueOfNatToString(n);
    var u := d + t;
    assert u[0] == d[0];
    if |u| >= 2 {
      assert u[1] == if |d| >= 2 then d[1] else t[0];
    }
  }

  lemma ParseIntNatThen(n: nat, t: string)
    requires t == [] || (DigitValue(t[0], 10) < 0 && t[0] != 'x' && t[0] != 'X')
    ensures ParseInt(NatToString(n) + t) == Some(n)
  {
    var d := NatToString(n);
    var u := d + t;
    ParseUnsignedNatThen(n, t);
    assert u[0] == d[0];
    assert !IsSpace(u[0]) && u[0] != '-' && u[0] != '+' by {
      assert IsDecimalDigit(d[0]);
    }
    TrimStartNoSpace(u);
  }

  lemma ParseIntNonNegative(m: nat)
    ensures ParseInt(NatToString(m)) == Some(m)
  {
    var d := NatToString(m);
    ParseUnsignedNatToString(m);
    assert !IsSpace(d[0]) && d[0] != '-' && d[0] != '+' by {
      assert IsDecimalDigit(d[0]);
    }
    TrimStartNoSpace(d);
  }

  lemma ParseIntNegative(m: nat)
    requires m > 0
    ensures ParseInt("-" + NatToString(m)) == Some(-(m as int))
  {
    var d := NatToString(m);
    var s := "-" + d;
    ParseUnsignedNatToString(m);
    assert s[1..] == d;
    ParseIntMinus(s, m);
  }

  lemma ParseIntMinus(t: string, v: nat)
    requires |t| > 0 && t[0] == '-' && ParseUnsigned(t[1..]) == Some(v)
    ensures ParseInt(t) == Some(-(v as int))
  {
    TrimStartNoSpace(t);
  }

  /** `parseInt` reads back what `toString` wrote. */
  lemma ParseIntToString(n: int)
    ensures ParseInt(IntToString(n)) == Some(n)
  {
    if n < 0 {
      ParseIntNegative(-n);
    } else {
      ParseIntNonNegative(n);
    }
  }
}

=== FILE: pairing.dfy ===
/** The pairing suggestions for one coffee: the active rules of the shop for that
    coffee, best match first, each with its coffee and pastry joined in. */
module Pairing {
  import opened Wrappers
  import opened Seqs
  import opened Types
  import opened Schema

  /** The rows the query selects: this shop, this coffee, and an active rule. */
  function Selected(shopId: string, coffeeId: string): (p: PairingRule -> bool)
    ensures forall x :: p(x) == (x.shopId == shopId && x.coffeeId == coffeeId && x.active)
  {
    (x: PairingRule) => x.shopId == shopId && x.coffeeId == coffeeId && x.active
  }

  /** Match scores never increase along the sequence. */
  predicate ByScore(rs: seq<PairingRule>) {
    forall i, j :: 0 <= i < j < |rs| ==> rs[i].matchScore >= rs[j].matchScore
  }

  /** Puts `x` before the first rule that does not score more than it. */
  function InsertByScore(x: PairingRule, rs: seq<PairingRule>): (r: seq<PairingRule>)
    requires ByScore(rs)
    ensures ByScore(r)
    ensures multiset(r) == multiset(rs) + multiset{x}
    ensures forall y :: y in r ==> y == x || y in rs
  {
    if rs == [] || x.matchScore >= rs[0].matchScore then
      ByScoreCons(x, rs);
      [x] + rs
    else
      var tail := InsertByScore(x, rs[1..]);
      ByScoreCons(rs[0], tail);
      assert rs == [rs[0]] + rs[1..];
      [rs[0]] + tail
  }

  /** A rule that scores at least as much as every rule of a sorted list goes in front. */
  lemma ByScoreCons(a: PairingRule, t: seq<PairingRule>)
    requires ByScore(t)
    requires t == [] || a.matchScore >= t[0].matchScore
    ensures ByScore([a] + t)
  {
  }

  /** `order('match_score', { ascending: false })`: an insertion sort, so rules with
      equal scores stay in table order. */
  function SortByScore(rs: seq<PairingRule>): (r: seq<PairingRule>)
    ensures ByScore(r)
    ensures multiset(r) == multiset(rs)
  {
    if rs == [] then []
    else
      assert rs == [rs[0]] + rs[1..];
      InsertByScore(rs[0], SortByScore(rs[1..]))
  }

  /** The first coffee with this id (the embedded `coffee:coffees(*)`). */
  function CoffeeById(cs: seq<Coffee>, id: string): (r: Option<Coffee>)
    ensures r.Some? ==> r.value in cs && r.value.id == id
    ensures r.None? ==> forall c :: c in cs ==> c.id != id
  {
    if cs == [] then None
    else if cs[0].id == id then Some(cs[0])
    else CoffeeById(cs[1..], id)
  }

  /** The first pastry with this id (the embedded `pastry:pastries(*)`). */
  function PastryById(ps: seq<Pastry>, id: string): (r: Option<Pastry>)
    ensures r.Some? ==> r.value in ps && r.value.id == id
    ensures r.None? ==> forall p :: p in ps ==> p.id != id
  {
    if ps == [] then None
    else if ps[0].id == id then Some(ps[0])
    else PastryById(ps[1..], id)
  }

  function WithDetails(st: Store, x: PairingRule): PairingWithDetails {
    PairingWithDetails(x, CoffeeById(st.coffees, x.coffeeId), PastryById(st.pastries, x.pastryId))
  }

  function AllWithDetails(st: Store, rs: seq<PairingRule>): (r: seq<PairingWithDetails>)
    ensures |r| == |rs|
    ensures forall i :: 0 <= i < |rs| ==> r[i] == WithDetails(st, rs[i])
  {
    if rs == [] then [] else [WithDetails(st, rs[0])] + AllWithDetails(st, rs[1..])
  }

  /** The rules of a list of pairings, in order. */
  function RulesOf(ps: seq<PairingWithDetails>): (r: seq<PairingRule>)
    ensures |r| == |ps|
    ensures forall i :: 0 <= i < |ps| ==> r[i] == ps[i].rule
  {
    if ps == [] then [] else [ps[0].rule] + RulesOf(ps[1..])
  }

  /** The joined rows keep their rules, in order. */
  lemma RulesOfDetails(st: Store, rs: seq<PairingRule>)
    ensures RulesOf(AllWithDetails(st, rs)) == rs
  {
  }

  /** `getPairingsForCoffee`; `failed` is a query that reports an error, which gives the
      empty list. Every selected rule appears exactly once, best score first. */
  function GetPairingsForCoffee(st: Store, shopId: string, coffeeId: string, failed: bool)
    : (r: seq<PairingWithDetails>)
    ensures failed ==> r == []
    ensures forall p :: p in r ==>
      p.rule in st.rules && p.rule.shopId == shopId && p.rule.coffeeId == coffeeId && p.rule.active
    ensures forall i, j :: 0 <= i < j < |r| ==> r[i].rule.matchScore >= r[j].rule.matchScore
    ensures !failed ==> multiset(RulesOf(r)) == multiset(Keep(st.rules, Selected(shopId, coffeeId)))
  {
    if failed then []
    else
      var sorted := SortByScore(Keep(st.rules, Selected(shopId, coffeeId)));
      var r := AllWithDetails(st, sorted);
      assert RulesOf(r) == sorted;
      assert forall p :: p in r ==> p.rule in multiset(sorted);
      r
  }

  /** With no selected rule the list is empty. */
  lemma NoMatchNoPairings(st: Store, shopId: string, coffeeId: string)
    requires forall x :: x in st.rules ==> !(x.shopId == shopId && x.coffeeId == coffeeId && x.active)
    ensures GetPairingsForCoffee(st, shopId, coffeeId, false) == []
  {
    KeepNone(st.rules, Selected(shopId, coffeeId));
  }

  /** Every selected rule is returned, whatever the state of its pastry: an inactive
      pastry is still suggested. */
  lemma SelectedRuleReturned(st: Store, shopId: string, coffeeId: string, x: PairingRule)
    requires x in st.rules && x.shopId == shopId && x.coffeeId == coffeeId && x.active
    ensures exists p :: p in GetPairingsForCoffee(st, shopId, coffeeId, false) && p.rule == x
  {
    var r := GetPairingsForCoffee(st, shopId, coffeeId, false);
    assert x in Keep(st.rules, Selected(shopId, coffeeId));
    assert x in multiset(RulesOf(r));
    var i :| 0 <= i < |r| && RulesOf(r)[i] == x;
    assert r[i] in r;
  }

  /** In a store whose references resolve, every returned pairing carries the coffee
      asked for and the pastry its rule names. */
  lemma JoinedRowsPresent(st: Store, shopId: string, coffeeId: string)
    requires RefsResolve(st)
    ensures forall p :: p in GetPairingsForCoffee(st, shopId, coffeeId, false) ==>
      && p.coffee.Some? && p.coffee.value.id == coffeeId && p.coffee.value in st.coffees
      && p.pastry.Some? && p.pastry.value.id == p.rule.pastryId && p.pastry.value in st.pastries
  {
    var sorted := SortByScore(Keep(st.rules, Selected(shopId, coffeeId)));
    var r := AllWithDetails(st, sorted);
    forall p | p in r
      ensures p.coffee.Some? && p.pastry.Some?
    {
      var i :| 0 <= i < |r| && r[i] == p;
      assert sorted[i] in multiset(sorted);
      assert p.rule in st.rules;
      var c :| c in st.coffees && c.id == p.rule.coffeeId;
      var q :| q in st.pastries && q.id == p.rule.pastryId;
    }
  }
}

=== FILE: pairing_form.dfy ===
/** The admin form that creates or edits a pairing rule. Its coffee and pastry choices are
    those of the selected shop; changing the shop clears both choices. The score is read
    with `parseInt`; the table does not enforce 1 to 100. The number input keeps a score
    written in digits within those bounds, but it lets "0.5e1" through, which `parseInt`
    saves as 0. */
module PairingFormComponent {
  import opened Wrappers
  import opened JsString
  import opened Seqs
  import opened Types
  import opened Schema
  import opened Storage
  import opened FormFields

  datatype PairingFormData = PairingFormData(
    shopId: string,
    coffeeId: string,
    pastryId: string,
    matchScore: string,
    reasoning: string,
    active: bool)

  /** The score a new rule starts with. */
  const DEFAULT_SCORE_TEXT: string := "50"

  /** The bounds the score input carries as `min` and `max`. */
  const SCORE_INPUT_MIN: int := 1
  const SCORE_INPUT_MAX: int := 100

  /** What the inputs hold when the form opens: the rule being edited, or no coffee and
      no pastry on the first shop, a score of 50 and active. */
  function InitialPairingForm(shops: seq<Shop>, pairing: Option<PairingRule>): (f: PairingFormData)
    ensures f.shopId == InitialShopId(if pairing.Some? then Some(pairing.value.shopId) else None, shops)
    ensures pairing.None? ==>
      f.coffeeId == "" && f.pastryId == "" && f.matchScore == DEFAULT_SCORE_TEXT && f.reasoning == "" && f.active
    ensures pairing.Some? ==>
      && f.coffeeId == pairing.value.coffeeId && f.pastryId == pairing.value.pastryId
      && f.matchScore == IntToString(pairing.value.matchScore) && f.active == pairing.value.active
  {
    match pairing
    case None => PairingFormData(InitialShopId(None, shops), "", "", DEFAULT_SCORE_TEXT, "", true)
    case Some(r) =>
      PairingFormData(InitialShopId(Some(r.shopId), shops), r.coffeeId, r.pastryId,
        IntToString(r.matchScore), EmptyIfNull(r.reasoning), r.active)
  }

  /** The coffees the coffee select offers: none until a shop is selected, then exactly
      that shop's coffees, in their order. */
  function CoffeeOptions(all: seq<Coffee>, shopId: string): (r: seq<Coffee>)
    ensures shopId == "" ==> r == []
    ensures shopId != "" ==> forall c :: c in r <==> c in all && c.shopId == shopId
    ensures |r| <= |all|
  {
    if shopId == "" then [] else Keep(all, KeyIs(CoffeeShop, shopId))
  }

  /** The pastries the pastry select offers, chosen the same way. */
  function PastryOptions(all: seq<Pastry>, shopId: string): (r: seq<Pastry>)
    ensures shopId == "" ==> r == []
    ensures shopId != "" ==> forall p :: p in r <==> p in all && p.shopId == shopId
    ensures |r| <= |all|
  {
    if shopId == "" then [] else Keep(all, KeyIs(PastryShop, shopId))
  }

  /** `pairingData`: the score is `parseInt` of its text (null when that is `NaN`), empty
      reasoning becomes null, the rest goes through as it is. */
  function PairingPayload(form: PairingFormData): (f: RuleFields)
    ensures f.shopId == form.shopId && f.coffeeId == form.coffeeId && f.pastryId == form.pastryId
    ensures f.active == Some(form.active)
    ensures f.matchScore == ParseInt(form.matchScore)
    ensures f.reasoning.None? <==> form.reasoning == ""
    ensures f.reasoning.Some? ==> f.reasoning.value == form.reasoning
  {
    RuleFields(form.shopId, form.coffeeId, form.pastryId, ParseInt(form.matchScore),
      NullIfEmpty(form.reasoning), Some(form.active))
  }

  /** A new rule saved with the score untouched gets a score of 50. */
  lemma DefaultScoreIsFifty(shops: seq<Shop>)
    ensures PairingPayload(InitialPairingForm(shops, None)).matchScore == Some(50)
  {
    ParseIntToString(50);
    assert IntToString(50) == DEFAULT_SCORE_TEXT by {
      assert NatToString(50) == NatToString(5) + [DigitChar(0)];
    }
  }

  /** Opening a rule in the form and saving it untouched writes the row back as it was,
      unless its reasoning is the empty string. */
  lemma EditUntouchedKeepsRule(shops: seq<Shop>, r: PairingRule)
    requires r.shopId != "" && r.reasoning != Some("")
    ensures PairingPayload(InitialPairingForm(shops, Some(r))).matchScore == Some(r.matchScore)
    ensures ApplyRule(r, PairingPayload(InitialPairingForm(shops, Some(r)))) == r
  {
    ParseIntToString(r.matchScore);
    NullIfEmptyRoundTrip(r.reasoning);
  }

  /** The score input (`type="number" min="1" max="100" required`) lets the form be
      submitted only with a whole number from 1 to 100 in it, here written in decimal
      digits. */
  predicate ScoreAccepted(text: string) {
    && text != []
    && (forall i :: 0 <= i < |text| ==> IsDecimalDigit(text[i]))
    && ParseInt(text).Some? && SCORE_INPUT_MIN <= ParseInt(text).value <= SCORE_INPUT_MAX
  }

  /** A stored score shown in the input is accepted exactly when it lies from 1 to 100. */
  lemma ScoreAcceptedIff(n: int)
    ensures ScoreAccepted(IntToString(n)) <==> SCORE_INPUT_MIN <= n <= SCORE_INPUT_MAX
  {
    ParseIntToString(n);
    if n < 0 {
      assert !IsDecimalDigit(IntToString(n)[0]);
    }
  }

  /** "0.5e1" is a number from 1 to 100 to the browser, which lets it through, but
      `parseInt` reads only its leading "0": the form saves a score of 0. Only plain
      digits are accepted here. */
  lemma ExponentScoreSavedAsZero()
    ensures !ScoreAccepted("0.5e1")
    ensures ParseInt("0.5e1") == Some(0)
  {
    assert !IsDecimalDigit("0.5e1"[1]);
    assert TrimStart("0.5e1") == "0.5e1";
    assert "0" + ".5e1" == "0.5e1";
    LeadingDigitsStop("0", ".5e1");
    assert ValueOf("0", 10) == 0 by {
      assert "0"[..0] == [];
    }
    assert ParseUnsigned("0.5e1") == Some(0);
  }

  /** Every rule's score lies within the input's bounds. */
  predicate ScoresInRange(rules: seq<PairingRule>) {
    forall i :: 0 <= i < |rules| ==> SCORE_INPUT_MIN <= rules[i].matchScore <= SCORE_INPUT_MAX
  }

  /** A score within bounds added at the end keeps every score within bounds. */
  lemma AppendedScoresInRange(rules: seq<PairingRule>, r: PairingRule)
    requires ScoresInRange(rules) && SCORE_INPUT_MIN <= r.matchScore <= SCORE_INPUT_MAX
    ensures ScoresInRange(rules + [r])
  {
    forall i | 0 <= i < |rules + [r]|
      ensures SCORE_INPUT_MIN <= (rules + [r])[i].matchScore <= SCORE_INPUT_MAX
    {
      if i < |rules| {
        assert (rules + [r])[i] == rules[i];
      }
    }
  }

  /** Rewriting some rows so that each keeps its row or takes a score within bounds keeps
      every score within bounds. */
  lemma RewrittenScoresInRange(before: seq<PairingRule>, after: seq<PairingRule>, score: int)
    requires ScoresInRange(before) && SCORE_INPUT_MIN <= score <= SCORE_INPUT_MAX
    requires |after| == |before|
    requires forall i :: 0 <= i < |before| ==> after[i] == before[i] || after[i].matchScore == score
    ensures ScoresInRange(after)
  {
  }

  /** Saving an accepted score, by insert or by update, keeps every score within 1 to
      100. */
  lemma SavedScoresInRange(st: Store, id: string, form: PairingFormData)
    requires ScoreAccepted(form.matchScore) && ScoresInRange(st.rules)
    ensures InsertPairingRule(st, id, PairingPayload(form)).Success? ==>
      ScoresInRange(InsertPairingRule(st, id, PairingPayload(form)).value.rules)
    ensures UpdatePairingRule(st, id, PairingPayload(form)).Success? ==>
      ScoresInRange(UpdatePairingRule(st, id, PairingPayload(form)).value.rules)
  {
    var f := PairingPayload(form);
    var score := ParseInt(form.matchScore).value;
    assert f.matchScore == Some(score);
    var ins := InsertPairingRule(st, id, f);
    if ins.Success? {
      assert ins.value.rules == st.rules + [NewRule(id, f)];
      AppendedScoresInRange(st.rules, NewRule(id, f));
    }
    var upd := UpdatePairingRule(st, id, f);
    if upd.Success? && id in RuleIds(st) {
      forall i | 0 <= i < |st.rules|
        ensures upd.value.rules[i] == st.rules[i] || upd.value.rules[i].matchScore == score
      {
        if st.rules[i].id == id {
          assert upd.value.rules[i] == ApplyRule(st.rules[i], f);
        }
      }
      RewrittenScoresInRange(st.rules, upd.value.rules, score);
    }
  }

  const ALERT_PREFIX: string := "Error saving pairing: "

  class PairingForm {
    const shops: seq<Shop>
    const allCoffees: seq<Coffee>
    const allPastries: seq<Pastry>
    /** The rule being edited; none for a new one. */
    const pairing: Option<PairingRule>
    var form: PairingFormData
    var isSubmitting: bool
    /** The last `alert` shown. */
    var alert: Option<string>
    /** Whether `onSuccess` has been called. */
    var saved: bool

    constructor(shops: seq<Shop>, allCoffees: seq<Coffee>, allPastries: seq<Pastry>, pairing: Option<PairingRule>)
      ensures this.shops == shops && this.allCoffees == allCoffees && this.allPastries == allPastries
      ensures this.pairing == pairing
      ensures form == InitialPairingForm(shops, pairing) && !isSubmitting && alert.None? && !saved
    {
      this.shops := shops;
      this.allCoffees := allCoffees;
      this.allPastries := allPastries;
      this.pairing := pairing;
      form := InitialPairingForm(shops, pairing);
      isSubmitting := false;
      alert := None;
      saved := false;
    }

    /** The coffees on offer for the selected shop. */
    function Coffees(): (r: seq<Coffee>)
      reads this`form
      ensures forall c :: c in r ==> c in allCoffees && c.shopId == form.shopId && form.shopId != ""
    {
      CoffeeOptions(allCoffees, form.shopId)
    }

    /** The pastries on offer for the selected shop. */
    function Pastries(): (r: seq<Pastry>)
      reads this`form
      ensures forall p :: p in r ==> p in allPastries && p.shopId == form.shopId && form.shopId != ""
    {
      PastryOptions(allPastries, form.shopId)
    }

    /** The shop select's `onChange`: a new shop and no coffee or pastry chosen, so a rule
        cannot keep a coffee or a pastry of the shop it left. */
    method ChangeShop(shopId: string)
      modifies this
      ensures form == old(form).(shopId := shopId, coffeeId := "", pastryId := "")
      ensures isSubmitting == old(isSubmitting) && alert == old(alert) && saved == old(saved)
    {
      form := form.(shopId := shopId, coffeeId := "", pastryId := "");
    }

    /** Any other input's `onChange`: the form data replaced with one field changed, the
        shop kept. */
    method Edit(data: PairingFormData)
      modifies this
      requires data.shopId == form.shopId
      ensures form == data
      ensures isSubmitting == old(isSubmitting) && alert == old(alert) && saved == old(saved)
    {
      form := data;
    }

    /** The statement a submit runs on the current contents: an update of the rule being
        edited, or an insert under `newId`. */
    function Statement(st: Store, newId: string): (r: Result<Store, DbError>)
      reads this`form
      ensures pairing.Some? ==> r == UpdatePairingRule(st, pairing.value.id, PairingPayload(form))
      ensures pairing.None? ==> r == InsertPairingRule(st, newId, PairingPayload(form))
    {
      if pairing.Some? then UpdatePairingRule(st, pairing.value.id, PairingPayload(form))
      else InsertPairingRule(st, newId, PairingPayload(form))
    }

    /** The statement a submittable form runs keeps every score within 1 to 100. */
    lemma StatementKeepsScores(st: Store, newId: string)
      requires Submittable() && ScoresInRange(st.rules)
      ensures Statement(st, newId).Success? ==> ScoresInRange(Statement(st, newId).value.rules)
    {
      SavedScoresInRange(st, if pairing.Some? then pairing.value.id else newId, form);
    }

    /** The browser fires `onSubmit` only when each `required` select shows one of its
        options rather than the empty first one, and the score is accepted. A select
        whose state names no offered option (a coffee or pastry deactivated since the
        rule was saved) shows the empty one. A select disabled because the shop offers
        no coffee or no pastry is not checked. */
    predicate Submittable()
      reads this`form
    {
      && form.shopId != "" && (exists s :: s in shops && s.id == form.shopId)
      && (Coffees() == [] || (form.coffeeId != "" && exists c :: c in Coffees() && c.id == form.coffeeId))
      && (Pastries() == [] || (form.pastryId != "" && exists p :: p in Pastries() && p.id == form.pastryId))
      && ScoreAccepted(form.matchScore)
    }

    /** A rule whose coffee is no longer offered cannot be saved from the form until an
        offered coffee is picked, while the shop offers any. */
    lemma StaleCoffeeHeldBack()
      requires Coffees() != [] && forall c :: c in Coffees() ==> c.id != form.coffeeId
      ensures !Submittable()
    {
    }

    /** `handleSubmit`: runs the statement; an error is alerted with its message and
        `onSuccess` is not called; success calls `onSuccess`. `newId` is the key the
        database draws for an insert. */
    method HandleSubmit(db: Db, newId: string, fault: Option<string>)
      modifies this, db
      ensures form == old(form) && !isSubmitting
      ensures fault.Some? ==>
        db.store == old(db.store) && alert == Some(ALERT_PREFIX + fault.value) && saved == old(saved)
      ensures fault.None? && old(Statement(db.store, newId)).Failure? ==>
        && db.store == old(db.store)
        && alert == Some(ALERT_PREFIX + ErrorMessage(old(Statement(db.store, newId)).error))
        && saved == old(saved)
      ensures fault.None? && old(Statement(db.store, newId)).Success? ==>
        db.store == old(Statement(db.store, newId)).value && alert == old(alert) && saved
    {
      isSubmitting := true;
      var err := db.Run(Statement(db.store, newId), fault);
      isSubmitting := false;
      if err.Some? {
        alert := Some(ALERT_PREFIX + err.value);
        return;
      }
      saved := true;
    }

    /** A submit: a form the browser holds back changes nothing; otherwise it runs
        `handleSubmit`. Every score the form saves lies from 1 to 100
        (`StatementKeepsScores`). */
    method Submit(db: Db, newId: string, fault: Option<string>)
      modifies this, db
      ensures form == old(form)
      ensures !old(Submittable()) ==>
        db.store == old(db.store) && isSubmitting == old(isSubmitting) && alert == old(alert) && saved == old(saved)
      ensures old(Submittable()) ==> !isSubmitting
      ensures old(Submittable()) && fault.Some? ==>
        db.store == old(db.store) && alert == Some(ALERT_PREFIX + fault.value) && saved == old(saved)
      ensures old(Submittable()) && fault.None? && old(Statement(db.store, newId)).Failure? ==>
        && db.store == old(db.store)
        && alert == Some(ALERT_PREFIX + ErrorMessage(old(Statement(db.store, newId)).error))
        && saved == old(saved)
      ensures old(Submittable()) && fault.None? && old(Statement(db.store, newId)).Success? ==>
        db.store == old(Statement(db.store, newId)).value && alert == old(alert) && saved
    {
      if Submittable() {
        HandleSubmit(db, newId, fault);
      }
    }
  }
}

=== FILE: pairing_view.dfy ===
/** The pairing screen of one coffee: it records a `pairing_view` event for every
    pairing it has not seen yet, and accepting a pairing records `pairing_accept` and
    opens the cart. The `trackEvent` calls it makes are kept in `tracked`; what each
    one writes is `Analytics.TrackEvent`. */
module PairingViewComponent {
  import opened Wrappers
  import opened Seqs
  import opened Types
  import opened Analytics
  import opened Urls

  /** The ids of a list of pairings. */
  function IdsOf(ps: seq<PairingWithDetails>): (ids: set<string>)
    ensures forall p :: p in ps ==> p.rule.id in ids
    ensures forall id :: id in ids ==> exists p :: p in ps && p.rule.id == id
  {
    set p | p in ps :: p.rule.id
  }

  /** The three ids a view or an accept carries: the coffee, the pairing's pastry and
      the pairing. */
  function PairingData(coffeeId: string, p: PairingWithDetails): TrackData {
    TrackData(Some(coffeeId), Some(p.rule.pastryId), Some(p.rule.id), None)
  }

  function RequestRule(r: TrackRequest): Option<string> { r.data.pairingRuleId }

  /** The `pairing_view` calls one run of the effect makes: one per pairing, in list
      order, skipping those already in the `seen` snapshot. */
  function ViewRequests(shopId: string, coffeeId: string, ps: seq<PairingWithDetails>, seen: set<string>)
    : (rs: seq<TrackRequest>)
    ensures |rs| <= |ps|
  {
    if ps == [] then []
    else
      var last := ps[|ps| - 1];
      ViewRequests(shopId, coffeeId, ps[..|ps| - 1], seen) +
        (if last.rule.id in seen then [] else [TrackRequest(shopId, PairingView, PairingData(coffeeId, last))])
  }

  /** A run tracks exactly the pairings missing from the snapshot: every call is a
      `pairing_view` of this shop and coffee for a listed pairing not yet seen, and every
      such pairing gets its call. */
  lemma {:induction false} ViewRequestsCover(shopId: string, coffeeId: string, ps: seq<PairingWithDetails>, seen: set<string>)
    ensures var rs := ViewRequests(shopId, coffeeId, ps, seen);
      && (forall r :: r in rs ==>
            && r.shopId == shopId && r.kind == PairingView && r.data.coffeeId == Some(coffeeId)
            && r.data.pairingRuleId.Some? && r.data.pairingRuleId.value in IdsOf(ps)
            && r.data.pairingRuleId.value !in seen)
      && (forall p :: p in ps && p.rule.id !in seen ==>
            TrackRequest(shopId, PairingView, PairingData(coffeeId, p)) in rs)
  {
    if ps != [] {
      var last := ps[|ps| - 1];
      var front := ps[..|ps| - 1];
      assert ps == front + [last];
      ViewRequestsCover(shopId, coffeeId, front, seen);
      IdsOfSnoc(front, last);
    }
  }

  lemma IdsOfSnoc(ps: seq<PairingWithDetails>, p: PairingWithDetails)
    ensures IdsOf(ps + [p]) == IdsOf(ps) + {p.rule.id}
  {
    assert forall q :: q in ps + [p] <==> q in ps || q == p;
  }

  lemma ViewRequestsSnoc(shopId: string, coffeeId: string, ps: seq<PairingWithDetails>, p: PairingWithDetails, seen: set<string>)
    ensures ViewRequests(shopId, coffeeId, ps + [p], seen) ==
      ViewRequests(shopId, coffeeId, ps, seen) +
        (if p.rule.id in seen then [] else [TrackRequest(shopId, PairingView, PairingData(coffeeId, p))])
  {
    assert (ps + [p])[..|ps + [p]| - 1] == ps;
  }

  /** Once every pairing of the list is in the snapshot, a run tracks nothing: the run
      the effect triggers by growing the set makes no call. */
  lemma {:induction false} ViewRequestsSeen(shopId: string, coffeeId: string, ps: seq<PairingWithDetails>, seen: set<string>)
    requires IdsOf(ps) <= seen
    ensures ViewRequests(shopId, coffeeId, ps, seen) == []
  {
    if ps != [] {
      var front := ps[..|ps| - 1];
      assert IdsOf(front) <= IdsOf(ps) by {
        forall id | id in IdsOf(front) ensures id in IdsOf(ps) {
          var p :| p in front && p.rule.id == id;
          assert p in ps;
        }
      }
      ViewRequestsSeen(shopId, coffeeId, front, seen);
      assert ps[|ps| - 1] in ps;
    }
  }

  function RuleIdOf(p: PairingWithDetails): string { p.rule.id }

  /** With unique ids, the calls for the pairings before the last one never name the
      last one. */
  lemma EarlierRequestsOtherRule(shopId: string, coffeeId: string, ps: seq<PairingWithDetails>, seen: set<string>)
    requires ps != [] && UniqueBy(ps, RuleIdOf)
    ensures forall y :: y in ViewRequests(shopId, coffeeId, ps[..|ps| - 1], seen) ==>
      RequestRule(y) != Some(ps[|ps| - 1].rule.id)
  {
    var front := ps[..|ps| - 1];
    ViewRequestsCover(shopId, coffeeId, front, seen);
    forall y | y in ViewRequests(shopId, coffeeId, front, seen)
      ensures RequestRule(y) != Some(ps[|ps| - 1].rule.id)
    {
      var id := y.data.pairingRuleId.value;
      var p :| p in front && p.rule.id == id;
      var i :| 0 <= i < |front| && front[i] == p;
      assert RuleIdOf(ps[i]) != RuleIdOf(ps[|ps| - 1]);
    }
  }

  /** With pairing ids unique (they are primary keys), one run records each pairing at
      most once. */
  lemma {:induction false} ViewRequestsOncePerPairing(shopId: string, coffeeId: string, ps: seq<PairingWithDetails>, seen: set<string>)
    requires UniqueBy(ps, RuleIdOf)
    ensures UniqueBy(ViewRequests(shopId, coffeeId, ps, seen), RequestRule)
  {
    if ps != [] {
      var last := ps[|ps| - 1];
      var front := ps[..|ps| - 1];
      UniqueByPrefix(ps, RuleIdOf);
      ViewRequestsOncePerPairing(shopId, coffeeId, front, seen);
      var rs := ViewRequests(shopId, coffeeId, front, seen);
      if last.rule.id !in seen {
        EarlierRequestsOtherRule(shopId, coffeeId, ps, seen);
        UniqueAppend(rs, TrackRequest(shopId, PairingView, PairingData(coffeeId, last)), RequestRule);
      } else {
        assert rs + [] == rs;
      }
    }
  }

  /** The state of one pairing screen. */
  class PairingViewState {
    const shop: Shop
    const coffee: Coffee
    const pairings: seq<PairingWithDetails>
    /** `viewedPairings`. */
    var viewed: set<string>
    /** The `trackEvent` calls made so far. */
    var tracked: seq<TrackRequest>
    /** The page `router.push` last opened. */
    var navigation: Option<string>

    constructor(shop: Shop, coffee: Coffee, pairings: seq<PairingWithDetails>)
      ensures this.shop == shop && this.coffee == coffee && this.pairings == pairings
      ensures viewed == {} && tracked == [] && navigation.None?
    {
      this.shop := shop;
      this.coffee := coffee;
      this.pairings := pairings;
      viewed := {};
      tracked := [];
      navigation := None;
    }

    /** One run of the view-tracking effect. Every pairing not in the set as it was when
        the run began is tracked once, and every id is added, so the set only grows and
        ends up holding every pairing shown. */
    method TrackViews()
      modifies this
      ensures viewed == old(viewed) + IdsOf(pairings)
      ensures tracked == old(tracked) + ViewRequests(shop.id, coffee.id, pairings, old(viewed))
      ensures navigation == old(navigation)
    {
      var snapshot := viewed;
      var i := 0;
      while i < |pairings|
        invariant 0 <= i <= |pairings|
        invariant viewed == snapshot + IdsOf(pairings[..i])
        invariant tracked == old(tracked) + ViewRequests(shop.id, coffee.id, pairings[..i], snapshot)
        invariant navigation == old(navigation)
      {
        var p := pairings[i];
        assert pairings[..i + 1] == pairings[..i] + [p];
        IdsOfSnoc(pairings[..i], p);
        ViewRequestsSnoc(shop.id, coffee.id, pairings[..i], p, snapshot);
        ghost var done := ViewRequests(shop.id, coffee.id, pairings[..i], snapshot);
        if p.rule.id !in snapshot {
          var x := TrackRequest(shop.id, PairingView, PairingData(coffee.id, p));
          tracked := tracked + [x];
          viewed := viewed + {p.rule.id};
          AppendAssoc(old(tracked), done, [x]);
        } else {
          assert done + [] == done;
        }
        i := i + 1;
      }
      assert pairings[..i] == pairings;
    }

    /** The effect runs when the screen mounts and again each time the set changes; the
        second run finds every pairing in the set and tracks nothing, so the screen
        records one view per pairing. */
    method Mount()
      modifies this
      ensures viewed == old(viewed) + IdsOf(pairings)
      ensures tracked == old(tracked) + ViewRequests(shop.id, coffee.id, pairings, old(viewed))
      ensures navigation == old(navigation)
    {
      TrackViews();
      ghost var afterFirst := tracked;
      TrackViews();
      ViewRequestsSeen(shop.id, coffee.id, pairings, old(viewed) + IdsOf(pairings));
      assert tracked == afterFirst + [];
    }

    /** `handleAcceptPairing`: records `pairing_accept` with the same three ids as a view,
        then opens the cart for that coffee, pastry and pairing. */
    method AcceptPairing(p: PairingWithDetails)
      modifies this
      ensures tracked == old(tracked) + [TrackRequest(shop.id, PairingAccept, PairingData(coffee.id, p))]
      ensures navigation == Some(CartUrl(shop.slug, coffee.id, p.rule.pastryId, p.rule.id))
      ensures viewed == old(viewed)
    {
      tracked := tracked + [TrackRequest(shop.id, PairingAccept, PairingData(coffee.id, p))];
      navigation := Some(CartUrl(shop.slug, coffee.id, p.rule.pastryId, p.rule.id));
    }

    /** The message shown instead of the list when there is no pairing. */
    function EmptyMessage(): (m: Option<string>)
      ensures m.Some? <==> pairings == []
    {
      if pairings == [] then Some("No pairings available for this coffee.") else None
    }
  }
}

=== FILE: passwords.dfy ===
/** The field rules the sign-up and password-reset forms share: a password of at least
    eight UTF-16 code units (zod's `min` counts `length`) with a digit in it, and a confirmation equal to it. Every rule is
    checked, so one submit can report several problems; a form with any problem is not
    submitted. */
module Passwords {
  import opened Wrappers
  import opened JsString

  const PASSWORD_MIN: nat := 8

  const TOO_SHORT: string := "Password must be at least 8 characters"
  const NO_DIGIT: string := "Password must include at least one number"
  const MISMATCH: string := "Passwords don't match"

  /** One validation message and the field it is shown under. */
  datatype FieldError = FieldError(field: string, message: string)

  /** `/[0-9]/`: some character is an ASCII digit. */
  predicate HasDigit(s: string) {
    exists i :: 0 <= i < |s| && IsDecimalDigit(s[i])
  }

  predicate StrongPassword(password: string) {
    Utf16Length(password) >= PASSWORD_MIN && HasDigit(password)
  }

  /** The password field's rules: its length, then its digit, each with its own
      message under `password`. */
  function PasswordErrors(password: string): (errs: seq<FieldError>)
    ensures errs == [] <==> StrongPassword(password)
    ensures forall e :: e in errs ==> e.field == "password"
    ensures FieldError("password", TOO_SHORT) in errs <==> Utf16Length(password) < PASSWORD_MIN
    ensures FieldError("password", NO_DIGIT) in errs <==> !HasDigit(password)
  {
    (if Utf16Length(password) < PASSWORD_MIN then [FieldError("password", TOO_SHORT)] else []) +
    (if !HasDigit(password) then [FieldError("password", NO_DIGIT)] else [])
  }

  /** The refinement on the whole form: the confirmation must equal the password, and
      the message goes under `confirmPassword`. */
  function ConfirmErrors(password: string, confirmPassword: string): (errs: seq<FieldError>)
    ensures errs == [] <==> password == confirmPassword
    ensures errs != [] ==> errs == [FieldError("confirmPassword", MISMATCH)]
  {
    if password == confirmPassword then [] else [FieldError("confirmPassword", MISMATCH)]
  }

  /** A password that passes both rules, with its confirmation, is accepted, and the
      confirmation is then strong too. */
  lemma AcceptedConfirmationIsStrong(password: string, confirmPassword: string)
    requires PasswordErrors(password) + ConfirmErrors(password, confirmPassword) == []
    ensures StrongPassword(confirmPassword) && confirmPassword == password
  {
    assert PasswordErrors(password) == [];
  }

  /** Any password of at least eight characters, all of them digits, passes: the rules
      ask for nothing besides the length and one digit. */
  lemma DigitsOnlyPasswordPasses(p: string)
    requires |p| >= PASSWORD_MIN && forall i :: 0 <= i < |p| ==> IsDecimalDigit(p[i])
    ensures PasswordErrors(p) == []
  {
    assert IsDecimalDigit(p[0]);
  }

  /** Four characters from beyond the Basic Multilingual Plane and a digit are five
      characters but nine code units, and pass the length rule; seven digits do not. */
  lemma CodeUnitsNotCharacters()
    ensures PasswordErrors("\U{1F600}\U{1F600}\U{1F600}\U{1F600}1") == []
    ensures FieldError("password", TOO_SHORT) in PasswordErrors("1234567")
  {
    assert IsDecimalDigit("\U{1F600}\U{1F600}\U{1F600}\U{1F600}1"[4]);
  }

  // ---------------------------------------------------------------- messages shown

  /** The errors of `errs` under fields other than `field`, in order. */
  function Without(errs: seq<FieldError>, field: string): (r: seq<FieldError>)
    ensures |r| <= |errs|
    ensures forall e :: e in r <==> e in errs && e.field != field
  {
    if errs == [] then []
    else (if errs[0].field == field then [] else [errs[0]]) + Without(errs[1..], field)
  }

  /** The first error under `field`, if there is one. */
  function FirstOf(errs: seq<FieldError>, field: string): (r: Option<FieldError>)
    ensures r.Some? ==> r.value in errs && r.value.field == field
    ensures r.None? ==> forall e :: e in errs ==> e.field != field
  {
    if errs == [] then None
    else if errs[0].field == field then Some(errs[0])
    else FirstOf(errs[1..], field)
  }

  /** The messages a page shows: the form keeps one error per field, the first its rules
      report, and shows it under that field. */
  function Shown(errs: seq<FieldError>): (r: seq<FieldError>)
    ensures r == [] <==> errs == []
    decreases |errs|
  {
    if errs == [] then [] else [errs[0]] + Shown(Without(errs[1..], errs[0].field))
  }

  lemma {:induction false} FirstOfWithout(errs: seq<FieldError>, g: string, f: string)
    ensures FirstOf(Without(errs, g), f) == if f == g then None else FirstOf(errs, f)
  {
    if errs != [] {
      FirstOfWithout(errs[1..], g, f);
      assert errs[0].field == g ==> Without(errs, g) == Without(errs[1..], g);
      assert errs[0].field != g ==> Without(errs, g) == [errs[0]] + Without(errs[1..], g);
    }
  }

  /** Exactly the first error of every field that has one is shown, and no field shows
      two messages. */
  lemma {:induction false} ShownFirstPerField(errs: seq<FieldError>)
    ensures forall e :: e in Shown(errs) ==> FirstOf(errs, e.field) == Some(e)
    ensures forall f :: FirstOf(errs, f).Some? ==> FirstOf(errs, f).value in Shown(errs)
    ensures forall i, j :: 0 <= i < j < |Shown(errs)| ==> Shown(errs)[i].field != Shown(errs)[j].field
    decreases |errs|
  {
    if errs != [] {
      var e0 := errs[0];
      var rest := Without(errs[1..], e0.field);
      ShownFirstPerField(rest);
      var r := Shown(errs);
      assert r == [e0] + Shown(rest);
      forall e | e in Shown(rest)
        ensures e.field != e0.field && FirstOf(errs, e.field) == Some(e)
      {
        FirstOfWithout(errs[1..], e0.field, e.field);
      }
      forall f | FirstOf(errs, f).Some?
        ensures FirstOf(errs, f).value in r
      {
        if f != e0.field {
          FirstOfWithout(errs[1..], e0.field, f);
        }
      }
      forall i, j | 0 <= i < j < |r|
        ensures r[i].field != r[j].field
      {
        assert r[j] == Shown(rest)[j - 1];
        if i > 0 {
          assert r[i] == Shown(rest)[i - 1];
        }
      }
    }
  }

  /** A short password without a digit shows only the length message. */
  lemma ShortPasswordShowsLength()
    ensures Shown(PasswordErrors("abc")) == [FieldError("password", TOO_SHORT)]
  {
    assert PasswordErrors("abc") == [FieldError("password", TOO_SHORT), FieldError("password", NO_DIGIT)];
    assert Without([FieldError("password", NO_DIGIT)], "password") == [];
  }
}

=== FILE: pastry_form.dfy ===
/** The admin form that creates or edits a pastry: the text its inputs start with, the
    row it saves, and the save itself, which updates the pastry being edited or inserts
    a new one. */
module PastryFormComponent {
  import opened Wrappers
  import opened Types
  import opened Schema
  import opened Storage
  import opened FormFields

  /** `formData`: every input as text, except the active checkbox. */
  datatype PastryFormData = PastryFormData(
    shopId: string,
    name: string,
    notes: string,
    flavorProfile: string,
    image: string,
    price: string,
    active: bool)

  /** What the inputs hold when the form opens: the pastry being edited, or a blank,
      active pastry on the first shop. */
  function InitialPastryForm(shops: seq<Shop>, pastry: Option<Pastry>): (f: PastryFormData)
    ensures f.shopId == InitialShopId(if pastry.Some? then Some(pastry.value.shopId) else None, shops)
    ensures pastry.None? ==> f.active && f.name == "" && f.price == "" && f.notes == "" && f.flavorProfile == ""
    ensures pastry.Some? ==> f.active == pastry.value.active && f.name == pastry.value.name
    ensures pastry.Some? ==> f.price == PriceText(pastry.value.price)
  {
    match pastry
    case None => PastryFormData(InitialShopId(None, shops), "", "", "", "", "", true)
    case Some(p) =>
      PastryFormData(InitialShopId(Some(p.shopId), shops), p.name, EmptyIfNull(p.notes),
        EmptyIfNull(p.flavorProfile), EmptyIfNull(p.image), PriceText(p.price), p.active)
  }

  /** `pastryData`: empty notes, flavour profile and image become null, the price is
      parsed, and the name, the shop and the checkbox go through as they are. */
  function PastryPayload(form: PastryFormData): (f: PastryFields)
    ensures f.shopId == form.shopId && f.name == form.name && f.active == Some(form.active)
    ensures f.notes.None? <==> form.notes == ""
    ensures f.flavorProfile.None? <==> form.flavorProfile == ""
    ensures f.image.None? <==> form.image == ""
    ensures f.notes.Some? ==> f.notes.value == form.notes
    ensures f.flavorProfile.Some? ==> f.flavorProfile.value == form.flavorProfile
    ensures f.image.Some? ==> f.image.value == form.image
    ensures form.price == "" ==> f.price.None?
    ensures f.price == PriceValue(form.price)
  {
    PastryFields(form.shopId, form.name, NullIfEmpty(form.notes), NullIfEmpty(form.flavorProfile),
      NullIfEmpty(form.image), PriceValue(form.price), Some(form.active))
  }

  /** A pastry as the form itself would have saved it: no empty text where the form
      writes null, and a shop. */
  predicate Saveable(p: Pastry) {
    p.shopId != "" && p.notes != Some("") && p.flavorProfile != Some("") && p.image != Some("")
  }

  /** Opening a pastry in the form and saving it untouched writes the row back as it
      was. */
  lemma EditUntouchedKeepsPastry(shops: seq<Shop>, p: Pastry)
    requires Saveable(p)
    ensures ApplyPastry(p, PastryPayload(InitialPastryForm(shops, Some(p)))) == p
  {
    NullIfEmptyRoundTrip(p.notes);
    NullIfEmptyRoundTrip(p.flavorProfile);
    NullIfEmptyRoundTrip(p.image);
    PriceRoundTrip(p.price);
  }

  const ALERT_PREFIX: string := "Error saving pastry: "

  class PastryForm {
    const shops: seq<Shop>
    /** The pastry being edited; none for a new one. */
    const pastry: Option<Pastry>
    var form: PastryFormData
    var isSubmitting: bool
    /** The last `alert` shown. */
    var alert: Option<string>
    /** Whether `onSuccess` has been called. */
    var saved: bool

    constructor(shops: seq<Shop>, pastry: Option<Pastry>)
      ensures this.shops == shops && this.pastry == pastry
      ensures form == InitialPastryForm(shops, pastry) && !isSubmitting && alert.None? && !saved
    {
      this.shops := shops;
      this.pastry := pastry;
      form := InitialPastryForm(shops, pastry);
      isSubmitting := false;
      alert := None;
      saved := false;
    }

    /** An input's `onChange`: the form data replaced with one field changed. */
    method Edit(data: PastryFormData)
      modifies this
      ensures form == data
      ensures isSubmitting == old(isSubmitting) && alert == old(alert) && saved == old(saved)
    {
      form := data;
    }

    /** The statement a submit runs on the current contents: an update of the pastry
        being edited, or an insert under `newId`. */
    function Statement(st: Store, newId: string): (r: Result<Store, DbError>)
      reads this`form
      ensures pastry.Some? ==> r == UpdatePastry(st, pastry.value.id, PastryPayload(form))
      ensures pastry.None? ==> r == InsertPastry(st, newId, PastryPayload(form))
    {
      if pastry.Some? then UpdatePastry(st, pastry.value.id, PastryPayload(form))
      else InsertPastry(st, newId, PastryPayload(form))
    }

    /** The browser fires `onSubmit` only when the `required` inputs, the shop select and
        the name, are filled in. The select shows its empty placeholder for an id none of
        its options carries, so the shop must be one of those listed. */
    predicate Submittable()
      reads this`form
    {
      && form.shopId != "" && (exists s :: s in shops && s.id == form.shopId)
      && form.name != ""
    }

    /** A pastry whose shop is not among those listed (none are, when the shop query
        failed) cannot be saved from the form until a listed shop is picked. */
    lemma UnlistedShopHeldBack()
      requires forall s :: s in shops ==> s.id != form.shopId
      ensures !Submittable()
    {
    }

    /** `handleSubmit`: runs the statement; an error is alerted with its message and
        `onSuccess` is not called; success calls `onSuccess`. `newId` is the key the
        database draws for an insert. */
    method HandleSubmit(db: Db, newId: string, fault: Option<string>)
      modifies this, db
      ensures form == old(form) && !isSubmitting
      ensures fault.Some? ==>
        db.store == old(db.store) && alert == Some(ALERT_PREFIX + fault.value) && saved == old(saved)
      ensures fault.None? && old(Statement(db.store, newId)).Failure? ==>
        && db.store == old(db.store)
        && alert == Some(ALERT_PREFIX + ErrorMessage(old(Statement(db.store, newId)).error))
        && saved == old(saved)
      ensures fault.None? && old(Statement(db.store, newId)).Success? ==>
        db.store == old(Statement(db.store, newId)).value && alert == old(alert) && saved
    {
      isSubmitting := true;
      var err := db.Run(Statement(db.store, newId), fault);
      isSubmitting := false;
      if err.Some? {
        alert := Some(ALERT_PREFIX + err.value);
        return;
      }
      saved := true;
    }

    /** A submit: a form the browser holds back changes nothing; otherwise it runs
        `handleSubmit`. */
    method Submit(db: Db, newId: string, fault: Option<string>)
      modifies this, db
      ensures form == old(form)
      ensures !old(Submittable()) ==>
        db.store == old(db.store) && isSubmitting == old(isSubmitting) && alert == old(alert) && saved == old(saved)
      ensures old(Submittable()) ==> !isSubmitting
      ensures old(Submittable()) && fault.Some? ==>
        db.store == old(db.store) && alert == Some(ALERT_PREFIX + fault.value) && saved == old(saved)
      ensures old(Submittable()) && fault.None? && old(Statement(db.store, newId)).Failure? ==>
        && db.store == old(db.store)
        && alert == Some(ALERT_PREFIX + ErrorMessage(old(Statement(db.store, newId)).error))
        && saved == old(saved)
      ensures old(Submittable()) && fault.None? && old(Statement(db.store, newId)).Success? ==>
        db.store == old(Statement(db.store, newId)).value && alert == old(alert) && saved
    {
      if Submittable() {
        HandleSubmit(db, newId, fault);
      }
    }
  }
}

=== FILE: reset_password.dfy ===
/** The password-reset page: it turns the tokens of the reset link into a session, shows
    the form only while a session is valid, and submits a new password that passes the
    shared password rules. */
module ResetPassword {
  import opened Wrappers
  import opened JsString
  import opened Urls
  import opened Passwords

  const INVALID_LINK: string := "Invalid or expired reset link. Please request a new one."
  const FAILED: string := "Failed to reset password. Please try again."
  const UNEXPECTED: string := "An unexpected error occurred. Please try again."
  const AFTER_RESET: string := "/auth/login"

  /** `new URLSearchParams(hash.substring(1)).get(key)`: the first value of `key` in the
      fragment after its `#`. */
  function HashParam(hash: string, key: string): (v: Option<string>)
    ensures hash == "" ==> v.None?
  {
    assert Split("", '&') == [""];
    assert PairValue("", key).None? && [""][1..] == [];
    assert FirstValue([""], key) == FirstValue([], key) == None;
    FirstValue(Split(if |hash| > 0 then hash[1..] else "", '&'), key)
  }

  /** `accessToken && refreshToken`: both tokens present and not empty. */
  function LinkTokens(hash: string): (r: Option<(string, string)>)
    ensures r.Some? <==>
      HashParam(hash, "access_token").Some? && HashParam(hash, "access_token").value != "" &&
      HashParam(hash, "refresh_token").Some? && HashParam(hash, "refresh_token").value != ""
    ensures r.Some? ==>
      Some(r.value.0) == HashParam(hash, "access_token") && Some(r.value.1) == HashParam(hash, "refresh_token")
  {
    var access := HashParam(hash, "access_token");
    var refresh := HashParam(hash, "refresh_token");
    if access.Some? && access.value != "" && refresh.Some? && refresh.value != "" then
      Some((access.value, refresh.value))
    else None
  }

  /** `key=value` holds `value` under `key`. */
  lemma PairValueOwn(key: string, value: string)
    ensures PairValue(key + "=" + value, key) == Some(value)
  {
    var pair := key + "=" + value;
    assert pair[..|key + "="|] == key + "=";
    assert pair[|key| + 1..] == value;
  }

  /** Text free of `&` before and after `key=` stays free of it. */
  lemma PairPlain(key: string, value: string)
    requires '&' !in key && '&' !in value
    ensures '&' !in key + "=" + value
  {
    var pair := key + "=" + value;
    forall i | 0 <= i < |pair|
      ensures pair[i] != '&'
    {
      if i < |key| {
        assert pair[i] == key[i];
      } else if i > |key| {
        assert pair[i] == value[i - |key| - 1];
      }
    }
  }

  /** Two `&`-free pairs joined by `&` split back into the two. */
  lemma TwoPairsSplit(a: string, r: string)
    requires '&' !in a && '&' !in r
    ensures Split(a + "&" + r, '&') == [a, r]
  {
    assert Join([a, r], "&") == a + "&" + r;
    SplitJoin([a, r], '&');
  }

  /** The access token is read from the first pair and the refresh token from the
      second. */
  lemma TwoPairsValues(access: string, refresh: string)
    ensures var ps := ["access_token=" + access, "refresh_token=" + refresh];
      FirstValue(ps, "access_token") == Some(access) && FirstValue(ps, "refresh_token") == Some(refresh)
  {
    var a := "access_token=" + access;
    var r := "refresh_token=" + refresh;
    PairValueOwn("access_token", access);
    PairValueOwn("refresh_token", refresh);
    assert PairValue(a, "refresh_token").None? by {
      assert a[0] != "refresh_token="[0];
    }
    assert [a, r][1..] == [r];
    assert FirstValue([a, r], "refresh_token") == FirstValue([r], "refresh_token");
  }

  /** The reset link's fragment is `#` before the two pairs joined by `&`. */
  lemma FragmentShape(access: string, refresh: string)
    ensures "#access_token=" + access + "&refresh_token=" + refresh
      == "#" + (("access_token=" + access) + "&" + ("refresh_token=" + refresh))
  {
    var a := "access_token=" + access;
    var r := "refresh_token=" + refresh;
    assert "#access_token=" == "#" + "access_token=";
    assert "&refresh_token=" == "&" + "refresh_token=";
    calc {
      "#access_token=" + access + "&refresh_token=" + refresh;
      ("#" + "access_token=") + access + ("&" + "refresh_token=") + refresh;
      "#" + (a + "&" + r);
    }
  }

  /** A reset link carrying both tokens yields them. */
  lemma LinkTokensReadBack(access: string, refresh: string)
    requires access != "" && refresh != "" && '&' !in access && '&' !in refresh
    ensures LinkTokens("#access_token=" + access + "&refresh_token=" + refresh) == Some((access, refresh))
  {
    var a := "access_token=" + access;
    var r := "refresh_token=" + refresh;
    var hash := "#" + (a + "&" + r);
    FragmentShape(access, refresh);
    assert hash[1..] == a + "&" + r;
    PairPlain("access_token", access);
    PairPlain("refresh_token", refresh);
    TwoPairsSplit(a, r);
    TwoPairsValues(access, refresh);
    assert HashParam(hash, "access_token") == Some(access);
    assert HashParam(hash, "refresh_token") == Some(refresh);
  }

  /** What `auth.updateUser` answered: it threw, it returned an error (with its
      message), or it succeeded. */
  datatype UpdateReply = Thrown | UpdateFailed(message: string) | Updated

  datatype ResetScreen = InvalidLink | PasswordForm

  class ResetPasswordPage {
    var isValidSession: bool
    var error: Option<string>
    var isLoading: bool
    var success: bool
    var fieldErrors: seq<FieldError>
    /** The token pairs handed to `auth.setSession`. */
    var sessionRequests: seq<(string, string)>
    /** The new passwords handed to `auth.updateUser`. */
    var updates: seq<string>
    var navigation: Option<string>

    constructor()
      ensures !isValidSession && error.None? && !isLoading && !success && fieldErrors == []
      ensures sessionRequests == [] && updates == [] && navigation.None?
    {
      isValidSession := false;
      error := None;
      isLoading := false;
      success := false;
      fieldErrors := [];
      sessionRequests := [];
      updates := [];
      navigation := None;
    }

    /** The mount effect, given the link's fragment, whether `setSession` fails and
        whether `getSession` then finds a session: a session is set up only from both
        tokens; a failure marks the link invalid; otherwise the session found decides. */
    method CheckLink(hash: string, setSessionFails: bool, hasSession: bool)
      modifies this
      ensures LinkTokens(hash).Some? ==> sessionRequests == old(sessionRequests) + [LinkTokens(hash).value]
      ensures LinkTokens(hash).None? ==> sessionRequests == old(sessionRequests)
      ensures LinkTokens(hash).Some? && setSessionFails ==> !isValidSession && error == Some(INVALID_LINK)
      ensures LinkTokens(hash).None? || !setSessionFails ==> isValidSession == hasSession && error == old(error)
      ensures isLoading == old(isLoading) && success == old(success) && fieldErrors == old(fieldErrors)
      ensures updates == old(updates) && navigation == old(navigation)
    {
      var tokens := LinkTokens(hash);
      if tokens.Some? {
        sessionRequests := sessionRequests + [tokens.value];
        if setSessionFails {
          error := Some(INVALID_LINK);
          isValidSession := false;
          return;
        }
      }
      isValidSession := hasSession;
    }

    /** The form is shown exactly while the session is valid. */
    function Screen(): (s: ResetScreen)
      reads this
      ensures s.PasswordForm? <==> isValidSession
    {
      if isValidSession then PasswordForm else InvalidLink
    }

    /** `handleSubmit(onSubmit)` on the form, which is only on screen with a valid
        session. A password that breaks a rule shows the first message of each field and
        sends nothing; otherwise the new password is sent, a failure shows its message
        and stops loading, and success leads to the login page. */
    method HandleSubmit(password: string, confirmPassword: string, reply: UpdateReply)
      modifies this
      requires Screen().PasswordForm?
      ensures isValidSession && sessionRequests == old(sessionRequests)
      ensures fieldErrors == Shown(PasswordErrors(password) + ConfirmErrors(password, confirmPassword))
      ensures fieldErrors == [] <==> StrongPassword(password) && password == confirmPassword
      ensures fieldErrors != [] ==>
        && updates == old(updates) && isLoading == old(isLoading) && error == old(error)
        && success == old(success) && navigation == old(navigation)
      ensures fieldErrors == [] ==> updates == old(updates) + [password]
      ensures fieldErrors == [] && reply.Thrown? ==>
        error == Some(UNEXPECTED) && !isLoading && !success && navigation == old(navigation)
      ensures fieldErrors == [] && reply.UpdateFailed? ==>
        && error == Some(if reply.message == "" then FAILED else reply.message)
        && !isLoading && !success && navigation == old(navigation)
      ensures fieldErrors == [] && reply.Updated? ==>
        error.None? && isLoading && success && navigation == Some(AFTER_RESET)
    {
      fieldErrors := Shown(PasswordErrors(password) + ConfirmErrors(password, confirmPassword));
      if fieldErrors != [] {
        return;
      }
      isLoading := true;
      error := None;
      success := false;
      updates := updates + [password];
      match reply
      case Thrown =>
        error := Some(UNEXPECTED);
        isLoading := false;
      case UpdateFailed(message) =>
        error := Some(if message == "" then FAILED else message);
        isLoading := false;
      case Updated =>
        success := true;
        navigation := Some(AFTER_RESET);
    }

    /** A press of the submit button, which is disabled while the request runs and after
        a success: then nothing happens; otherwise the form is handled. */
    method Submit(password: string, confirmPassword: string, reply: UpdateReply)
      modifies this
      requires Screen().PasswordForm?
      ensures isValidSession && sessionRequests == old(sessionRequests)
      ensures old(isLoading || success) ==>
        && fieldErrors == old(fieldErrors) && updates == old(updates) && isLoading == old(isLoading)
        && error == old(error) && success == old(success) && navigation == old(navigation)
      ensures !old(isLoading || success) ==>
        fieldErrors == Shown(PasswordErrors(password) + ConfirmErrors(password, confirmPassword))
      ensures !old(isLoading || success) && !(StrongPassword(password) && password == confirmPassword) ==>
        && updates == old(updates) && isLoading == old(isLoading) && error == old(error)
        && success == old(success) && navigation == old(navigation)
      ensures !old(isLoading || success) && StrongPassword(password) && password == confirmPassword ==>
        updates == old(updates) + [password]
      ensures !old(isLoading || success) && StrongPassword(password) && password == confirmPassword && reply.Thrown? ==>
        error == Some(UNEXPECTED) && !isLoading && !success && navigation == old(navigation)
      ensures !old(isLoading || success) && StrongPassword(password) && password == confirmPassword && reply.UpdateFailed? ==>
        && error == Some(if reply.message == "" then FAILED else reply.message)
        && !isLoading && !success && navigation == old(navigation)
      ensures !old(isLoading || success) && StrongPassword(password) && password == confirmPassword && reply.Updated? ==>
        error.None? && isLoading && success && navigation == Some(AFTER_RESET)
    {
      if !isLoading && !success {
        HandleSubmit(password, confirmPassword, reply);
      }
    }
  }
}

=== FILE: safe_image.dfy ===
/** The image wrapper used for product pictures: it shows the given picture, switches once
    to a fallback when loading fails, and turns off image optimisation for inline
    `data:` pictures. */
module SafeImage {
  import opened Wrappers
  import opened JsString

  /** The picture shown when neither a source nor a fallback is given. */
  const PLACEHOLDER: string := "/placeholder-coffee.png"

  /** The inline "Image not available" picture shown after a failure without fallback. */
  const UNAVAILABLE: string := DATA_SCHEME + "image/svg+xml;base64,PHN2ZyB3aWR0aD0iNDAwIiBoZWlnaHQ9IjQwMCIgeG1sbnM9Imh0dHA6Ly93d3cudzMub3JnLzIwMDAvc3ZnIj48cmVjdCB3aWR0aD0iNDAwIiBoZWlnaHQ9IjQwMCIgZmlsbD0iI2Y1ZjVmNSIvPjx0ZXh0IHg9IjUwJSIgeT0iNTAlIiBmb250LWZhbWlseT0iQXJpYWwiIGZvbnQtc2l6ZT0iMTgiIGZpbGw9IiM5Yzk1YzUiIHRleHQtYW5jaG9yPSJtaWRkbGUiIGR5PSIuM2VtIj5JbWFnZSBub3QgYXZhaWxhYmxlPC90ZXh0Pjwvc3ZnPg=="

  const DATA_SCHEME: string := "data:"

  /** `x || other` for a string that may be missing: a missing or empty `x` gives way. */
  function OrElse(x: Option<string>, other: string): (r: string)
    ensures x.Some? && x.value != "" ==> r == x.value
    ensures x.None? || x.value == "" ==> r == other
  {
    if x.Some? && x.value != "" then x.value else other
  }

  /** The first picture: the source, else the fallback, else the placeholder. */
  function InitialSource(src: Option<string>, fallback: Option<string>): (r: string)
    ensures r != ""
    ensures src.Some? && src.value != "" ==> r == src.value
    ensures (src.None? || src.value == "") && fallback.Some? && fallback.value != "" ==> r == fallback.value
    ensures (src.None? || src.value == "") && (fallback.None? || fallback.value == "") ==> r == PLACEHOLDER
  {
    OrElse(src, OrElse(fallback, PLACEHOLDER))
  }

  /** The picture after a failure: the fallback, else the inline picture. */
  function ErrorSource(fallback: Option<string>): (r: string)
    ensures r != ""
    ensures fallback.Some? && fallback.value != "" ==> r == fallback.value
    ensures fallback.None? || fallback.value == "" ==> r == UNAVAILABLE
  {
    OrElse(fallback, UNAVAILABLE)
  }

  /** `unoptimized`: the picture is inline. */
  predicate Inline(url: string) {
    StartsWith(url, DATA_SCHEME)
  }

  /** The inline picture is inline and the placeholder is not. */
  lemma BuiltInPictures()
    ensures Inline(UNAVAILABLE)
    ensures !Inline(PLACEHOLDER)
  {
    assert UNAVAILABLE[..|DATA_SCHEME|] == DATA_SCHEME;
    assert PLACEHOLDER[0] != DATA_SCHEME[0];
  }

  class SafeImageState {
    const src: Option<string>
    const fallback: Option<string>
    var imgSrc: string
    var hasError: bool

    /** Before a failure the first picture is shown, after one the failure picture. */
    predicate Valid()
      reads this
    {
      imgSrc == if hasError then ErrorSource(fallback) else InitialSource(src, fallback)
    }

    constructor(src: Option<string>, fallback: Option<string>)
      ensures this.src == src && this.fallback == fallback
      ensures imgSrc == InitialSource(src, fallback) && !hasError
      ensures Valid()
    {
      this.src := src;
      this.fallback := fallback;
      imgSrc := InitialSource(src, fallback);
      hasError := false;
    }

    /** `handleError`: the first failure switches to the failure picture; any later one
        changes nothing. */
    method HandleError()
      modifies this
      requires Valid()
      ensures Valid() && hasError
      ensures old(hasError) ==> imgSrc == old(imgSrc)
      ensures imgSrc == ErrorSource(fallback)
    {
      if !hasError {
        hasError := true;
        imgSrc := ErrorSource(fallback);
      }
    }

    /** Whether the picture is handed over unoptimised. Without a fallback, a failed
        picture is always the inline one and so unoptimised. */
    function Unoptimized(): (u: bool)
      reads this
      requires Valid()
      ensures hasError && (fallback.None? || fallback.value == "") ==> u
      ensures !hasError && (src.None? || src.value == "") && (fallback.None? || fallback.value == "") ==> !u
      ensures u <==> Inline(imgSrc)
    {
      BuiltInPictures();
      Inline(imgSrc)
    }
  }
}

=== FILE: scenario.dfy ===
/** The sample café the seed script loads — one shop, four coffees, four pastries and
    eight pairing rules — and what the catalog queries answer for it. Row ids are
    generated by the database; here they are fixed names. The seed's descriptions and
    picture links are not repeated. */
module SeedScenario {
  import opened Wrappers
  import opened Seqs
  import opened Types
  import opened Schema
  import opened ShopLookup
  import opened Pairing

  const SHOP_ID: string := "550e8400-e29b-41d4-a716-446655440000"
  const SLUG: string := "gloria-jeans-p88f"

  const GloriaJeans: Shop := Shop(SHOP_ID, "Gloria Jeans", SLUG, SLUG, map[])

  function SeedCoffee(id: string, name: string, roast: string, origin: string, notes: seq<string>, cents: int): Coffee {
    Coffee(id, SHOP_ID, name, Some(roast), Some(origin), Some(notes), None, None, Some(cents), true)
  }

  function SeedPastry(id: string, name: string, notes: string, flavour: string, cents: int): Pastry {
    Pastry(id, SHOP_ID, name, Some(notes), Some(flavour), None, Some(cents), true)
  }

  function SeedRule(id: string, coffeeId: string, pastryId: string, score: int): PairingRule {
    PairingRule(id, SHOP_ID, coffeeId, pastryId, score, None, true)
  }

  const Espresso: Coffee := SeedCoffee("espresso", "Espresso", "Dark", "Colombia", ["bold", "chocolate", "caramel"], 450)
  const Cappuccino: Coffee := SeedCoffee("cappuccino", "Cappuccino", "Medium", "Ethiopia", ["smooth", "creamy", "nutty"], 500)
  const Latte: Coffee := SeedCoffee("latte", "Latte", "Medium", "Brazil", ["sweet", "vanilla", "hazelnut"], 550)
  const Americano: Coffee := SeedCoffee("americano", "Americano", "Light", "Costa Rica", ["bright", "citrus", "floral"], 400)

  const Croissant: Pastry := SeedPastry("croissant", "Chocolate Croissant",
    "Buttery and flaky with rich chocolate filling", "sweet, buttery, chocolatey", 350)
  const Muffin: Pastry := SeedPastry("muffin", "Blueberry Muffin",
    "Fresh blueberries in a tender, moist muffin", "sweet, fruity, tender", 300)
  const Biscotti: Pastry := SeedPastry("biscotti", "Almond Biscotti",
    "Crisp Italian cookies perfect for dipping", "nutty, crunchy, slightly sweet", 250)
  const CinnamonRoll: Pastry := SeedPastry("roll", "Cinnamon Roll",
    "Warm, gooey cinnamon roll with cream cheese frosting", "sweet, spicy, rich", 400)

  const EspressoCroissant: PairingRule := SeedRule("r1", "espresso", "croissant", 95)
  const EspressoBiscotti: PairingRule := SeedRule("r2", "espresso", "biscotti", 90)
  const CappuccinoMuffin: PairingRule := SeedRule("r3", "cappuccino", "muffin", 88)
  const CappuccinoRoll: PairingRule := SeedRule("r4", "cappuccino", "roll", 85)
  const LatteCroissant: PairingRule := SeedRule("r5", "latte", "croissant", 92)
  const LatteRoll: PairingRule := SeedRule("r6", "latte", "roll", 90)
  const AmericanoMuffin: PairingRule := SeedRule("r7", "americano", "muffin", 87)
  const AmericanoBiscotti: PairingRule := SeedRule("r8", "americano", "biscotti", 82)

  /** The rules for the other three coffees. */
  const OtherRules: seq<PairingRule> :=
    [CappuccinoMuffin, CappuccinoRoll, LatteCroissant, LatteRoll, AmericanoMuffin, AmericanoBiscotti]

  /** The database right after seeding. */
  const Seed: Store := Store(
    [GloriaJeans],
    [Espresso, Cappuccino, Latte, Americano],
    [Croissant, Muffin, Biscotti, CinnamonRoll],
    [EspressoCroissant, EspressoBiscotti] + OtherRules,
    [], [])

  /** The seeded rules have distinct ids. */
  lemma SeedRuleIdsUnique(rs: seq<PairingRule>)
    requires rs == [EspressoCroissant, EspressoBiscotti] + OtherRules
    ensures UniqueBy(rs, RuleId)
  {
    assert forall i, j :: 0 <= i < j < |rs| ==> rs[i].id != rs[j].id;
  }

  /** The seeded rules pair distinct coffees and pastries. */
  lemma SeedTriplesUnique(rs: seq<PairingRule>)
    requires rs == [EspressoCroissant, EspressoBiscotti] + OtherRules
    ensures UniqueBy(rs, RuleTriple)
  {
    assert forall i, j :: 0 <= i < j < |rs| ==> RuleTriple(rs[i]) != RuleTriple(rs[j]);
  }

  /** The seeded coffees and pastries have distinct ids. */
  lemma SeedProductIdsUnique(cs: seq<Coffee>, ps: seq<Pastry>)
    requires cs == [Espresso, Cappuccino, Latte, Americano]
    requires ps == [Croissant, Muffin, Biscotti, CinnamonRoll]
    ensures UniqueBy(cs, CoffeeId) && UniqueBy(ps, PastryId)
  {
  }

  /** Keys, slugs, QR codes and pairing triples of the seed are distinct. */
  lemma SeedKeysUnique()
    ensures KeysUnique(Seed)
  {
    SeedRuleIdsUnique(Seed.rules);
    SeedTriplesUnique(Seed.rules);
    SeedProductIdsUnique(Seed.coffees, Seed.pastries);
  }

  /** The ids the seed's rows refer to exist. */
  lemma SeedIds()
    ensures SHOP_ID in ShopIds(Seed)
    ensures {"espresso", "cappuccino", "latte", "americano"} <= CoffeeIds(Seed)
    ensures {"croissant", "muffin", "biscotti", "roll"} <= PastryIds(Seed)
  {
    assert GloriaJeans in Seed.shops;
    assert Espresso in Seed.coffees && Cappuccino in Seed.coffees;
    assert Latte in Seed.coffees && Americano in Seed.coffees;
    assert Croissant in Seed.pastries && Muffin in Seed.pastries;
    assert Biscotti in Seed.pastries && CinnamonRoll in Seed.pastries;
  }

  /** The seed's rules name the seeded shop, coffees and pastries. */
  lemma SeedRuleRefs(rs: seq<PairingRule>)
    requires rs == [EspressoCroissant, EspressoBiscotti] + OtherRules
    ensures forall r :: r in rs ==>
      r.shopId == SHOP_ID &&
      r.coffeeId in {"espresso", "cappuccino", "latte", "americano"} &&
      r.pastryId in {"croissant", "muffin", "biscotti", "roll"}
  {
  }

  /** The seeded coffees and pastries belong to the seeded café. */
  lemma SeedProductsInShop(cs: seq<Coffee>, ps: seq<Pastry>)
    requires cs == [Espresso, Cappuccino, Latte, Americano]
    requires ps == [Croissant, Muffin, Biscotti, CinnamonRoll]
    ensures forall c :: c in cs ==> c.shopId == SHOP_ID
    ensures forall p :: p in ps ==> p.shopId == SHOP_ID
  {
  }

  /** A store of one café, whose products are all the café's and whose rules name the
      café and existing products, has its references resolved. */
  lemma OneShopResolves(st: Store, shop: string, coffeeIds: set<string>, pastryIds: set<string>)
    requires shop in ShopIds(st) && coffeeIds <= CoffeeIds(st) && pastryIds <= PastryIds(st)
    requires forall c :: c in st.coffees ==> c.shopId == shop
    requires forall p :: p in st.pastries ==> p.shopId == shop
    requires forall r :: r in st.rules ==> r.shopId == shop && r.coffeeId in coffeeIds && r.pastryId in pastryIds
    requires st.events == [] && st.sessions == []
    ensures RefsResolve(st)
  {
  }

  /** Every row of the seed names rows that exist. */
  lemma SeedRefsResolve()
    ensures RefsResolve(Seed)
  {
    SeedIds();
    SeedRuleRefs(Seed.rules);
    SeedProductsInShop(Seed.coffees, Seed.pastries);
    OneShopResolves(Seed, SHOP_ID, {"espresso", "cappuccino", "latte", "americano"},
      {"croissant", "muffin", "biscotti", "roll"});
  }

  /** The café's page is found by the slug it was seeded with, and its QR code leads to
      it too. */
  lemma SeedShopFound()
    ensures GetShopBySlug(Seed, SLUG, false) == Some(GloriaJeans)
    ensures GetShopByQRCode(Seed, SLUG, false) == Some(GloriaJeans)
  {
    SeedKeysUnique();
    SeedRefsResolve();
    GetShopBySlugFinds(Seed, GloriaJeans);
    GetShopByQRCodeFinds(Seed, GloriaJeans);
  }

  /** Two rules with different scores are sorted best first. */
  lemma SortTwo(a: PairingRule, b: PairingRule)
    requires a.matchScore > b.matchScore
    ensures SortByScore([a, b]) == [a, b]
  {
    assert [a, b][1..] == [b];
    assert SortByScore([b]) == [b];
  }

  /** The query for Espresso selects exactly the two Espresso rules, in seed order. */
  lemma SeedEspressoSelected()
    ensures Keep(Seed.rules, Selected(SHOP_ID, "espresso")) == [EspressoCroissant, EspressoBiscotti]
  {
    var p := Selected(SHOP_ID, "espresso");
    KeepAppend([EspressoCroissant, EspressoBiscotti], OtherRules, p);
    KeepAll([EspressoCroissant, EspressoBiscotti], p);
    KeepNone(OtherRules, p);
  }

  /** The rows the Espresso pairings join in. */
  lemma EspressoDetails()
    ensures CoffeeById(Seed.coffees, "espresso") == Some(Espresso)
    ensures PastryById(Seed.pastries, "croissant") == Some(Croissant)
    ensures PastryById(Seed.pastries, "biscotti") == Some(Biscotti)
  {
    assert Seed.pastries[1..][1..] == [Biscotti, CinnamonRoll];
  }

  /** When a query selects two rules with different scores, they come back best first. */
  lemma TwoSelectedByScore(st: Store, shopId: string, coffeeId: string, a: PairingRule, b: PairingRule)
    requires Keep(st.rules, Selected(shopId, coffeeId)) == [a, b]
    requires a.matchScore > b.matchScore
    ensures RulesOf(GetPairingsForCoffee(st, shopId, coffeeId, false)) == [a, b]
  {
    SortTwo(a, b);
    RulesOfDetails(st, [a, b]);
  }

  /** The Espresso suggestions are the two Espresso rules, best first. */
  lemma SeedEspressoOrder()
    ensures RulesOf(GetPairingsForCoffee(Seed, SHOP_ID, "espresso", false)) == [EspressoCroissant, EspressoBiscotti]
  {
    SeedEspressoSelected();
    TwoSelectedByScore(Seed, SHOP_ID, "espresso", EspressoCroissant, EspressoBiscotti);
  }

  /** Choosing Espresso offers the croissant (95) before the biscotti (90), each with
      its coffee and pastry joined in. */
  lemma SeedEspressoPairings()
    ensures var r := GetPairingsForCoffee(Seed, SHOP_ID, "espresso", false);
      && |r| == 2
      && r[0] == PairingWithDetails(EspressoCroissant, Some(Espresso), Some(Croissant))
      && r[1] == PairingWithDetails(EspressoBiscotti, Some(Espresso), Some(Biscotti))
  {
    var r := GetPairingsForCoffee(Seed, SHOP_ID, "espresso", false);
    SeedEspressoOrder();
    EspressoDetails();
    assert r[0] == WithDetails(Seed, r[0].rule);
    assert r[1] == WithDetails(Seed, r[1].rule);
  }
}

=== FILE: schema.dfy ===
/** The database the application talks to, as its table definitions declare it:
    five catalog and event tables plus sessions, their primary and unique keys,
    the NOT NULL columns that have no default, and what each foreign key does when
    the row it points at is deleted (cascade or set null). Every operation is a
    function from the old contents to the new contents or to the constraint the
    statement violates. */
module Schema {
  import opened Wrappers
  import opened Seqs
  import opened Types
  import opened JsString

  datatype Store = Store(
    shops: seq<Shop>,
    coffees: seq<Coffee>,
    pastries: seq<Pastry>,
    rules: seq<PairingRule>,
    events: seq<Event>,
    sessions: seq<Session>)

  /** The constraint a statement violates. */
  datatype DbError =
    | NotNullViolation(column: string)
    | UniqueViolation(constraint: string)
    | ForeignKeyViolation(column: string)
    | OutOfRange(column: string)
    | ValueTooLong(column: string, limit: nat)
    | NumericOverflow(column: string)

  /** The message the database reports for a violation. */
  function ErrorMessage(e: DbError): (m: string)
    ensures |m| > 0
  {
    match e
    case NotNullViolation(c) => "null value in column \"" + c + "\" violates not-null constraint"
    case UniqueViolation(c) => "duplicate key value violates unique constraint \"" + c + "\""
    case ForeignKeyViolation(c) => "insert or update violates foreign key constraint on column \"" + c + "\""
    case OutOfRange(c) => "value out of range for type integer in column \"" + c + "\""
    case ValueTooLong(_, n) => "value too long for type character varying(" + NatToString(n) + ")"
    case NumericOverflow(_) => "numeric field overflow"
  }

  /** A value fits a `varchar(limit)` column: Postgres counts characters. */
  predicate Fits(v: string, limit: nat) { |v| <= limit }

  predicate FitsOpt(v: Option<string>, limit: nat) { v.None? || |v.value| <= limit }

  /** `decimal(10, 2)` keeps eight digits before the point; prices are held in cents,
      so a price fits when it has at most ten digits. */
  const PRICE_LIMIT: int := 10_000_000_000

  predicate PriceFits(price: Option<int>) { price.None? || -PRICE_LIMIT < price.value < PRICE_LIMIT }

  /** The first text column of a `shops` row longer than its `varchar(255)`. */
  function ShopTextError(name: string, slug: string, qrCode: Option<string>): (e: Option<DbError>)
    ensures e.None? <==> Fits(name, 255) && Fits(slug, 255) && FitsOpt(qrCode, 255)
    ensures e.Some? ==> e.value.ValueTooLong? && e.value.limit == 255
  {
    if !Fits(name, 255) then Some(ValueTooLong("name", 255))
    else if !Fits(slug, 255) then Some(ValueTooLong("slug", 255))
    else if !FitsOpt(qrCode, 255) then Some(ValueTooLong("qr_code", 255))
    else None
  }

  /** The range of a Postgres `integer` column. */
  const INT4_MIN: int := -0x8000_0000
  const INT4_MAX: int := 0x7FFF_FFFF

  function ShopIds(st: Store): set<string> { set s | s in st.shops :: s.id }
  function CoffeeIds(st: Store): set<string> { set c | c in st.coffees :: c.id }
  function PastryIds(st: Store): set<string> { set p | p in st.pastries :: p.id }
  function RuleIds(st: Store): set<string> { set r | r in st.rules :: r.id }
  function EventIds(st: Store): set<string> { set e | e in st.events :: e.id }
  function SessionIds(st: Store): set<string> { set s | s in st.sessions :: s.id }

  /** The key of the unique (shop_id, coffee_id, pastry_id) constraint. */
  function RuleTriple(r: PairingRule): (string, string, string) { (r.shopId, r.coffeeId, r.pastryId) }
  function EventShop(e: Event): string { e.row.shopId }
  function SessionShop(s: Session): string { s.shopId }

  /** Primary keys, `shops.slug`, `shops.qr_code` and the pairing triple are unique. */
  predicate KeysUnique(st: Store) {
    && UniqueBy(st.shops, ShopId)
    && UniqueBy(st.shops, ShopSlug)
    && UniqueBy(st.shops, ShopQrCode)
    && UniqueBy(st.coffees, CoffeeId)
    && UniqueBy(st.pastries, PastryId)
    && UniqueBy(st.rules, RuleId)
    && UniqueBy(st.rules, RuleTriple)
    && UniqueBy(st.events, EventId)
    && UniqueBy(st.sessions, SessionId)
  }

  /** A nullable reference is null or names an existing row. */
  predicate RefOk(ref: Option<string>, ids: set<string>) {
    ref.None? || ref.value in ids
  }

  predicate EventRefsOk(row: EventRow, st: Store) {
    && row.shopId in ShopIds(st)
    && RefOk(row.coffeeId, CoffeeIds(st))
    && RefOk(row.pastryId, PastryIds(st))
    && RefOk(row.pairingRuleId, RuleIds(st))
  }

  /** Every foreign key names an existing row. */
  predicate RefsResolve(st: Store) {
    && (forall c :: c in st.coffees ==> c.shopId in ShopIds(st))
    && (forall p :: p in st.pastries ==> p.shopId in ShopIds(st))
    && (forall r :: r in st.rules ==>
          r.shopId in ShopIds(st) && r.coffeeId in CoffeeIds(st) && r.pastryId in PastryIds(st))
    && (forall e :: e in st.events ==> EventRefsOk(e.row, st))
    && (forall s :: s in st.sessions ==> s.shopId in ShopIds(st))
  }

  /** The contents the constraints allow. */
  predicate Valid(st: Store) {
    KeysUnique(st) && RefsResolve(st)
  }

  const Empty: Store := Store([], [], [], [], [], [])

  lemma EmptyValid()
    ensures Valid(Empty)
  {
  }

  // ---------------------------------------------------------------- deletes

  /** ON DELETE SET NULL for one reference. */
  function ClearRef(ref: Option<string>, gone: set<string>): Option<string> {
    if ref.Some? && ref.value in gone then None else ref
  }

  /** ON DELETE SET NULL applied to the three nullable references of an event. */
  function NullRefs(e: Event, gc: set<string>, gp: set<string>, gr: set<string>): Event {
    e.(row := e.row.(
      coffeeId := ClearRef(e.row.coffeeId, gc),
      pastryId := ClearRef(e.row.pastryId, gp),
      pairingRuleId := ClearRef(e.row.pairingRuleId, gr)))
  }

  function NullAll(es: seq<Event>, gc: set<string>, gp: set<string>, gr: set<string>): (r: seq<Event>)
    ensures |r| == |es|
    ensures forall i :: 0 <= i < |es| ==> r[i] == NullRefs(es[i], gc, gp, gr)
  {
    if es == [] then [] else [NullRefs(es[0], gc, gp, gr)] + NullAll(es[1..], gc, gp, gr)
  }

  /** The coffees a delete removes: those named, and those of a removed shop. */
  function GoneCoffees(st: Store, s: set<string>, c0: set<string>): set<string> {
    c0 + set c | c in st.coffees && c.shopId in s :: c.id
  }

  function GonePastries(st: Store, s: set<string>, p0: set<string>): set<string> {
    p0 + set p | p in st.pastries && p.shopId in s :: p.id
  }

  /** The rules a delete removes: those named, and those whose shop, coffee or pastry goes. */
  function GoneRules(st: Store, s: set<string>, gc: set<string>, gp: set<string>, r0: set<string>): set<string> {
    r0 + set r | r in st.rules && (r.shopId in s || r.coffeeId in gc || r.pastryId in gp) :: r.id
  }

  /** Deleting the shops `s`, coffees `c0`, pastries `p0` and rules `r0`, with every
      foreign-key action carried through: coffees, pastries, pairing rules, events and
      sessions of a removed shop go (cascade), rules of a removed coffee or pastry go
      (cascade), and events keep their row with the reference to a removed coffee,
      pastry or rule set to null. */
  function Cascade(st: Store, s: set<string>, c0: set<string>, p0: set<string>, r0: set<string>): (r: Store)
    ensures forall x :: x in r.shops <==> x in st.shops && x.id !in s
    ensures forall c :: c in r.coffees ==> c in st.coffees && c.shopId !in s && c.id !in c0
    ensures forall p :: p in r.pastries ==> p in st.pastries && p.shopId !in s && p.id !in p0
    ensures forall x :: x in r.rules ==>
      && x in st.rules && x.shopId !in s && x.id !in r0
      && x.coffeeId !in GoneCoffees(st, s, c0) && x.pastryId !in GonePastries(st, s, p0)
    ensures forall x :: x in r.sessions <==> x in st.sessions && x.shopId !in s
  {
    var gc := GoneCoffees(st, s, c0);
    var gp := GonePastries(st, s, p0);
    var gr := GoneRules(st, s, gc, gp, r0);
    Store(
      shops := Keep(st.shops, KeyNotIn(ShopId, s)),
      coffees := Keep(st.coffees, KeyNotIn(CoffeeId, gc)),
      pastries := Keep(st.pastries, KeyNotIn(PastryId, gp)),
      rules := Keep(st.rules, KeyNotIn(RuleId, gr)),
      events := NullAll(Keep(st.events, KeyNotIn(EventShop, s)), gc, gp, gr),
      sessions := Keep(st.sessions, KeyNotIn(SessionShop, s)))
  }

  /** `delete from shops where id = ...`. */
  function DeleteShop(st: Store, id: string): Store {
    Cascade(st, {id}, {}, {}, {})
  }

  /** `delete from coffees where id = ...`. */
  function DeleteCoffee(st: Store, id: string): Store {
    Cascade(st, {}, {id}, {}, {})
  }

  /** `delete from pastries where id = ...`. */
  function DeletePastry(st: Store, id: string): Store {
    Cascade(st, {}, {}, {id}, {})
  }

  /** `delete from pairing_rules where id = ...`. */
  function DeletePairingRule(st: Store, id: string): Store {
    Cascade(st, {}, {}, {}, {id})
  }

  // ---------------------------------------------------------------- inserts

  /** The columns a `shops` insert names; `qrCode` is `None` when the insert leaves it out. */
  datatype ShopInsert = ShopInsert(name: string, slug: string, qrCode: Option<string>, settings: map<string, string>)

  /** `insert into shops`, with `id` the key the database draws. */
  function InsertShop(st: Store, id: string, ins: ShopInsert): (r: Result<Store, DbError>)
    ensures ShopTextError(ins.name, ins.slug, ins.qrCode).Some? ==>
      r == Failure(ShopTextError(ins.name, ins.slug, ins.qrCode).value)
    ensures Fits(ins.name, 255) && Fits(ins.slug, 255) && ins.qrCode.None? ==>
      r == Failure(NotNullViolation("qr_code"))
    ensures r.Success? <==>
      && Fits(ins.name, 255) && Fits(ins.slug, 255)
      && ins.qrCode.Some? && Fits(ins.qrCode.value, 255)
      && id !in ShopIds(st)
      && (forall x :: x in st.shops ==> x.slug != ins.slug)
      && (forall x :: x in st.shops ==> x.qrCode != ins.qrCode.value)
    ensures r.Success? ==>
      r.value == st.(shops := st.shops + [Shop(id, ins.name, ins.slug, ins.qrCode.value, ins.settings)])
  {
    if ShopTextError(ins.name, ins.slug, ins.qrCode).Some? then Failure(ShopTextError(ins.name, ins.slug, ins.qrCode).value)
    else if ins.qrCode.None? then Failure(NotNullViolation("qr_code"))
    else if id in ShopIds(st) then Failure(UniqueViolation("shops_pkey"))
    else if exists x :: x in st.shops && x.slug == ins.slug then Failure(UniqueViolation("shops_slug_unique"))
    else if exists x :: x in st.shops && x.qrCode == ins.qrCode.value then Failure(UniqueViolation("shops_qr_code_unique"))
    else Success(st.(shops := st.shops + [Shop(id, ins.name, ins.slug, ins.qrCode.value, ins.settings)]))
  }

  /** The columns a `coffees` insert or update names; `active` is `None` when left out. */
  datatype CoffeeFields = CoffeeFields(
    shopId: string,
    name: string,
    roast: Option<string>,
    origin: Option<string>,
    tastingNotes: Option<seq<string>>,
    description: Option<string>,
    image: Option<string>,
    price: Option<int>,
    active: Option<bool>)

  /** The row an insert creates: `active` defaults to true. */
  function NewCoffee(id: string, f: CoffeeFields): (c: Coffee)
    ensures c.id == id && c.shopId == f.shopId && c.name == f.name && c.price == f.price
    ensures c.active == (f.active != Some(false))
  {
    Coffee(id, f.shopId, f.name, f.roast, f.origin, f.tastingNotes, f.description, f.image, f.price,
      f.active.GetOr(true))
  }

  /** The column types of `coffees`: `name` and `origin` are `varchar(255)`, `roast`
      `varchar(50)`, `image` `varchar(500)` and `price` `decimal(10, 2)`. */
  predicate CoffeeFits(f: CoffeeFields) {
    Fits(f.name, 255) && FitsOpt(f.roast, 50) && FitsOpt(f.origin, 255) && FitsOpt(f.image, 500) && PriceFits(f.price)
  }

  /** The first column of a coffee row its type refuses. */
  function CoffeeColumnError(f: CoffeeFields): (e: Option<DbError>)
    ensures e.None? <==> CoffeeFits(f)
    ensures e.Some? ==> e.value.ValueTooLong? || e.value == NumericOverflow("price")
  {
    if !Fits(f.name, 255) then Some(ValueTooLong("name", 255))
    else if !FitsOpt(f.roast, 50) then Some(ValueTooLong("roast", 50))
    else if !FitsOpt(f.origin, 255) then Some(ValueTooLong("origin", 255))
    else if !FitsOpt(f.image, 500) then Some(ValueTooLong("image", 500))
    else if !PriceFits(f.price) then Some(NumericOverflow("price"))
    else None
  }

  function InsertCoffee(st: Store, id: string, f: CoffeeFields): (r: Result<Store, DbError>)
    ensures CoffeeColumnError(f).Some? ==> r == Failure(CoffeeColumnError(f).value)
    ensures r.Success? <==> CoffeeFits(f) && id !in CoffeeIds(st) && f.shopId in ShopIds(st)
    ensures r.Success? ==> r.value == st.(coffees := st.coffees + [NewCoffee(id, f)])
  {
    if CoffeeColumnError(f).Some? then Failure(CoffeeColumnError(f).value)
    else if id in CoffeeIds(st) then Failure(UniqueViolation("coffees_pkey"))
    else if f.shopId !in ShopIds(st) then Failure(ForeignKeyViolation("shop_id"))
    else Success(st.(coffees := st.coffees + [NewCoffee(id, f)]))
  }

  datatype PastryFields = PastryFields(
    shopId: string,
    name: string,
    notes: Option<string>,
    flavorProfile: Option<string>,
    image: Option<string>,
    price: Option<int>,
    active: Option<bool>)

  function NewPastry(id: string, f: PastryFields): (p: Pastry)
    ensures p.id == id && p.shopId == f.shopId && p.name == f.name && p.price == f.price
    ensures p.active == (f.active != Some(false))
  {
    Pastry(id, f.shopId, f.name, f.notes, f.flavorProfile, f.image, f.price, f.active.GetOr(true))
  }

  /** The column types of `pastries`: `name` is `varchar(255)`, `image` `varchar(500)`
      and `price` `decimal(10, 2)`. */
  predicate PastryFits(f: PastryFields) {
    Fits(f.name, 255) && FitsOpt(f.image, 500) && PriceFits(f.price)
  }

  function PastryColumnError(f: PastryFields): (e: Option<DbError>)
    ensures e.None? <==> PastryFits(f)
    ensures e.Some? ==> e.value.ValueTooLong? || e.value == NumericOverflow("price")
  {
    if !Fits(f.name, 255) then Some(ValueTooLong("name", 255))
    else if !FitsOpt(f.image, 500) then Some(ValueTooLong("image", 500))
    else if !PriceFits(f.price) then Some(NumericOverflow("price"))
    else None
  }

  function InsertPastry(st: Store, id: string, f: PastryFields): (r: Result<Store, DbError>)
    ensures PastryColumnError(f).Some? ==> r == Failure(PastryColumnError(f).value)
    ensures r.Success? <==> PastryFits(f) && id !in PastryIds(st) && f.shopId in ShopIds(st)
    ensures r.Success? ==> r.value == st.(pastries := st.pastries + [NewPastry(id, f)])
  {
    if PastryColumnError(f).Some? then Failure(PastryColumnError(f).value)
    else if id in PastryIds(st) then Failure(UniqueViolation("pastries_pkey"))
    else if f.shopId !in ShopIds(st) then Failure(ForeignKeyViolation("shop_id"))
    else Success(st.(pastries := st.pastries + [NewPastry(id, f)]))
  }

  /** The columns a `pairing_rules` insert or update names; `matchScore` is `None` for SQL null. */
  datatype RuleFields = RuleFields(
    shopId: string,
    coffeeId: string,
    pastryId: string,
    matchScore: Option<int>,
    reasoning: Option<string>,
    active: Option<bool>)

  /** Why a score cannot be stored: it is null, or it does not fit an `integer`. There is no
      1 to 100 check. */
  function ScoreError(score: Option<int>): (e: Option<DbError>)
    ensures e.None? <==> score.Some? && INT4_MIN <= score.value <= INT4_MAX
  {
    if score.None? then Some(NotNullViolation("match_score"))
    else if score.value < INT4_MIN || score.value > INT4_MAX then Some(OutOfRange("match_score"))
    else None
  }

  function TripleTaken(st: Store, f: RuleFields, except: Option<string>): bool {
    exists x :: x in st.rules && RuleTriple(x) == (f.shopId, f.coffeeId, f.pastryId) && Some(x.id) != except
  }

  function NewRule(id: string, f: RuleFields): (r: PairingRule)
    requires f.matchScore.Some?
    ensures r.id == id && r.shopId == f.shopId && r.coffeeId == f.coffeeId && r.pastryId == f.pastryId
    ensures r.matchScore == f.matchScore.value
    ensures r.active == (f.active != Some(false))
  {
    PairingRule(id, f.shopId, f.coffeeId, f.pastryId, f.matchScore.value, f.reasoning, f.active.GetOr(true))
  }

  /** The first foreign key of a rule that names no row. */
  function RuleRefError(st: Store, f: RuleFields): (e: Option<DbError>)
    ensures e.None? <==> f.shopId in ShopIds(st) && f.coffeeId in CoffeeIds(st) && f.pastryId in PastryIds(st)
  {
    if f.shopId !in ShopIds(st) then Some(ForeignKeyViolation("shop_id"))
    else if f.coffeeId !in CoffeeIds(st) then Some(ForeignKeyViolation("coffee_id"))
    else if f.pastryId !in PastryIds(st) then Some(ForeignKeyViolation("pastry_id"))
    else None
  }

  function InsertPairingRule(st: Store, id: string, f: RuleFields): (r: Result<Store, DbError>)
    ensures f.matchScore.None? ==> r == Failure(NotNullViolation("match_score"))
    ensures r.Success? <==>
      && ScoreError(f.matchScore).None?
      && id !in RuleIds(st)
      && !TripleTaken(st, f, None)
      && RuleRefError(st, f).None?
    ensures r.Success? ==> f.matchScore.Some? && r.value == st.(rules := st.rules + [NewRule(id, f)])
  {
    if ScoreError(f.matchScore).Some? then Failure(ScoreError(f.matchScore).value)
    else if id in RuleIds(st) then Failure(UniqueViolation("pairing_rules_pkey"))
    else if TripleTaken(st, f, None) then Failure(UniqueViolation("pairing_rules_shop_id_coffee_id_pastry_id_unique"))
    else if RuleRefError(st, f).Some? then Failure(RuleRefError(st, f).value)
    else Success(st.(rules := st.rules + [NewRule(id, f)]))
  }

  /** The first reference of an event row that names no row. */
  function EventRefError(st: Store, row: EventRow): (e: Option<DbError>)
    ensures e.None? <==> EventRefsOk(row, st)
  {
    if row.shopId !in ShopIds(st) then Some(ForeignKeyViolation("shop_id"))
    else if !RefOk(row.coffeeId, CoffeeIds(st)) then Some(ForeignKeyViolation("coffee_id"))
    else if !RefOk(row.pastryId, PastryIds(st)) then Some(ForeignKeyViolation("pastry_id"))
    else if !RefOk(row.pairingRuleId, RuleIds(st)) then Some(ForeignKeyViolation("pairing_rule_id"))
    else None
  }

  /** `session_id` is `varchar(255)` and `event_type` `varchar(50)`. */
  function EventTextError(row: EventRow): (e: Option<DbError>)
    ensures e.None? <==> Fits(row.sessionId, 255) && Fits(row.eventType, 50)
  {
    if !Fits(row.sessionId, 255) then Some(ValueTooLong("session_id", 255))
    else if !Fits(row.eventType, 50) then Some(ValueTooLong("event_type", 50))
    else None
  }

  /** `insert into analytics_events`: the log only grows, by exactly this row. */
  function InsertEvent(st: Store, id: string, row: EventRow): (r: Result<Store, DbError>)
    ensures EventTextError(row).Some? ==> r == Failure(EventTextError(row).value)
    ensures r.Success? <==>
      Fits(row.sessionId, 255) && Fits(row.eventType, 50) && id !in EventIds(st) && EventRefsOk(row, st)
    ensures r.Success? ==> r.value == st.(events := st.events + [Event(id, row)])
  {
    if EventTextError(row).Some? then Failure(EventTextError(row).value)
    else if id in EventIds(st) then Failure(UniqueViolation("analytics_events_pkey"))
    else if EventRefError(st, row).Some? then Failure(EventRefError(st, row).value)
    else Success(st.(events := st.events + [Event(id, row)]))
  }

  // ---------------------------------------------------------------- updates

  /** `update shops set name, slug, settings where id = ...`; the QR code is not touched.
      An update that matches no row changes nothing and fails on nothing. */
  function UpdateShop(st: Store, id: string, name: string, slug: string, settings: map<string, string>)
    : (r: Result<Store, DbError>)
    ensures r.Success? <==>
      (id !in ShopIds(st) || (Fits(name, 255) && Fits(slug, 255) && forall x :: x in st.shops && x.id != id ==> x.slug != slug))
    ensures r.Success? ==> |r.value.shops| == |st.shops| && r.value.(shops := st.shops) == st
    ensures r.Success? ==> forall i :: 0 <= i < |st.shops| ==>
      var x := st.shops[i];
      r.value.shops[i] == if x.id == id then Shop(x.id, name, slug, x.qrCode, settings) else x
  {
    if id in ShopIds(st) && ShopTextError(name, slug, None).Some? then Failure(ShopTextError(name, slug, None).value)
    else if id in ShopIds(st) && exists x :: x in st.shops && x.id != id && x.slug == slug then
      Failure(UniqueViolation("shops_slug_unique"))
    else
      Success(st.(shops := UpdateWhere(st.shops, ShopId, id, (x: Shop) => x.(name := name, slug := slug, settings := settings))))
  }

  /** A row after an update that names `f`'s columns: a column left out keeps its value. */
  function ApplyCoffee(x: Coffee, f: CoffeeFields): Coffee {
    NewCoffee(x.id, f.(active := Some(f.active.GetOr(x.active))))
  }

  function ApplyPastry(x: Pastry, f: PastryFields): Pastry {
    NewPastry(x.id, f.(active := Some(f.active.GetOr(x.active))))
  }

  function ApplyRule(x: PairingRule, f: RuleFields): PairingRule
    requires f.matchScore.Some?
  {
    NewRule(x.id, f.(active := Some(f.active.GetOr(x.active))))
  }

  /** `update coffees set ... where id = ...`; a column left out keeps its value. */
  function UpdateCoffee(st: Store, id: string, f: CoffeeFields): (r: Result<Store, DbError>)
    ensures r.Success? <==> id !in CoffeeIds(st) || (CoffeeFits(f) && f.shopId in ShopIds(st))
    ensures r.Success? ==> |r.value.coffees| == |st.coffees| && r.value.(coffees := st.coffees) == st
    ensures r.Success? ==> forall i :: 0 <= i < |st.coffees| ==>
      var x := st.coffees[i];
      r.value.coffees[i] == if x.id == id then ApplyCoffee(x, f) else x
  {
    if id in CoffeeIds(st) && CoffeeColumnError(f).Some? then Failure(CoffeeColumnError(f).value)
    else if id in CoffeeIds(st) && f.shopId !in ShopIds(st) then Failure(ForeignKeyViolation("shop_id"))
    else Success(st.(coffees := UpdateWhere(st.coffees, CoffeeId, id,
      (x: Coffee) => ApplyCoffee(x, f))))
  }

  function UpdatePastry(st: Store, id: string, f: PastryFields): (r: Result<Store, DbError>)
    ensures r.Success? <==> id !in PastryIds(st) || (PastryFits(f) && f.shopId in ShopIds(st))
    ensures r.Success? ==> |r.value.pastries| == |st.pastries| && r.value.(pastries := st.pastries) == st
    ensures r.Success? ==> forall i :: 0 <= i < |st.pastries| ==>
      var x := st.pastries[i];
      r.value.pastries[i] == if x.id == id then ApplyPastry(x, f) else x
  {
    if id in PastryIds(st) && PastryColumnError(f).Some? then Failure(PastryColumnError(f).value)
    else if id in PastryIds(st) && f.shopId !in ShopIds(st) then Failure(ForeignKeyViolation("shop_id"))
    else Success(st.(pastries := UpdateWhere(st.pastries, PastryId, id,
      (x: Pastry) => ApplyPastry(x, f))))
  }

  function UpdatePairingRule(st: Store, id: string, f: RuleFields): (r: Result<Store, DbError>)
    ensures r.Success? <==>
      id !in RuleIds(st) ||
      (ScoreError(f.matchScore).None? && !TripleTaken(st, f, Some(id)) && RuleRefError(st, f).None?)
    ensures r.Success? ==> |r.value.rules| == |st.rules| && r.value.(rules := st.rules) == st
    ensures r.Success? && id in RuleIds(st) ==> f.matchScore.Some? && forall i :: 0 <= i < |st.rules| ==>
      var x := st.rules[i];
      r.value.rules[i] == if x.id == id then ApplyRule(x, f) else x
  {
    if id !in RuleIds(st) then Success(st)
    else if ScoreError(f.matchScore).Some? then Failure(ScoreError(f.matchScore).value)
    else if TripleTaken(st, f, Some(id)) then Failure(UniqueViolation("pairing_rules_shop_id_coffee_id_pastry_id_unique"))
    else if RuleRefError(st, f).Some? then Failure(RuleRefError(st, f).value)
    else Success(st.(rules := UpdateWhere(st.rules, RuleId, id,
      (x: PairingRule) => ApplyRule(x, f))))
  }
}

=== FILE: schema_props.dfy ===
/** What the table definitions guarantee: every statement that succeeds keeps the
    constraints, and each delete removes exactly what its cascades reach. */
module SchemaProps {
  import opened Wrappers
  import opened Seqs
  import opened Types
  import opened Schema

  // ------------------------------------------------------------- cascades

  /** The rows a cascade keeps are exactly those it does not reach. */
  lemma CascadeKeeps(st: Store, s: set<string>, c0: set<string>, p0: set<string>, r0: set<string>)
    ensures var r := Cascade(st, s, c0, p0, r0);
      && (forall c :: c in r.coffees <==> c in st.coffees && c.id !in GoneCoffees(st, s, c0))
      && (forall p :: p in r.pastries <==> p in st.pastries && p.id !in GonePastries(st, s, p0))
      && (forall x :: x in r.rules <==>
            x in st.rules && x.id !in GoneRules(st, s, GoneCoffees(st, s, c0), GonePastries(st, s, p0), r0))
  {
  }

  /** The keys of the rows a cascade does not reach are still there. */
  lemma CascadeKeepsKeys(st: Store, s: set<string>, c0: set<string>, p0: set<string>, r0: set<string>)
    ensures var r := Cascade(st, s, c0, p0, r0);
      && (forall k :: k in ShopIds(st) && k !in s ==> k in ShopIds(r))
      && (forall k :: k in CoffeeIds(st) && k !in GoneCoffees(st, s, c0) ==> k in CoffeeIds(r))
      && (forall k :: k in PastryIds(st) && k !in GonePastries(st, s, p0) ==> k in PastryIds(r))
      && (forall k :: k in RuleIds(st) && k !in GoneRules(st, s, GoneCoffees(st, s, c0), GonePastries(st, s, p0), r0)
            ==> k in RuleIds(r))
  {
    var r := Cascade(st, s, c0, p0, r0);
    CascadeKeeps(st, s, c0, p0, r0);
    forall k | k in ShopIds(st) && k !in s
      ensures k in ShopIds(r)
    {
      var x :| x in st.shops && x.id == k;
      assert x in r.shops;
    }
    forall k | k in CoffeeIds(st) && k !in GoneCoffees(st, s, c0)
      ensures k in CoffeeIds(r)
    {
      var x :| x in st.coffees && x.id == k;
      assert x in r.coffees;
    }
    forall k | k in PastryIds(st) && k !in GonePastries(st, s, p0)
      ensures k in PastryIds(r)
    {
      var x :| x in st.pastries && x.id == k;
      assert x in r.pastries;
    }
    forall k | k in RuleIds(st) && k !in GoneRules(st, s, GoneCoffees(st, s, c0), GonePastries(st, s, p0), r0)
      ensures k in RuleIds(r)
    {
      var x :| x in st.rules && x.id == k;
      assert x in r.rules;
    }
  }

  /** Cascades keep keys unique. */
  lemma CascadeKeysUnique(st: Store, s: set<string>, c0: set<string>, p0: set<string>, r0: set<string>)
    requires KeysUnique(st)
    ensures KeysUnique(Cascade(st, s, c0, p0, r0))
  {
    var r := Cascade(st, s, c0, p0, r0);
    var gc := GoneCoffees(st, s, c0);
    var gp := GonePastries(st, s, p0);
    var gr := GoneRules(st, s, gc, gp, r0);
    var kept := Keep(st.events, KeyNotIn(EventShop, s));
    KeepUnique(st.shops, KeyNotIn(ShopId, s), ShopId);
    KeepUnique(st.shops, KeyNotIn(ShopId, s), ShopSlug);
    KeepUnique(st.shops, KeyNotIn(ShopId, s), ShopQrCode);
    KeepUnique(st.coffees, KeyNotIn(CoffeeId, gc), CoffeeId);
    KeepUnique(st.pastries, KeyNotIn(PastryId, gp), PastryId);
    KeepUnique(st.rules, KeyNotIn(RuleId, gr), RuleId);
    KeepUnique(st.rules, KeyNotIn(RuleId, gr), RuleTriple);
    KeepUnique(st.events, KeyNotIn(EventShop, s), EventId);
    UniqueTransfer(kept, r.events, EventId, EventId);
    KeepUnique(st.sessions, KeyNotIn(SessionShop, s), SessionId);
  }

  /** After a cascade, coffees, pastries, rules and sessions still name existing rows. */
  lemma CascadeCatalogRefs(st: Store, s: set<string>, c0: set<string>, p0: set<string>, r0: set<string>)
    requires RefsResolve(st)
    ensures var r := Cascade(st, s, c0, p0, r0);
      && (forall c :: c in r.coffees ==> c.shopId in ShopIds(r))
      && (forall p :: p in r.pastries ==> p.shopId in ShopIds(r))
      && (forall x :: x in r.rules ==>
            x.shopId in ShopIds(r) && x.coffeeId in CoffeeIds(r) && x.pastryId in PastryIds(r))
      && (forall x :: x in r.sessions ==> x.shopId in ShopIds(r))
  {
    CascadeKeepsKeys(st, s, c0, p0, r0);
  }

  /** After a cascade, every event row names existing rows. */
  lemma CascadeEventRefs(st: Store, s: set<string>, c0: set<string>, p0: set<string>, r0: set<string>)
    requires forall e :: e in st.events ==> EventRefsOk(e.row, st)
    ensures var r := Cascade(st, s, c0, p0, r0);
      forall e :: e in r.events ==> EventRefsOk(e.row, r)
  {
    var r := Cascade(st, s, c0, p0, r0);
    var gc := GoneCoffees(st, s, c0);
    var gp := GonePastries(st, s, p0);
    var gr := GoneRules(st, s, gc, gp, r0);
    var kept := Keep(st.events, KeyNotIn(EventShop, s));
    assert r.events == NullAll(kept, gc, gp, gr);
    CascadeKeepsKeys(st, s, c0, p0, r0);
    forall e | e in r.events
      ensures EventRefsOk(e.row, r)
    {
      var i :| 0 <= i < |r.events| && r.events[i] == e;
      assert kept[i] in kept;
    }
  }

  /** Cascades keep the constraints. */
  lemma CascadeValid(st: Store, s: set<string>, c0: set<string>, p0: set<string>, r0: set<string>)
    requires Valid(st)
    ensures Valid(Cascade(st, s, c0, p0, r0))
  {
    CascadeKeysUnique(st, s, c0, p0, r0);
    CascadeCatalogRefs(st, s, c0, p0, r0);
    CascadeEventRefs(st, s, c0, p0, r0);
  }

  /** A cascade that removes no shop leaves shops and sessions alone and keeps every event row. */
  lemma CascadeNoShop(st: Store, c0: set<string>, p0: set<string>, r0: set<string>)
    ensures GoneCoffees(st, {}, c0) == c0 && GonePastries(st, {}, p0) == p0
    ensures var r := Cascade(st, {}, c0, p0, r0);
      && r.shops == st.shops
      && r.sessions == st.sessions
      && r.events == NullAll(st.events, c0, p0, GoneRules(st, {}, c0, p0, r0))
  {
    KeepAll(st.shops, KeyNotIn(ShopId, {}));
    KeepAll(st.sessions, KeyNotIn(SessionShop, {}));
    KeepAll(st.events, KeyNotIn(EventShop, {}));
  }

  /** The events of one shop. */
  function EventOfShop(id: string): (p: Event -> bool)
    ensures forall e :: p(e) == (e.row.shopId == id)
  {
    (e: Event) => e.row.shopId == id
  }

  /** Two rows of a table with unique keys that share a key are the same row. */
  lemma UniqueKeyIsRow<T(!new), K>(s: seq<T>, key: T -> K, x: T, y: T)
    requires UniqueBy(s, key) && x in s && y in s && key(x) == key(y)
    ensures x == y
  {
    var i :| 0 <= i < |s| && s[i] == x;
    var j :| 0 <= j < |s| && s[j] == y;
    assert !(i < j) && !(j < i);
  }

  /** A filter and its complement split a sequence's length. */
  lemma {:induction false} KeepSplit<T(!new)>(s: seq<T>, p: T -> bool, q: T -> bool)
    requires forall x :: p(x) == !q(x)
    ensures |Keep(s, p)| + |Keep(s, q)| == |s|
  {
    if s != [] {
      KeepSplit(s[1..], p, q);
    }
  }

  /** Deleting a shop keeps the constraints. */
  lemma DeleteShopValid(st: Store, id: string)
    requires Valid(st)
    ensures Valid(DeleteShop(st, id))
  {
    CascadeValid(st, {id}, {}, {}, {});
  }

  /** After a shop is deleted no row names it: its coffees, pastries, pairing rules,
      events and sessions are gone with it. */
  lemma DeleteShopRemovesDependents(st: Store, id: string)
    ensures var r := DeleteShop(st, id);
      && (forall x :: x in r.shops <==> x in st.shops && x.id != id)
      && (forall c :: c in r.coffees ==> c in st.coffees && c.shopId != id)
      && (forall p :: p in r.pastries ==> p in st.pastries && p.shopId != id)
      && (forall x :: x in r.rules ==> x in st.rules && x.shopId != id)
      && (forall e :: e in r.events ==> e.row.shopId != id)
      && (forall x :: x in r.sessions <==> x in st.sessions && x.shopId != id)
  {
    var r := DeleteShop(st, id);
    var gc := GoneCoffees(st, {id}, {});
    var gp := GonePastries(st, {id}, {});
    var kept := Keep(st.events, KeyNotIn(EventShop, {id}));
    assert r.events == NullAll(kept, gc, gp, GoneRules(st, {id}, gc, gp, {}));
    forall e | e in r.events
      ensures e.row.shopId != id
    {
      var i :| 0 <= i < |r.events| && r.events[i] == e;
      assert kept[i] in kept;
    }
  }

  /** Deleting a shop keeps the coffees, pastries and events of every other shop. */
  lemma DeleteShopKeepsOthers(st: Store, id: string)
    requires UniqueBy(st.coffees, CoffeeId) && UniqueBy(st.pastries, PastryId)
    ensures var r := DeleteShop(st, id);
      && (forall c :: c in st.coffees && c.shopId != id ==> c in r.coffees)
      && (forall p :: p in st.pastries && p.shopId != id ==> p in r.pastries)
      && |r.events| == |st.events| - |Keep(st.events, EventOfShop(id))|
  {
    CascadeKeeps(st, {id}, {}, {}, {});
    var gc := GoneCoffees(st, {id}, {});
    forall c | c in st.coffees && c.shopId != id
      ensures c.id !in gc
    {
      if c.id in gc {
        var c' :| c' in st.coffees && c'.shopId == id && c'.id == c.id;
        UniqueKeyIsRow(st.coffees, CoffeeId, c, c');
      }
    }
    var gp := GonePastries(st, {id}, {});
    forall p | p in st.pastries && p.shopId != id
      ensures p.id !in gp
    {
      if p.id in gp {
        var p' :| p' in st.pastries && p'.shopId == id && p'.id == p.id;
        UniqueKeyIsRow(st.pastries, PastryId, p, p');
      }
    }
    KeepSplit(st.events, KeyNotIn(EventShop, {id}), EventOfShop(id));
  }

  /** The rules a coffee delete reaches are those that name the coffee. */
  lemma GoneRulesOfCoffee(st: Store, id: string)
    ensures GoneRules(st, {}, {id}, {}, {}) == set x | x in st.rules && x.coffeeId == id :: x.id
  {
  }

  lemma GoneRulesOfPastry(st: Store, id: string)
    ensures GoneRules(st, {}, {}, {id}, {}) == set x | x in st.rules && x.pastryId == id :: x.id
  {
  }

  lemma DeleteCoffeeValid(st: Store, id: string)
    requires Valid(st)
    ensures Valid(DeleteCoffee(st, id))
  {
    CascadeValid(st, {}, {id}, {}, {});
  }

  /** Deleting a coffee removes it and exactly the pairing rules that name it; shops,
      pastries and sessions do not change. */
  lemma DeleteCoffeeCascades(st: Store, id: string)
    requires UniqueBy(st.rules, RuleId)
    ensures var r := DeleteCoffee(st, id);
      && r.shops == st.shops && r.pastries == st.pastries && r.sessions == st.sessions
      && (forall c :: c in r.coffees <==> c in st.coffees && c.id != id)
      && (forall x :: x in r.rules <==> x in st.rules && x.coffeeId != id)
  {
    CascadeKeeps(st, {}, {id}, {}, {});
    CascadeNoShop(st, {id}, {}, {});
    GoneRulesOfCoffee(st, id);
    var gr := GoneRules(st, {}, {id}, {}, {});
    forall x | x in st.rules && x.coffeeId != id
      ensures x.id !in gr
    {
      if x.id in gr {
        var y :| y in st.rules && y.coffeeId == id && y.id == x.id;
        UniqueKeyIsRow(st.rules, RuleId, x, y);
      }
    }
    KeepAll(st.pastries, KeyNotIn(PastryId, {}));
  }

  /** Deleting a coffee keeps every event row, in place: the reference to the coffee, and
      the reference to a rule that named it, become null; nothing else in the row changes. */
  lemma DeleteCoffeeSetsNull(st: Store, id: string)
    ensures var r := DeleteCoffee(st, id);
      && |r.events| == |st.events|
      && (forall i :: 0 <= i < |st.events| ==>
            var e, o := r.events[i], st.events[i];
            && e.id == o.id
            && e.row == o.row.(coffeeId := e.row.coffeeId, pairingRuleId := e.row.pairingRuleId)
            && e.row.coffeeId == (if o.row.coffeeId == Some(id) then None else o.row.coffeeId)
            && (e.row.pairingRuleId.None? <==>
                  o.row.pairingRuleId.None? ||
                  exists x :: x in st.rules && x.id == o.row.pairingRuleId.value && x.coffeeId == id))
  {
    CascadeNoShop(st, {id}, {}, {});
    GoneRulesOfCoffee(st, id);
  }

  lemma DeletePastryValid(st: Store, id: string)
    requires Valid(st)
    ensures Valid(DeletePastry(st, id))
  {
    CascadeValid(st, {}, {}, {id}, {});
  }

  /** Deleting a pastry removes it and exactly the pairing rules that name it; shops,
      coffees and sessions do not change. */
  lemma DeletePastryCascades(st: Store, id: string)
    requires UniqueBy(st.rules, RuleId)
    ensures var r := DeletePastry(st, id);
      && r.shops == st.shops && r.coffees == st.coffees && r.sessions == st.sessions
      && (forall p :: p in r.pastries <==> p in st.pastries && p.id != id)
      && (forall x :: x in r.rules <==> x in st.rules && x.pastryId != id)
  {
    CascadeKeeps(st, {}, {}, {id}, {});
    CascadeNoShop(st, {}, {id}, {});
    GoneRulesOfPastry(st, id);
    var gr := GoneRules(st, {}, {}, {id}, {});
    forall x | x in st.rules && x.pastryId != id
      ensures x.id !in gr
    {
      if x.id in gr {
        var y :| y in st.rules && y.pastryId == id && y.id == x.id;
        UniqueKeyIsRow(st.rules, RuleId, x, y);
      }
    }
    KeepAll(st.coffees, KeyNotIn(CoffeeId, {}));
  }

  /** Deleting a pastry keeps every event row, in place, with the references to the pastry
      and to the rules that named it set to null. */
  lemma DeletePastrySetsNull(st: Store, id: string)
    ensures var r := DeletePastry(st, id);
      && |r.events| == |st.events|
      && (forall i :: 0 <= i < |st.events| ==>
            var e, o := r.events[i], st.events[i];
            && e.id == o.id
            && e.row == o.row.(pastryId := e.row.pastryId, pairingRuleId := e.row.pairingRuleId)
            && e.row.pastryId == (if o.row.pastryId == Some(id) then None else o.row.pastryId)
            && (e.row.pairingRuleId.None? <==>
                  o.row.pairingRuleId.None? ||
                  exists x :: x in st.rules && x.id == o.row.pairingRuleId.value && x.pastryId == id))
  {
    CascadeNoShop(st, {}, {id}, {});
    GoneRulesOfPastry(st, id);
  }

  lemma DeletePairingRuleValid(st: Store, id: string)
    requires Valid(st)
    ensures Valid(DeletePairingRule(st, id))
  {
    CascadeValid(st, {}, {}, {}, {id});
  }

  /** Deleting a pairing rule removes only it; events that named it keep their row, in
      place, with the rule reference set to null. */
  lemma DeletePairingRuleSetsNull(st: Store, id: string)
    ensures var r := DeletePairingRule(st, id);
      && r.shops == st.shops && r.coffees == st.coffees && r.pastries == st.pastries
      && r.sessions == st.sessions
      && (forall x :: x in r.rules <==> x in st.rules && x.id != id)
      && |r.events| == |st.events|
      && (forall i :: 0 <= i < |st.events| ==>
            var e, o := r.events[i], st.events[i];
            && e.id == o.id
            && e.row == o.row.(pairingRuleId := e.row.pairingRuleId)
            && e.row.pairingRuleId == (if o.row.pairingRuleId == Some(id) then None else o.row.pairingRuleId))
  {
    CascadeKeeps(st, {}, {}, {}, {id});
    CascadeNoShop(st, {}, {}, {id});
    assert GoneRules(st, {}, {}, {}, {id}) == {id};
    KeepAll(st.coffees, KeyNotIn(CoffeeId, {}));
    KeepAll(st.pastries, KeyNotIn(PastryId, {}));
  }

  // ------------------------------------------------------------- inserts

  lemma InsertShopValid(st: Store, id: string, ins: ShopInsert)
    requires Valid(st) && InsertShop(st, id, ins).Success?
    ensures Valid(InsertShop(st, id, ins).value)
  {
    var x := Shop(id, ins.name, ins.slug, ins.qrCode.value, ins.settings);
    UniqueAppend(st.shops, x, ShopId);
    UniqueAppend(st.shops, x, ShopSlug);
    UniqueAppend(st.shops, x, ShopQrCode);
  }

  lemma InsertCoffeeValid(st: Store, id: string, f: CoffeeFields)
    requires Valid(st) && InsertCoffee(st, id, f).Success?
    ensures Valid(InsertCoffee(st, id, f).value)
  {
    UniqueAppend(st.coffees, NewCoffee(id, f), CoffeeId);
  }

  lemma InsertPastryValid(st: Store, id: string, f: PastryFields)
    requires Valid(st) && InsertPastry(st, id, f).Success?
    ensures Valid(InsertPastry(st, id, f).value)
  {
    UniqueAppend(st.pastries, NewPastry(id, f), PastryId);
  }

  lemma InsertPairingRuleValid(st: Store, id: string, f: RuleFields)
    requires Valid(st) && InsertPairingRule(st, id, f).Success?
    ensures Valid(InsertPairingRule(st, id, f).value)
  {
    var x := NewRule(id, f);
    UniqueAppend(st.rules, x, RuleId);
    UniqueAppend(st.rules, x, RuleTriple);
  }

  /** The table takes any `integer` as a rule's score: 250 or 0 go in as well as 50. */
  lemma ScoreRangeNotEnforced(st: Store, id: string, f: RuleFields)
    requires Valid(st) && InsertPairingRule(st, id, f).Success?
    ensures forall score :: INT4_MIN <= score <= INT4_MAX ==>
      InsertPairingRule(st, id, f.(matchScore := Some(score))).Success?
  {
  }

  lemma InsertEventValid(st: Store, id: string, row: EventRow)
    requires Valid(st) && InsertEvent(st, id, row).Success?
    ensures Valid(InsertEvent(st, id, row).value)
  {
    UniqueAppend(st.events, Event(id, row), EventId);
  }

  // ------------------------------------------------------------- updates

  /** An update that gives the row with id `id` the key `k` keeps keys unique when no
      other row has `k`. */
  lemma UpdatedKeyUnique<T, K>(before: seq<T>, after: seq<T>, key: T -> K, idOf: T -> string, id: string, k: K)
    requires UniqueBy(before, key) && UniqueBy(before, idOf)
    requires |after| == |before|
    requires forall i :: 0 <= i < |before| ==> key(after[i]) == if idOf(before[i]) == id then k else key(before[i])
    requires forall x :: x in before && idOf(x) != id ==> key(x) != k
    ensures UniqueBy(after, key)
  {
    forall i, j | 0 <= i < j < |after|
      ensures key(after[i]) != key(after[j])
    {
      assert before[i] in before && before[j] in before;
    }
  }

  /** Replacing the shops by rows with the same ids and QR codes and unique slugs keeps
      the constraints. */
  lemma ReplaceShopsValid(st: Store, ns: seq<Shop>)
    requires Valid(st)
    requires |ns| == |st.shops|
    requires forall i :: 0 <= i < |ns| ==> ns[i].id == st.shops[i].id && ns[i].qrCode == st.shops[i].qrCode
    requires UniqueBy(ns, ShopSlug)
    ensures Valid(st.(shops := ns))
  {
    var r := st.(shops := ns);
    UniqueTransfer(st.shops, ns, ShopId, ShopId);
    UniqueTransfer(st.shops, ns, ShopQrCode, ShopQrCode);
    SameShopIds(st, r);
    ResolveWithShops(st, ns);
  }

  /** Shops replaced by shops with the same ids leave every reference resolved. */
  lemma ResolveWithShops(st: Store, ns: seq<Shop>)
    requires RefsResolve(st)
    requires ShopIds(st.(shops := ns)) == ShopIds(st)
    ensures RefsResolve(st.(shops := ns))
  {
    var r := st.(shops := ns);
    assert CoffeeIds(r) == CoffeeIds(st) && PastryIds(r) == PastryIds(st) && RuleIds(r) == RuleIds(st);
  }

  lemma UpdateShopSlugsUnique(st: Store, id: string, name: string, slug: string, settings: map<string, string>)
    requires UniqueBy(st.shops, ShopSlug) && UniqueBy(st.shops, ShopId)
    requires UpdateShop(st, id, name, slug, settings).Success?
    ensures UniqueBy(UpdateShop(st, id, name, slug, settings).value.shops, ShopSlug)
  {
    var ns := UpdateShop(st, id, name, slug, settings).value.shops;
    if id in ShopIds(st) {
      UpdatedKeyUnique(st.shops, ns, ShopSlug, ShopId, id, slug);
    } else {
      UniqueTransfer(st.shops, ns, ShopSlug, ShopSlug);
    }
  }

  lemma UpdateShopValid(st: Store, id: string, name: string, slug: string, settings: map<string, string>)
    requires Valid(st) && UpdateShop(st, id, name, slug, settings).Success?
    ensures Valid(UpdateShop(st, id, name, slug, settings).value)
  {
    var r := UpdateShop(st, id, name, slug, settings).value;
    UpdateShopSlugsUnique(st, id, name, slug, settings);
    ReplaceShopsValid(st, r.shops);
    assert r == st.(shops := r.shops);
  }

  lemma SameShopIds(st: Store, r: Store)
    requires |r.shops| == |st.shops|
    requires forall i :: 0 <= i < |st.shops| ==> r.shops[i].id == st.shops[i].id
    ensures ShopIds(r) == ShopIds(st)
  {
    forall k | k in ShopIds(st) ensures k in ShopIds(r) {
      var i :| 0 <= i < |st.shops| && st.shops[i].id == k;
      assert r.shops[i].id == k;
    }
    forall k | k in ShopIds(r) ensures k in ShopIds(st) {
      var i :| 0 <= i < |r.shops| && r.shops[i].id == k;
      assert st.shops[i].id == k;
    }
  }

  lemma SameCoffeeIds(st: Store, r: Store)
    requires |r.coffees| == |st.coffees|
    requires forall i :: 0 <= i < |st.coffees| ==> r.coffees[i].id == st.coffees[i].id
    ensures CoffeeIds(r) == CoffeeIds(st)
  {
    forall k | k in CoffeeIds(st) ensures k in CoffeeIds(r) {
      var i :| 0 <= i < |st.coffees| && st.coffees[i].id == k;
      assert r.coffees[i].id == k;
    }
    forall k | k in CoffeeIds(r) ensures k in CoffeeIds(st) {
      var i :| 0 <= i < |r.coffees| && r.coffees[i].id == k;
      assert st.coffees[i].id == k;
    }
  }

  lemma SamePastryIds(st: Store, r: Store)
    requires |r.pastries| == |st.pastries|
    requires forall i :: 0 <= i < |st.pastries| ==> r.pastries[i].id == st.pastries[i].id
    ensures PastryIds(r) == PastryIds(st)
  {
    forall k | k in PastryIds(st) ensures k in PastryIds(r) {
      var i :| 0 <= i < |st.pastries| && st.pastries[i].id == k;
      assert r.pastries[i].id == k;
    }
    forall k | k in PastryIds(r) ensures k in PastryIds(st) {
      var i :| 0 <= i < |r.pastries| && r.pastries[i].id == k;
      assert st.pastries[i].id == k;
    }
  }

  /** Replacing the coffees by rows with the same ids, each of an existing shop, keeps
      the constraints. */
  lemma ReplaceCoffeesValid(st: Store, ns: seq<Coffee>)
    requires Valid(st)
    requires |ns| == |st.coffees|
    requires forall i :: 0 <= i < |ns| ==> ns[i].id == st.coffees[i].id
    requires forall c :: c in ns ==> c.shopId in ShopIds(st)
    ensures Valid(st.(coffees := ns))
  {
    UniqueTransfer(st.coffees, ns, CoffeeId, CoffeeId);
    SameCoffeeIds(st, st.(coffees := ns));
  }

  /** Replacing the pastries by rows with the same ids, each of an existing shop, keeps
      the constraints. */
  lemma ReplacePastriesValid(st: Store, ns: seq<Pastry>)
    requires Valid(st)
    requires |ns| == |st.pastries|
    requires forall i :: 0 <= i < |ns| ==> ns[i].id == st.pastries[i].id
    requires forall p :: p in ns ==> p.shopId in ShopIds(st)
    ensures Valid(st.(pastries := ns))
  {
    UniqueTransfer(st.pastries, ns, PastryId, PastryId);
    SamePastryIds(st, st.(pastries := ns));
  }

  lemma UpdateCoffeeValid(st: Store, id: string, f: CoffeeFields)
    requires Valid(st) && UpdateCoffee(st, id, f).Success?
    ensures Valid(UpdateCoffee(st, id, f).value)
  {
    var r := UpdateCoffee(st, id, f).value;
    forall c | c in r.coffees
      ensures c.shopId in ShopIds(st)
    {
      var i :| 0 <= i < |r.coffees| && r.coffees[i] == c;
      assert st.coffees[i] in st.coffees;
    }
    ReplaceCoffeesValid(st, r.coffees);
    assert r == st.(coffees := r.coffees);
  }

  lemma UpdatePastryValid(st: Store, id: string, f: PastryFields)
    requires Valid(st) && UpdatePastry(st, id, f).Success?
    ensures Valid(UpdatePastry(st, id, f).value)
  {
    var r := UpdatePastry(st, id, f).value;
    forall p | p in r.pastries
      ensures p.shopId in ShopIds(st)
    {
      var i :| 0 <= i < |r.pastries| && r.pastries[i] == p;
      assert st.pastries[i] in st.pastries;
    }
    ReplacePastriesValid(st, r.pastries);
    assert r == st.(pastries := r.pastries);
  }

  lemma SameRuleIds(st: Store, r: Store)
    requires |r.rules| == |st.rules|
    requires forall i :: 0 <= i < |st.rules| ==> r.rules[i].id == st.rules[i].id
    ensures RuleIds(r) == RuleIds(st)
  {
    forall k | k in RuleIds(st) ensures k in RuleIds(r) {
      var i :| 0 <= i < |st.rules| && st.rules[i].id == k;
      assert r.rules[i].id == k;
    }
    forall k | k in RuleIds(r) ensures k in RuleIds(st) {
      var i :| 0 <= i < |r.rules| && r.rules[i].id == k;
      assert st.rules[i].id == k;
    }
  }

  /** Replacing the rules by rows with the same ids, unique triples and resolving
      references keeps the constraints. */
  lemma ReplaceRulesValid(st: Store, ns: seq<PairingRule>)
    requires Valid(st)
    requires |ns| == |st.rules|
    requires forall i :: 0 <= i < |ns| ==> ns[i].id == st.rules[i].id
    requires UniqueBy(ns, RuleTriple)
    requires forall x :: x in ns ==>
      x.shopId in ShopIds(st) && x.coffeeId in CoffeeIds(st) && x.pastryId in PastryIds(st)
    ensures Valid(st.(rules := ns))
  {
    UniqueTransfer(st.rules, ns, RuleId, RuleId);
    SameRuleIds(st, st.(rules := ns));
  }

  /** The rules after an update that names an existing rule: the same ids, the updated
      row's triple free, every row naming existing rows. */
  /** Rewriting the rules with id `id` to the form's fields keeps every id; when no
      other rule holds the form's triple and the form names existing rows, the triples
      stay distinct and every rule still names existing rows. */
  lemma RewrittenRules(before: seq<PairingRule>, after: seq<PairingRule>, id: string, f: RuleFields,
                       shops: set<string>, coffees: set<string>, pastries: set<string>)
    requires UniqueBy(before, RuleTriple) && UniqueBy(before, RuleId)
    requires f.matchScore.Some? && |after| == |before|
    requires forall i :: 0 <= i < |before| ==>
      after[i] == if before[i].id == id then ApplyRule(before[i], f) else before[i]
    requires forall x :: x in before && RuleId(x) != id ==> RuleTriple(x) != (f.shopId, f.coffeeId, f.pastryId)
    requires forall x :: x in before ==> x.shopId in shops && x.coffeeId in coffees && x.pastryId in pastries
    requires f.shopId in shops && f.coffeeId in coffees && f.pastryId in pastries
    ensures forall i :: 0 <= i < |after| ==> after[i].id == before[i].id
    ensures UniqueBy(after, RuleTriple)
    ensures forall x :: x in after ==> x.shopId in shops && x.coffeeId in coffees && x.pastryId in pastries
  {
    var k := (f.shopId, f.coffeeId, f.pastryId);
    assert forall i :: 0 <= i < |before| ==>
      RuleTriple(after[i]) == if RuleId(before[i]) == id then k else RuleTriple(before[i]);
    UpdatedKeyUnique(before, after, RuleTriple, RuleId, id, k);
    forall x | x in after
      ensures x.shopId in shops && x.coffeeId in coffees && x.pastryId in pastries
    {
      var i :| 0 <= i < |after| && after[i] == x;
      assert before[i] in before;
    }
  }

  lemma UpdatedRules(st: Store, id: string, f: RuleFields)
    requires Valid(st) && id in RuleIds(st) && UpdatePairingRule(st, id, f).Success?
    ensures var ns := UpdatePairingRule(st, id, f).value.rules;
      && |ns| == |st.rules|
      && (forall i :: 0 <= i < |ns| ==> ns[i].id == st.rules[i].id)
      && UniqueBy(ns, RuleTriple)
      && (forall x :: x in ns ==> x.shopId in ShopIds(st) && x.coffeeId in CoffeeIds(st) && x.pastryId in PastryIds(st))
  {
    var ns := UpdatePairingRule(st, id, f).value.rules;
    assert !TripleTaken(st, f, Some(id));
    RewrittenRules(st.rules, ns, id, f, ShopIds(st), CoffeeIds(st), PastryIds(st));
  }

  lemma UpdatePairingRuleValid(st: Store, id: string, f: RuleFields)
    requires Valid(st) && UpdatePairingRule(st, id, f).Success?
    ensures Valid(UpdatePairingRule(st, id, f).value)
  {
    var r := UpdatePairingRule(st, id, f).value;
    if id in RuleIds(st) {
      UpdatedRules(st, id, f);
      ReplaceRulesValid(st, r.rules);
      assert r == st.(rules := r.rules);
    }
  }

}

=== FILE: seqs.dfy ===
/** Sequence helpers shared by the tables and the lists: `Array.prototype.filter`,
    removal by id, and the set of keys a sequence holds. */
module Seqs {

  /** `s.filter(p)`: the elements of `s` that satisfy `p`, in their order. */
  function Keep<T(!new)>(s: seq<T>, p: T -> bool): (r: seq<T>)
    ensures |r| <= |s|
    ensures forall x :: x in r <==> x in s && p(x)
  {
    if s == [] then []
    else if p(s[0]) then [s[0]] + Keep(s[1..], p)
    else Keep(s[1..], p)
  }

  /** Filtering distributes over concatenation, so the kept elements keep their order. */
  lemma {:induction false} KeepAppend<T(!new)>(a: seq<T>, b: seq<T>, p: T -> bool)
    ensures Keep(a + b, p) == Keep(a, p) + Keep(b, p)
  {
    if a == [] {
      assert a + b == b;
    } else {
      assert (a + b)[0] == a[0];
      assert (a + b)[1..] == a[1..] + b;
      KeepAppend(a[1..], b, p);
    }
  }

  /** A filter every element passes changes nothing. */
  lemma {:induction false} KeepAll<T(!new)>(s: seq<T>, p: T -> bool)
    requires forall x :: x in s ==> p(x)
    ensures Keep(s, p) == s
  {
    if s != [] {
      KeepAll(s[1..], p);
    }
  }

  /** A filter no element passes gives the empty sequence. */
  lemma {:induction false} KeepNone<T(!new)>(s: seq<T>, p: T -> bool)
    requires forall x :: x in s ==> !p(x)
    ensures Keep(s, p) == []
  {
    if s != [] {
      KeepNone(s[1..], p);
    }
  }

  lemma AppendAssoc<T>(a: seq<T>, b: seq<T>, c: seq<T>)
    ensures a + (b + c) == (a + b) + c
  {
  }

  /** No two positions of `s` share a key. */
  predicate UniqueBy<T, K(==)>(s: seq<T>, key: T -> K) {
    forall i, j :: 0 <= i < j < |s| ==> key(s[i]) != key(s[j])
  }

  /** Dropping the last element keeps keys unique. */
  lemma UniqueByPrefix<T, K>(s: seq<T>, key: T -> K)
    requires s != [] && UniqueBy(s, key)
    ensures UniqueBy(s[..|s| - 1], key)
  {
    var front := s[..|s| - 1];
    forall i, j | 0 <= i < j < |front|
      ensures key(front[i]) != key(front[j])
    {
      assert front[i] == s[i] && front[j] == s[j];
    }
  }

  /** Filtering keeps keys unique. */
  lemma {:induction false} KeepUnique<T(!new), K>(s: seq<T>, p: T -> bool, key: T -> K)
    requires UniqueBy(s, key)
    ensures UniqueBy(Keep(s, p), key)
  {
    if s != [] {
      KeepUnique(s[1..], p, key);
      var rest := Keep(s[1..], p);
      if p(s[0]) {
        forall j | 0 <= j < |rest|
          ensures key(s[0]) != key(rest[j])
        {
          assert rest[j] in s[1..];
        }
        assert Keep(s, p) == [s[0]] + rest;
      }
    }
  }

  /** The keys of the elements of `s` (`new Set(s.map(key))`). */
  function KeysOf<T, K(==)>(s: seq<T>, key: T -> K): (r: set<K>)
    ensures |r| <= |s|
    ensures forall x :: x in s ==> key(x) in r
    ensures forall k :: k in r ==> exists x :: x in s && key(x) == k
  {
    if s == [] then {}
    else {key(s[0])} + KeysOf(s[1..], key)
  }

  /** Distinct keys fill the key set: one key per element. */
  lemma {:induction false} KeysOfUnique<T, K>(s: seq<T>, key: T -> K)
    requires UniqueBy(s, key)
    ensures |KeysOf(s, key)| == |s|
  {
    if s != [] {
      KeysOfUnique(s[1..], key);
      forall x | x in s[1..]
        ensures key(x) != key(s[0])
      {
        var j :| 0 <= j < |s[1..]| && s[1..][j] == x;
        assert s[j + 1] == x;
      }
      assert key(s[0]) !in KeysOf(s[1..], key);
    }
  }

  /** The test `x => key(x) !== id`. */
  function KeyIsNot<T(!new), K(==)>(key: T -> K, id: K): (p: T -> bool)
    ensures forall x :: p(x) == (key(x) != id)
  {
    x => key(x) != id
  }

  /** `s.filter(x => key(x) !== id)`: the list after the row with that id is deleted. */
  function Without<T(!new), K(==)>(s: seq<T>, key: T -> K, id: K): (r: seq<T>)
    ensures |r| <= |s|
    ensures forall x :: x in r <==> x in s && key(x) != id
  {
    Keep(s, KeyIsNot(key, id))
  }

  /** Removing an id nobody has changes nothing. */
  lemma WithoutAbsent<T(!new), K>(s: seq<T>, key: T -> K, id: K)
    requires forall x :: x in s ==> key(x) != id
    ensures Without(s, key, id) == s
  {
    KeepAll(s, KeyIsNot(key, id));
  }

  /** Removing an id no position holds changes nothing. */
  lemma WithoutNoPosition<T(!new), K>(t: seq<T>, key: T -> K, id: K)
    requires forall i :: 0 <= i < |t| ==> key(t[i]) != id
    ensures Keep(t, KeyIsNot(key, id)) == t
  {
    var p := KeyIsNot(key, id);
    forall x | x in t
      ensures p(x)
    {
      var i :| 0 <= i < |t| && t[i] == x;
    }
    KeepAll(t, p);
  }

  /** Filtering out one element between two kept stretches closes the gap. */
  lemma KeepDropsOne<T(!new)>(front: seq<T>, x: T, back: seq<T>, p: T -> bool)
    requires Keep(front, p) == front && Keep(back, p) == back && !p(x)
    ensures Keep(front + [x] + back, p) == front + back
  {
    assert Keep([x], p) == [];
    calc {
      Keep(front + [x] + back, p);
      { KeepAppend(front + [x], back, p); }
      Keep(front + [x], p) + Keep(back, p);
      { KeepAppend(front, [x], p); }
      front + back;
    }
  }

  /** In a list with unique ids, removing the id at position `k` drops exactly that
      element and keeps the others in their order. */
  lemma WithoutAt<T(!new), K>(s: seq<T>, key: T -> K, k: nat)
    requires UniqueBy(s, key)
    requires k < |s|
    ensures Without(s, key, key(s[k])) == s[..k] + s[k + 1..]
    ensures |Without(s, key, key(s[k]))| == |s| - 1
  {
    var id := key(s[k]);
    var p := KeyIsNot(key, id);
    var front, back := s[..k], s[k + 1..];
    assert s == front + [s[k]] + back;
    forall i | 0 <= i < |front|
      ensures key(front[i]) != id
    {
      assert front[i] == s[i];
    }
    forall i | 0 <= i < |back|
      ensures key(back[i]) != id
    {
      assert back[i] == s[k + 1 + i];
    }
    WithoutNoPosition(front, key, id);
    WithoutNoPosition(back, key, id);
    KeepDropsOne(front, s[k], back, p);
  }

  /** The test `x => !keys.has(key(x))`. */
  function KeyNotIn<T(!new), K(==)>(key: T -> K, keys: set<K>): (p: T -> bool)
    ensures forall x :: p(x) == (key(x) !in keys)
  {
    x => key(x) !in keys
  }

  /** Appending an element whose key is new keeps keys unique. */
  lemma UniqueAppend<T, K>(s: seq<T>, x: T, key: T -> K)
    requires UniqueBy(s, key)
    requires forall y :: y in s ==> key(y) != key(x)
    ensures UniqueBy(s + [x], key)
  {
    forall i | 0 <= i < |s|
      ensures key(s[i]) != key(x)
    {
      assert s[i] in s;
    }
  }

  /** Keys that agree position by position are unique together. */
  lemma UniqueTransfer<T, U, K>(s: seq<T>, t: seq<U>, ks: T -> K, kt: U -> K)
    requires |s| == |t|
    requires forall i :: 0 <= i < |s| ==> ks(s[i]) == kt(t[i])
    requires UniqueBy(s, ks)
    ensures UniqueBy(t, kt)
  {
  }

  /** `s.map(x => key(x) === id ? f(x) : x)`: an `update ... where id = ...`. */
  function UpdateWhere<T, K(==)>(s: seq<T>, key: T -> K, id: K, f: T -> T): (r: seq<T>)
    ensures |r| == |s|
    ensures forall i :: 0 <= i < |s| ==> r[i] == if key(s[i]) == id then f(s[i]) else s[i]
  {
    if s == [] then []
    else [if key(s[0]) == id then f(s[0]) else s[0]] + UpdateWhere(s[1..], key, id, f)
  }

  /** The test `x => key(x) === k`. */
  function KeyIs<T(!new), K(==)>(key: T -> K, k: K): (p: T -> bool)
    ensures forall x :: p(x) == (key(x) == k)
  {
    x => key(x) == k
  }

  /** In a sequence with unique keys, the rows with key `k` are the one row that has it. */
  lemma {:induction false} KeepKeyUnique<T(!new), K>(s: seq<T>, key: T -> K, x: T)
    requires UniqueBy(s, key) && x in s
    ensures Keep(s, KeyIs(key, key(x))) == [x]
  {
    var p := KeyIs(key, key(x));
    if s[0] == x {
      forall y | y in s[1..]
        ensures !p(y)
      {
        var j :| 0 <= j < |s[1..]| && s[1..][j] == y;
        assert s[j + 1] == y;
      }
      KeepNone(s[1..], p);
    } else {
      var j :| 0 <= j < |s| && s[j] == x;
      assert key(s[0]) != key(s[j]);
      KeepKeyUnique(s[1..], key, x);
    }
  }
}

=== FILE: shop.dfy ===
/** Looking a café up by its slug or by the token in its QR code. Each lookup asks for
    exactly one row: when the query fails, or when no row or more than one row
    matches, the answer is null. */
module ShopLookup {
  import opened Wrappers
  import opened Seqs
  import opened Types
  import opened Schema

  /** The one row of `rows`, if there is exactly one (`.single()`). */
  function Single(rows: seq<Shop>): (r: Option<Shop>)
    ensures r.Some? <==> |rows| == 1
    ensures r.Some? ==> r.value == rows[0]
  {
    if |rows| == 1 then Some(rows[0]) else None
  }

  /** `getShopBySlug`; `failed` is a query that reports an error. */
  function GetShopBySlug(st: Store, slug: string, failed: bool): (r: Option<Shop>)
    ensures r.Some? ==> r.value in st.shops && r.value.slug == slug
    ensures failed ==> r.None?
    ensures !failed && (forall x :: x in st.shops ==> x.slug != slug) ==> r.None?
  {
    if failed then None else Single(Keep(st.shops, KeyIs(ShopSlug, slug)))
  }

  /** `getShopByQRCode`; `failed` is a query that reports an error. */
  function GetShopByQRCode(st: Store, qrCode: string, failed: bool): (r: Option<Shop>)
    ensures r.Some? ==> r.value in st.shops && r.value.qrCode == qrCode
    ensures failed ==> r.None?
    ensures !failed && (forall x :: x in st.shops ==> x.qrCode != qrCode) ==> r.None?
  {
    if failed then None else Single(Keep(st.shops, KeyIs(ShopQrCode, qrCode)))
  }

  /** Slugs are unique, so a lookup that does not fail finds the shop with that slug
      whenever there is one: the answer is a function of the table. */
  lemma GetShopBySlugFinds(st: Store, x: Shop)
    requires Valid(st) && x in st.shops
    ensures GetShopBySlug(st, x.slug, false) == Some(x)
  {
    KeepKeyUnique(st.shops, ShopSlug, x);
  }

  /** QR codes are unique, so a lookup that does not fail finds the shop with that code
      whenever there is one. */
  lemma GetShopByQRCodeFinds(st: Store, x: Shop)
    requires Valid(st) && x in st.shops
    ensures GetShopByQRCode(st, x.qrCode, false) == Some(x)
  {
    KeepKeyUnique(st.shops, ShopQrCode, x);
  }
}

=== FILE: shop_form.dfy ===
/** The admin form that creates or edits a shop: the slug sanitiser of its slug input,
    the settings it saves (where a description already stored wins over the form's), the
    QR token a new shop gets, and the save itself. */
module ShopFormComponent {
  import opened Wrappers
  import opened JsString
  import opened Seqs
  import opened Types
  import opened Schema
  import opened Storage

  // ---------------------------------------------------------------- slug sanitiser

  predicate IsSlugChar(c: char) {
    ('a' <= c <= 'z') || ('0' <= c <= '9') || c == '-'
  }

  /** Text made only of the characters a slug may hold. */
  predicate IsSlug(s: string) {
    forall i :: 0 <= i < |s| ==> IsSlugChar(s[i])
  }

  /** `replace(/\s+/g, '-')`: every maximal run of white space becomes one dash. */
  function DashRuns(s: string): (r: string)
    ensures forall i :: 0 <= i < |r| ==> !IsSpace(r[i])
    decreases |s|
  {
    if s == [] then []
    else if IsSpace(s[0]) then "-" + DashRuns(TrimStart(s[1..]))
    else [s[0]] + DashRuns(s[1..])
  }

  /** Text without white space has no run to replace. */
  lemma {:induction false} DashRunsNoSpace(s: string)
    requires forall i :: 0 <= i < |s| ==> !IsSpace(s[i])
    ensures DashRuns(s) == s
  {
    if s != [] {
      DashRunsNoSpace(s[1..]);
    }
  }

  /** The slug input's `onChange`: lower-cased, white-space runs turned into dashes, then
      every character outside `a-z`, `0-9` and `-` removed. */
  function SanitizeSlug(text: string): (slug: string)
    ensures IsSlug(slug)
    ensures |slug| <= |DashRuns(LowerAscii(text))|
  {
    var r := Keep(DashRuns(LowerAscii(text)), IsSlugChar);
    assert forall i :: 0 <= i < |r| ==> r[i] in r;
    r
  }

  /** Text that is already a slug comes out unchanged. */
  lemma SanitizeSlugKeepsSlug(s: string)
    requires IsSlug(s)
    ensures SanitizeSlug(s) == s
  {
    var lower := LowerAscii(s);
    assert lower == s;
    DashRunsNoSpace(s);
    forall c | c in s
      ensures IsSlugChar(c)
    {
      var i :| 0 <= i < |s| && s[i] == c;
    }
    KeepAll(s, IsSlugChar);
  }

  /** Sanitising twice is sanitising once, so retyping the field changes nothing. */
  lemma SanitizeSlugIdempotent(text: string)
    ensures SanitizeSlug(SanitizeSlug(text)) == SanitizeSlug(text)
  {
    SanitizeSlugKeepsSlug(SanitizeSlug(text));
  }

  // ---------------------------------------------------------------- settings

  const DESCRIPTION_KEY: string := "description"

  /** `shop?.settings?.description || ''`: what the description input starts with. */
  function InitialDescription(settings: map<string, string>): (d: string)
    ensures DESCRIPTION_KEY in settings ==> d == settings[DESCRIPTION_KEY]
    ensures DESCRIPTION_KEY !in settings ==> d == ""
  {
    if DESCRIPTION_KEY in settings then settings[DESCRIPTION_KEY] else ""
  }

  /** `{ description, ...existing }`: the stored settings are spread after the form's
      description, so every stored key keeps its value, the description included. */
  function MergeSettings(description: string, existing: map<string, string>): (r: map<string, string>)
    ensures r.Keys == existing.Keys + {DESCRIPTION_KEY}
    ensures forall k :: k in existing ==> r[k] == existing[k]
    ensures DESCRIPTION_KEY !in existing ==> r[DESCRIPTION_KEY] == description
  {
    map[DESCRIPTION_KEY := description] + existing
  }

  /** Once a shop has a description, what the form's description input holds makes no
      difference to what is saved. */
  lemma StoredDescriptionWins(d1: string, d2: string, existing: map<string, string>)
    requires DESCRIPTION_KEY in existing
    ensures MergeSettings(d1, existing) == MergeSettings(d2, existing) == existing
  {
  }

  /** Saving a shop's settings untouched keeps them, except that a shop without a
      description gains an empty one. */
  lemma UntouchedSettings(settings: map<string, string>)
    ensures MergeSettings(InitialDescription(settings), settings) ==
      if DESCRIPTION_KEY in settings then settings else settings[DESCRIPTION_KEY := ""]
  {
  }

  // ---------------------------------------------------------------- QR token

  const QR_PREFIX: string := "shop-"

  /** `shop-${slug}-${Date.now()}`: the QR code of a new shop. */
  function QrToken(slug: string, now: nat): (token: string)
    ensures StartsWith(token, QR_PREFIX)
  {
    QR_PREFIX + slug + "-" + NatToString(now)
  }

  /** Where `c` last occurs in `s`. */
  function LastIndexOf(s: string, c: char): (r: Option<nat>)
    ensures r.None? ==> c !in s
    ensures r.Some? ==> r.value < |s| && s[r.value] == c && forall j :: r.value < j < |s| ==> s[j] != c
  {
    if s == [] then None
    else if s[|s| - 1] == c then Some(|s| - 1)
    else LastIndexOf(s[..|s| - 1], c)
  }

  /** The last `c` of `a + [c] + d` is the one after `a` when `d` holds none. */
  lemma {:induction false} LastIndexOfAt(a: string, c: char, d: string)
    requires c !in d
    ensures LastIndexOf(a + [c] + d, c) == Some(|a|)
  {
    var s := a + [c] + d;
    if d == [] {
      assert s[|s| - 1] == c;
    } else {
      assert s[|s| - 1] == d[|d| - 1];
      assert s[..|s| - 1] == a + [c] + d[..|d| - 1];
      assert d[|d| - 1] in d;
      LastIndexOfAt(a, c, d[..|d| - 1]);
    }
  }

  /** A run of digits holds no dash. */
  lemma DigitsHoldNoDash(d: string)
    requires forall i :: 0 <= i < |d| ==> IsDecimalDigit(d[i])
    ensures '-' !in d
  {
    forall i | 0 <= i < |d|
      ensures d[i] != '-'
    {
      assert IsDecimalDigit(d[i]);
    }
  }

  /** A token read back: the slug between the prefix and the last dash, and the
      timestamp after it. */
  function QrParts(token: string): Option<(string, nat)> {
    if !StartsWith(token, QR_PREFIX) then None
    else
      match LastIndexOf(token, '-')
      case None => None
      case Some(k) =>
        if k < |QR_PREFIX| then None
        else
          match ParseUnsigned(token[k + 1..])
          case None => None
          case Some(now) => Some((token[|QR_PREFIX|..k], now))
  }

  /** The slug and the time a token was made from can be read back from it, whatever
      dashes the slug holds. */
  lemma QrTokenReadsBack(slug: string, now: nat)
    ensures QrParts(QrToken(slug, now)) == Some((slug, now))
  {
    var token := QrToken(slug, now);
    var digits := NatToString(now);
    var k := |QR_PREFIX| + |slug|;
    assert token == (QR_PREFIX + slug) + "-" + digits;
    DigitsHoldNoDash(digits);
    LastIndexOfAt(QR_PREFIX + slug, '-', digits);
    assert token[k + 1..] == digits;
    assert token[|QR_PREFIX|..k] == slug;
    ParseUnsignedNatToString(now);
  }

  /** Two shops get the same QR token only from the same slug at the same millisecond. */
  lemma QrTokenInjective(slug1: string, now1: nat, slug2: string, now2: nat)
    requires QrToken(slug1, now1) == QrToken(slug2, now2)
    ensures slug1 == slug2 && now1 == now2
  {
    QrTokenReadsBack(slug1, now1);
    QrTokenReadsBack(slug2, now2);
  }

  // ---------------------------------------------------------------- the form

  datatype ShopFormData = ShopFormData(name: string, slug: string, description: string)

  function InitialShopForm(shop: Option<Shop>): (f: ShopFormData)
    ensures shop.None? ==> f == ShopFormData("", "", "")
    ensures shop.Some? ==> f.name == shop.value.name && f.slug == shop.value.slug
    ensures shop.Some? ==> f.description == InitialDescription(shop.value.settings)
  {
    match shop
    case None => ShopFormData("", "", "")
    case Some(s) => ShopFormData(s.name, s.slug, InitialDescription(s.settings))
  }

  const ALERT_PREFIX: string := "Error saving shop: "

  class ShopForm {
    /** The shop being edited; none for a new one. */
    const shop: Option<Shop>
    var form: ShopFormData
    var isSubmitting: bool
    /** The last `alert` shown. */
    var alert: Option<string>
    /** Whether `onSuccess` has been called. */
    var saved: bool

    /** The slug input is disabled while editing, so it keeps the shop's slug; for a new
        shop it only ever holds sanitised text. */
    predicate Valid()
      reads this
    {
      && (shop.Some? ==> form.slug == shop.value.slug)
      && (shop.None? ==> IsSlug(form.slug))
    }

    constructor(shop: Option<Shop>)
      ensures this.shop == shop && form == InitialShopForm(shop)
      ensures !isSubmitting && alert.None? && !saved
      ensures Valid()
    {
      this.shop := shop;
      form := InitialShopForm(shop);
      isSubmitting := false;
      alert := None;
      saved := false;
    }

    method SetName(text: string)
      modifies this
      requires Valid()
      ensures Valid() && form == old(form).(name := text)
      ensures isSubmitting == old(isSubmitting) && alert == old(alert) && saved == old(saved)
    {
      form := form.(name := text);
    }

    /** Typing in the slug input, which is only enabled for a new shop. */
    method SetSlug(text: string)
      modifies this
      requires Valid() && shop.None?
      ensures Valid() && form == old(form).(slug := SanitizeSlug(text))
      ensures isSubmitting == old(isSubmitting) && alert == old(alert) && saved == old(saved)
    {
      form := form.(slug := SanitizeSlug(text));
    }

    method SetDescription(text: string)
      modifies this
      requires Valid()
      ensures Valid() && form == old(form).(description := text)
      ensures isSubmitting == old(isSubmitting) && alert == old(alert) && saved == old(saved)
    {
      form := form.(description := text);
    }

    /** The statement a submit runs: an update of the shop being edited (its QR code is
        not named), or an insert under `newId` with a QR token made at time `now`. */
    function Statement(st: Store, newId: string, now: nat): Result<Store, DbError>
      reads this`form
    {
      if shop.Some? then UpdateShop(st, shop.value.id, form.name, form.slug, MergeSettings(form.description, shop.value.settings))
      else InsertShop(st, newId, ShopInsert(form.name, form.slug, Some(QrToken(form.slug, now)), MergeSettings(form.description, map[])))
    }

    /** `handleSubmit`: runs the statement; an error is alerted with its message and
        `onSuccess` is not called; otherwise `onSuccess` is called. An edit saves the
        shop's own slug. */
    method HandleSubmit(db: Db, newId: string, now: nat, fault: Option<string>)
      modifies this, db
      requires Valid()
      ensures Valid() && form == old(form) && !isSubmitting
      ensures shop.Some? ==>
        Statement(old(db.store), newId, now) == UpdateShop(old(db.store), shop.value.id, form.name, shop.value.slug, MergeSettings(form.description, shop.value.settings))
      ensures shop.None? ==>
        Statement(old(db.store), newId, now) == InsertShop(old(db.store), newId, ShopInsert(form.name, form.slug, Some(QrToken(form.slug, now)), MergeSettings(form.description, map[])))
      ensures fault.Some? ==>
        db.store == old(db.store) && alert == Some(ALERT_PREFIX + fault.value) && saved == old(saved)
      ensures fault.None? && Statement(old(db.store), newId, now).Failure? ==>
        && db.store == old(db.store)
        && alert == Some(ALERT_PREFIX + ErrorMessage(Statement(old(db.store), newId, now).error))
        && saved == old(saved)
      ensures fault.None? && Statement(old(db.store), newId, now).Success? ==>
        db.store == Statement(old(db.store), newId, now).value && alert == old(alert) && saved
    {
      isSubmitting := true;
      var err := db.Run(Statement(db.store, newId, now), fault);
      isSubmitting := false;
      if err.Some? {
        alert := Some(ALERT_PREFIX + err.value);
        return;
      }
      saved := true;
    }

    /** The browser fires `onSubmit` only when the `required` inputs are filled in: the
        name, and the slug of a new shop (the slug input is disabled while editing, and a
        disabled input is not checked). */
    predicate Submittable()
      reads this`form
    {
      form.name != "" && (shop.Some? || form.slug != "")
    }

    /** A submit: a form the browser holds back changes nothing; otherwise it runs
        `handleSubmit`. */
    method Submit(db: Db, newId: string, now: nat, fault: Option<string>)
      modifies this, db
      requires Valid()
      ensures Valid() && form == old(form)
      ensures !old(Submittable()) ==>
        db.store == old(db.store) && isSubmitting == old(isSubmitting) && alert == old(alert) && saved == old(saved)
      ensures old(Submittable()) ==> !isSubmitting
      ensures old(Submittable()) && fault.Some? ==>
        db.store == old(db.store) && alert == Some(ALERT_PREFIX + fault.value) && saved == old(saved)
      ensures old(Submittable()) && fault.None? && old(Statement(db.store, newId, now)).Failure? ==>
        && db.store == old(db.store)
        && alert == Some(ALERT_PREFIX + ErrorMessage(old(Statement(db.store, newId, now)).error))
        && saved == old(saved)
      ensures old(Submittable()) && fault.None? && old(Statement(db.store, newId, now)).Success? ==>
        db.store == old(Statement(db.store, newId, now)).value && alert == old(alert) && saved
    {
      if Submittable() {
        HandleSubmit(db, newId, now, fault);
      }
    }
  }

  /** A new shop whose slug leaves no room in `varchar(255)` for its QR code, the slug
      with a prefix, a dash and a timestamp, is refused on the QR code column. */
  lemma LongSlugQrCodeRefused(st: Store, id: string, name: string, slug: string, now: nat, settings: map<string, string>)
    requires |name| <= 255 && |slug| <= 255 && |slug| + |QR_PREFIX| + 1 + |NatToString(now)| > 255
    ensures InsertShop(st, id, ShopInsert(name, slug, Some(QrToken(slug, now)), settings)) ==
      Failure(ValueTooLong("qr_code", 255))
  {
    assert |QrToken(slug, now)| == |QR_PREFIX| + |slug| + 1 + |NatToString(now)|;
  }

  /** An edit keeps every shop's QR code, and the edited shop keeps its slug. */
  lemma EditKeepsQrCodes(st: Store, shop: Shop, form: ShopFormData)
    requires UpdateShop(st, shop.id, form.name, shop.slug, MergeSettings(form.description, shop.settings)).Success?
    ensures var after := UpdateShop(st, shop.id, form.name, shop.slug, MergeSettings(form.description, shop.settings)).value;
      && |after.shops| == |st.shops|
      && (forall i :: 0 <= i < |st.shops| ==> after.shops[i].qrCode == st.shops[i].qrCode && after.shops[i].id == st.shops[i].id)
      && (forall i :: 0 <= i < |st.shops| && st.shops[i].id == shop.id ==> after.shops[i].slug == shop.slug)
  {
  }
}

=== FILE: signup.dfy ===
/** The café-owner sign-up page: the form's rules, the account it asks for (marked as an
    admin), and the shop row it then tries to insert, whose failure does not fail the
    sign-up. The row names no QR code, which the `shops` table requires, so the insert
    never succeeds. */
module AdminSignup {
  import opened Wrappers
  import opened JsString
  import opened Types
  import opened Schema
  import opened Storage
  import opened Passwords
  import opened ShopFormComponent

  const NAME_MIN: nat := 2

  const NAME_SHORT: string := "Name must be at least 2 characters"
  const EMAIL_INVALID: string := "Please enter a valid email address"
  const CAFE_SHORT: string := "Café name must be at least 2 characters"
  const FAILED: string := "Failed to create account. Please try again."
  const UNEXPECTED: string := "An unexpected error occurred. Please try again."
  /** Where a successful sign-up leads. */
  const AFTER_SIGNUP: string := "/auth/login?redirect=/admin"

  datatype SignupForm = SignupForm(
    name: string,
    email: string,
    password: string,
    confirmPassword: string,
    cafeName: string)

  /** `adminSignupSchema`: every field's rule in the form's order, then the confirmation.
      `emailValid` is the verdict of the e-mail rule. */
  function SignupErrors(f: SignupForm, emailValid: bool): (errs: seq<FieldError>)
    ensures errs == [] <==>
      Utf16Length(f.name) >= NAME_MIN && emailValid && StrongPassword(f.password) &&
      f.password == f.confirmPassword && Utf16Length(f.cafeName) >= NAME_MIN
    ensures forall e :: e in errs ==> e.field in {"name", "email", "password", "confirmPassword", "cafeName"}
    ensures FieldError("name", NAME_SHORT) in errs <==> Utf16Length(f.name) < NAME_MIN
    ensures FieldError("cafeName", CAFE_SHORT) in errs <==> Utf16Length(f.cafeName) < NAME_MIN
    ensures FieldError("confirmPassword", MISMATCH) in errs <==> f.password != f.confirmPassword
  {
    var nameErrs := if Utf16Length(f.name) < NAME_MIN then [FieldError("name", NAME_SHORT)] else [];
    var emailErrs := if emailValid then [] else [FieldError("email", EMAIL_INVALID)];
    var cafeErrs := if Utf16Length(f.cafeName) < NAME_MIN then [FieldError("cafeName", CAFE_SHORT)] else [];
    nameErrs + emailErrs + PasswordErrors(f.password) + cafeErrs + ConfirmErrors(f.password, f.confirmPassword)
  }

  /** The user metadata `signUp` sends: the name, the café and the admin role. */
  function SignupMetadata(f: SignupForm): (m: map<string, string>)
    ensures m.Keys == {"name", "cafe_name", "role"}
    ensures m["role"] == "admin" && m["name"] == f.name && m["cafe_name"] == f.cafeName
  {
    map["name" := f.name, "cafe_name" := f.cafeName, "role" := "admin"]
  }

  /** How many digits of the timestamp the slug keeps. */
  const STAMP_DIGITS: nat := 6

  /** The last digits of a number written out are digits. */
  lemma StampDigits(now: nat)
    ensures var stamp := TakeLast(NatToString(now), STAMP_DIGITS);
      forall i :: 0 <= i < |stamp| ==> IsDecimalDigit(stamp[i])
  {
    var digits := NatToString(now);
    var stamp := TakeLast(digits, STAMP_DIGITS);
    assert digits == digits[..|digits| - |stamp|] + stamp;
    forall i | 0 <= i < |stamp|
      ensures IsDecimalDigit(stamp[i])
    {
      assert stamp[i] == digits[|digits| - |stamp| + i];
    }
  }

  /** The new shop's slug: the café name sanitised as the shop form sanitises slugs, a
      dash, and the last six digits of the time in milliseconds. */
  function SignupSlug(cafeName: string, now: nat): (slug: string)
    ensures IsSlug(slug)
  {
    StampDigits(now);
    SanitizeSlug(cafeName) + "-" + TakeLast(NatToString(now), STAMP_DIGITS)
  }

  function Pow10(k: nat): nat {
    if k == 0 then 1 else 10 * Pow10(k - 1)
  }

  /** A number of at least `10^k` is written with more than `k` digits. */
  lemma {:induction false} LongNumber(n: nat, k: nat)
    requires n >= Pow10(k)
    ensures |NatToString(n)| > k
  {
    if k > 0 {
      assert n / 10 >= Pow10(k - 1);
      LongNumber(n / 10, k - 1);
      assert NatToString(n) == NatToString(n / 10) + [DigitChar(n % 10)];
    }
  }

  /** A name, a dash and a run of digits: the dash is the last one, with the name
      before it and only digits after it. */
  lemma NameDashDigits(name: string, stamp: string)
    requires forall i :: 0 <= i < |stamp| ==> IsDecimalDigit(stamp[i])
    ensures var slug := name + "-" + stamp;
      && LastIndexOf(slug, '-') == Some(|name|)
      && slug[..|name|] == name
      && (forall i :: |name| < i < |slug| ==> IsDecimalDigit(slug[i]))
  {
    var slug := name + "-" + stamp;
    forall i | |name| < i < |slug|
      ensures IsDecimalDigit(slug[i])
    {
      assert slug[i] == stamp[i - |name| - 1];
    }
    DigitsHoldNoDash(stamp);
    LastIndexOfAt(name, '-', stamp);
  }

  /** A slug reads back as the sanitised café name before its last dash and the time
      stamp after it: one to six digits, six once the clock is past 99999. */
  lemma SignupSlugParts(cafeName: string, now: nat)
    ensures var slug := SignupSlug(cafeName, now);
      var name := SanitizeSlug(cafeName);
      && LastIndexOf(slug, '-') == Some(|name|)
      && slug[..|name|] == name
      && 1 <= |slug| - |name| - 1 <= STAMP_DIGITS
      && (now >= 100000 ==> |slug| - |name| - 1 == STAMP_DIGITS)
      && (forall i :: |name| < i < |slug| ==> IsDecimalDigit(slug[i]))
  {
    var name := SanitizeSlug(cafeName);
    var stamp := TakeLast(NatToString(now), STAMP_DIGITS);
    StampDigits(now);
    NameDashDigits(name, stamp);
    assert SignupSlug(cafeName, now) == name + "-" + stamp;
    if now >= 100000 {
      assert Pow10(5) == 100000;
      LongNumber(now, 5);
    }
  }

  /** The shop row the page inserts: the café's name and the derived slug, and no QR
      code. */
  function SignupShopInsert(f: SignupForm, now: nat): (ins: ShopInsert)
    ensures ins.name == f.cafeName && ins.slug == SignupSlug(f.cafeName, now) && ins.qrCode.None?
  {
    ShopInsert(f.cafeName, SignupSlug(f.cafeName, now), None, map[])
  }

  /** Whatever the contents of the database, that insert is refused: for its missing QR
      code, or before that for a café name or slug too long for its column. */
  lemma SignupShopRefused(st: Store, id: string, f: SignupForm, now: nat)
    ensures InsertShop(st, id, SignupShopInsert(f, now)).Failure?
    ensures |f.cafeName| <= 255 && |SignupSlug(f.cafeName, now)| <= 255 ==>
      InsertShop(st, id, SignupShopInsert(f, now)) == Failure(NotNullViolation("qr_code"))
  {
  }

  /** What `auth.signUp` answered: it threw, it returned an error (with its message), or
      it returned with or without a user. */
  datatype AuthReply = Thrown | AuthFailed(message: string) | SignedUp(userCreated: bool)

  /** One `auth.signUp` call. */
  datatype SignUpRequest = SignUpRequest(email: string, password: string, metadata: map<string, string>)

  class AdminSignupPage {
    var fieldErrors: seq<FieldError>
    var isLoading: bool
    var error: Option<string>
    var success: bool
    /** The `auth.signUp` calls made so far. */
    var requests: seq<SignUpRequest>
    /** The page the timer opens after a sign-up. */
    var navigation: Option<string>

    constructor()
      ensures fieldErrors == [] && !isLoading && error.None? && !success && requests == [] && navigation.None?
    {
      fieldErrors := [];
      isLoading := false;
      error := None;
      success := false;
      requests := [];
      navigation := None;
    }

    /** `handleSubmit(onSubmit)`. A form that breaks a rule shows the first message of
        each field and sends nothing. Otherwise the page asks for the account; an answer
        that throws or fails shows its message and stops loading; an account with a
        user is followed by the shop insert, whose outcome is ignored, then success and
        the way to the login page. */
    method HandleSubmit(db: Db, f: SignupForm, emailValid: bool, reply: AuthReply, newId: string, now: nat, fault: Option<string>)
      modifies this, db
      ensures db.store == old(db.store)
      ensures fieldErrors == Shown(SignupErrors(f, emailValid))
      ensures fieldErrors == [] <==> SignupErrors(f, emailValid) == []
      ensures fieldErrors != [] ==>
        && isLoading == old(isLoading) && error == old(error) && success == old(success)
        && requests == old(requests) && navigation == old(navigation)
      ensures fieldErrors == [] ==>
        requests == old(requests) + [SignUpRequest(f.email, f.password, SignupMetadata(f))]
      ensures fieldErrors == [] && reply.Thrown? ==>
        error == Some(UNEXPECTED) && !isLoading && !success && navigation == old(navigation)
      ensures fieldErrors == [] && reply.AuthFailed? ==>
        && error == Some(if reply.message == "" then FAILED else reply.message)
        && !isLoading && !success && navigation == old(navigation)
      ensures fieldErrors == [] && reply == SignedUp(false) ==>
        error.None? && isLoading && !success && navigation == old(navigation)
      ensures fieldErrors == [] && reply == SignedUp(true) ==>
        error.None? && isLoading && success && navigation == Some(AFTER_SIGNUP)
    {
      fieldErrors := Shown(SignupErrors(f, emailValid));
      if fieldErrors != [] {
        return;
      }
      isLoading := true;
      error := None;
      success := false;
      requests := requests + [SignUpRequest(f.email, f.password, SignupMetadata(f))];
      match reply
      case Thrown =>
        error := Some(UNEXPECTED);
        isLoading := false;
      case AuthFailed(message) =>
        error := Some(if message == "" then FAILED else message);
        isLoading := false;
      case SignedUp(userCreated) =>
        if userCreated {
          SignupShopRefused(db.store, newId, f, now);
          var shopError := db.Run(InsertShop(db.store, newId, SignupShopInsert(f, now)), fault);
          success := true;
          navigation := Some(AFTER_SIGNUP);
        }
    }

    /** A press of the submit button, which is disabled while the request runs and after
        a success: then nothing happens; otherwise the form is handled. */
    method Submit(db: Db, f: SignupForm, emailValid: bool, reply: AuthReply, newId: string, now: nat, fault: Option<string>)
      modifies this, db
      ensures db.store == old(db.store)
      ensures old(isLoading || success) ==>
        && fieldErrors == old(fieldErrors) && isLoading == old(isLoading) && error == old(error)
        && success == old(success) && requests == old(requests) && navigation == old(navigation)
      ensures !old(isLoading || success) ==> fieldErrors == Shown(SignupErrors(f, emailValid))
      ensures !old(isLoading || success) && SignupErrors(f, emailValid) != [] ==>
        && isLoading == old(isLoading) && error == old(error) && success == old(success)
        && requests == old(requests) && navigation == old(navigation)
      ensures !old(isLoading || success) && SignupErrors(f, emailValid) == [] ==>
        requests == old(requests) + [SignUpRequest(f.email, f.password, SignupMetadata(f))]
      ensures !old(isLoading || success) && SignupErrors(f, emailValid) == [] && reply.Thrown? ==>
        error == Some(UNEXPECTED) && !isLoading && !success && navigation == old(navigation)
      ensures !old(isLoading || success) && SignupErrors(f, emailValid) == [] && reply.AuthFailed? ==>
        && error == Some(if reply.message == "" then FAILED else reply.message)
        && !isLoading && !success && navigation == old(navigation)
      ensures !old(isLoading || success) && SignupErrors(f, emailValid) == [] && reply == SignedUp(false) ==>
        error.None? && isLoading && !success && navigation == old(navigation)
      ensures !old(isLoading || success) && SignupErrors(f, emailValid) == [] && reply == SignedUp(true) ==>
        error.None? && isLoading && success && navigation == Some(AFTER_SIGNUP)
    {
      if !isLoading && !success {
        HandleSubmit(db, f, emailValid, reply, newId, now, fault);
      }
    }
  }
}

=== FILE: storage.dfy ===
/** The database connection as the pages and components use it: every insert, update
    or delete is one statement against the current contents. */
module Storage {
  import opened Wrappers
  import opened Schema

  class Db {
    var store: Store

    constructor(initial: Store)
      ensures store == initial
    {
      store := initial;
    }

    /** Runs a statement whose outcome on the current contents is `next`. `fault` is a
        failure that stops the statement before it reaches the tables (the network,
        the service); then nothing changes and its message comes back, as it does when
        the statement violates a constraint. */
    method Run(next: Result<Store, DbError>, fault: Option<string>) returns (err: Option<string>)
      modifies this
      ensures fault.Some? ==> err == fault && store == old(store)
      ensures fault.None? && next.Failure? ==> err == Some(ErrorMessage(next.error)) && store == old(store)
      ensures fault.None? && next.Success? ==> err.None? && store == next.value
    {
      if fault.Some? {
        err := fault;
      } else if next.Failure? {
        err := Some(ErrorMessage(next.error));
      } else {
        store := next.value;
        err := None;
      }
    }
  }
}

=== FILE: track_scan_route.dfy ===
/** `POST /api/track-scan`: looks the café up by the scanned QR code and records a scan
    event for it, answering with a JSON body and an HTTP status. */
module TrackScanRoute {
  import opened Wrappers
  import opened Types
  import opened Schema
  import opened Storage
  import opened ShopLookup
  import opened AnalyticsServer

  /** The request body: either it does not parse as JSON (the message of the exception),
      or it carries a `qrCode` field, possibly missing. */
  datatype RequestBody = Unparsable(message: string) | Body(qrCode: Option<string>)

  /** The JSON answer and its status; absent fields are left out of the body. */
  datatype Response = Response(
    status: nat,
    success: bool,
    error: Option<string>,
    eventId: Option<string>,
    shopSlug: Option<string>,
    sessionId: Option<string>)

  function Fail(status: nat, message: string): (r: Response)
    ensures !r.success && r.error == Some(message) && r.eventId.None?
  {
    Response(status, false, Some(message), None, None, None)
  }

  /** The handler. `lookupFailed` is a shop query that reports an error; `now`, `suffix`
      and `isoNow` are the clock and the random part of the session id; `eventId` is the id
      the database assigns; `fault` is a failure before the insert reaches the table; and
      `visible` is whether the select after the insert returns the new row. */
  method Post(db: Db, body: RequestBody, lookupFailed: bool, now: nat, suffix: string, isoNow: string,
              eventId: string, fault: Option<string>, visible: bool)
    returns (resp: Response)
    modifies db
    ensures resp.success <==> resp.status == 200
    ensures resp.status == 200 || resp.status == 400 || resp.status == 404 || resp.status == 500
    ensures body.Unparsable? ==> resp == Fail(500, body.message) && db.store == old(db.store)
    ensures body.Body? && (body.qrCode.None? || body.qrCode.value == "") ==>
      resp == Fail(400, "QR code is required") && db.store == old(db.store)
    ensures body.Body? && body.qrCode.Some? && body.qrCode.value != "" &&
            GetShopByQRCode(old(db.store), body.qrCode.value, lookupFailed).None?
            ==> resp == Fail(404, "Shop not found") && db.store == old(db.store)
    ensures resp.status == 500 ==> db.store == old(db.store)
    ensures resp.status == 200 ==>
      && body.Body? && body.qrCode.Some?
      && GetShopByQRCode(old(db.store), body.qrCode.value, lookupFailed).Some?
      && var shop := GetShopByQRCode(old(db.store), body.qrCode.value, lookupFailed).value;
         var sid := ScanSessionId(now, suffix);
         && db.store == old(db.store).(events := old(db.store.events) +
              [Event(eventId, ScanRow(shop.id, body.qrCode.value, sid, isoNow))])
         && resp.shopSlug == Some(shop.slug)
         && resp.sessionId == Some(sid)
         && resp.eventId == (if visible then Some(eventId) else None)
    ensures body.Body? && body.qrCode.Some? && body.qrCode.value != "" && fault.None? &&
            eventId !in EventIds(old(db.store)) && |ScanSessionId(now, suffix)| <= 255 &&
            GetShopByQRCode(old(db.store), body.qrCode.value, lookupFailed).Some?
            ==> resp.status == 200
  {
    if body.Unparsable? {
      return Fail(500, body.message);
    }
    if body.qrCode.None? || body.qrCode.value == "" {
      return Fail(400, "QR code is required");
    }
    var qrCode := body.qrCode.value;
    var shop := GetShopByQRCode(db.store, qrCode, lookupFailed);
    if shop.None? {
      return Fail(404, "Shop not found");
    }
    var sessionId := ScanSessionId(now, suffix);
    var row := ScanRow(shop.value.id, qrCode, sessionId, isoNow);
    ScanRowInsert(db.store, eventId, shop.value.id, qrCode, sessionId, isoNow);
    assert shop.value.id in ShopIds(db.store);
    var err := db.Run(InsertEvent(db.store, eventId, row), fault);
    if err.Some? {
      return Fail(500, err.value);
    }
    resp := Response(200, true, None, if visible then Some(eventId) else None, Some(shop.value.slug), Some(sessionId));
  }
}

=== FILE: types.dfy ===
/** The rows of the catalog and of the event log, as the application reads and
    writes them. Prices are whole cents; `None` stands for SQL `NULL`. */
module Types {
  import opened Wrappers

  /** A café. `settings` is a JSON object; the model keeps its string-valued keys. */
  datatype Shop = Shop(
    id: string,
    name: string,
    slug: string,
    qrCode: string,
    settings: map<string, string>)

  datatype Coffee = Coffee(
    id: string,
    shopId: string,
    name: string,
    roast: Option<string>,
    origin: Option<string>,
    tastingNotes: Option<seq<string>>,
    description: Option<string>,
    image: Option<string>,
    price: Option<int>,
    active: bool)

  datatype Pastry = Pastry(
    id: string,
    shopId: string,
    name: string,
    notes: Option<string>,
    flavorProfile: Option<string>,
    image: Option<string>,
    price: Option<int>,
    active: bool)

  datatype PairingRule = PairingRule(
    id: string,
    shopId: string,
    coffeeId: string,
    pastryId: string,
    matchScore: int,
    reasoning: Option<string>,
    active: bool)

  /** A pairing rule with the coffee and the pastry it names joined in (null when the
      joined row is missing). */
  datatype PairingWithDetails = PairingWithDetails(rule: PairingRule, coffee: Option<Coffee>, pastry: Option<Pastry>)

  /** The six kinds of analytics event. */
  datatype EventKind = Scan | CoffeeSelect | PairingView | PairingAccept | AddToCart | Checkout

  /** The `event_type` string stored for a kind. */
  function KindName(k: EventKind): (name: string)
    ensures |name| > 0
  {
    match k
    case Scan => "scan"
    case CoffeeSelect => "coffee_select"
    case PairingView => "pairing_view"
    case PairingAccept => "pairing_accept"
    case AddToCart => "add_to_cart"
    case Checkout => "checkout"
  }

  /** The kind an `event_type` string names, if any. */
  function KindOf(name: string): (k: Option<EventKind>)
    ensures k.Some? ==> KindName(k.value) == name
  {
    if name == "scan" then Some(Scan)
    else if name == "coffee_select" then Some(CoffeeSelect)
    else if name == "pairing_view" then Some(PairingView)
    else if name == "pairing_accept" then Some(PairingAccept)
    else if name == "add_to_cart" then Some(AddToCart)
    else if name == "checkout" then Some(Checkout)
    else None
  }

  /** Reading a stored name back gives the kind that was stored. */
  lemma KindOfName(k: EventKind)
    ensures KindOf(KindName(k)) == Some(k)
  {
  }

  /** Different kinds are stored under different names. */
  lemma KindNameInjective(j: EventKind, k: EventKind)
    requires KindName(j) == KindName(k)
    ensures j == k
  {
  }

  /** One row written to `analytics_events`, as the insert names its columns.
      `userId` and `eventData` are the `user_id` and `event_data` columns the
      client-side tracker writes; the server-side scan insert writes neither and
      fills `metadata` instead. */
  datatype EventRow = EventRow(
    shopId: string,
    sessionId: string,
    eventType: string,
    coffeeId: Option<string>,
    pastryId: Option<string>,
    pairingRuleId: Option<string>,
    userId: Option<string>,
    metadata: map<string, string>,
    eventData: Option<map<string, string>>)

  /** A stored event: the row and the id the database gave it. */
  datatype Event = Event(id: string, row: EventRow)

  /** A browsing session (`sessions` table). */
  datatype Session = Session(id: string, shopId: string)

  // Keys, as named functions so that filters and lookups agree on them.
  function ShopId(s: Shop): string { s.id }
  function CoffeeId(c: Coffee): string { c.id }
  function PastryId(p: Pastry): string { p.id }
  function RuleId(r: PairingRule): string { r.id }
  function EventId(e: Event): string { e.id }
  function SessionId(s: Session): string { s.id }
  function ShopSlug(s: Shop): string { s.slug }
  function ShopQrCode(s: Shop): string { s.qrCode }
  function CoffeeShop(c: Coffee): string { c.shopId }
  function PastryShop(p: Pastry): string { p.shopId }
  function RuleShop(r: PairingRule): string { r.shopId }
}

=== FILE: urls.dfy ===
/** The links the customer pages navigate to. The ids travel in the query string
    exactly as the template strings write them, without percent-encoding. */
module Urls {
  import opened Wrappers
  import opened JsString

  /** The text after the first `c`, if `c` occurs. */
  function AfterFirst(s: string, c: char): (r: Option<string>)
    ensures r.None? <==> c !in s
    ensures r.Some? ==> |r.value| < |s| && s[|s| - |r.value| - 1] == c
  {
    if s == [] then None
    else if s[0] == c then Some(s[1..])
    else AfterFirst(s[1..], c)
  }

  lemma {:induction false} AfterFirstAt(a: string, c: char, b: string)
    requires c !in a
    ensures AfterFirst(a + [c] + b, c) == Some(b)
  {
    if a == [] {
      assert a + [c] + b == [c] + b;
    } else {
      assert (a + [c] + b)[0] == a[0];
      assert (a + [c] + b)[1..] == a[1..] + [c] + b;
      AfterFirstAt(a[1..], c, b);
    }
  }

  /** The value of `key` in one `key=value` pair. */
  function PairValue(pair: string, key: string): (r: Option<string>)
    ensures r.Some? ==> pair == key + "=" + r.value
  {
    if StartsWith(pair, key + "=") then Some(pair[|key| + 1..]) else None
  }

  /** The value of the first pair for `key`. */
  function FirstValue(pairs: seq<string>, key: string): Option<string> {
    if pairs == [] then None
    else match PairValue(pairs[0], key)
      case Some(v) => Some(v)
      case None => FirstValue(pairs[1..], key)
  }

  /** What `searchParams.get(key)` reads from a link: the first value of `key` in the
      query string. */
  function Param(url: string, key: string): Option<string> {
    match AfterFirst(url, '?')
    case None => None
    case Some(query) => FirstValue(Split(query, '&'), key)
  }

  /** `coffee=…&pastry=…&pairing=…`, the query the cart and checkout links carry. */
  function ItemPairs(coffeeId: string, pastryId: string, pairingId: string): seq<string> {
    ["coffee=" + coffeeId, "pastry=" + pastryId, "pairing=" + pairingId]
  }

  function ItemsUrl(path: string, coffeeId: string, pastryId: string, pairingId: string): string {
    path + "?" + Join(ItemPairs(coffeeId, pastryId, pairingId), "&")
  }

  /** The cart link `handleAcceptPairing` opens. */
  function CartUrl(slug: string, coffeeId: string, pastryId: string, pairingId: string): string {
    ItemsUrl("/shop/" + slug + "/cart", coffeeId, pastryId, pairingId)
  }

  /** The checkout link `handleCheckout` opens. */
  function CheckoutUrl(slug: string, coffeeId: string, pastryId: string, pairingId: string): string {
    ItemsUrl("/shop/" + slug + "/checkout", coffeeId, pastryId, pairingId)
  }

  /** Where a placed order leads. */
  function SuccessUrl(slug: string): string {
    "/shop/" + slug + "/checkout/success"
  }

  /** A string safe to put in a path or a query value without encoding. */
  predicate Plain(s: string) {
    '?' !in s && '&' !in s
  }

  /** The page the link opens reads back the three ids it was given, as long as the
      path has no `?` and no id contains `&`. */
  lemma ItemsUrlReadsBack(path: string, coffeeId: string, pastryId: string, pairingId: string)
    requires '?' !in path && '&' !in coffeeId && '&' !in pastryId && '&' !in pairingId
    ensures var url := ItemsUrl(path, coffeeId, pastryId, pairingId);
      && Param(url, "coffee") == Some(coffeeId)
      && Param(url, "pastry") == Some(pastryId)
      && Param(url, "pairing") == Some(pairingId)
  {
    var pairs := ItemPairs(coffeeId, pastryId, pairingId);
    var query := Join(pairs, "&");
    assert ItemsUrl(path, coffeeId, pastryId, pairingId) == path + ['?'] + query;
    AfterFirstAt(path, '?', query);
    forall i | 0 <= i < |pairs|
      ensures '&' !in pairs[i]
    {
      assert pairs[i] == ["coffee=" + coffeeId, "pastry=" + pastryId, "pairing=" + pairingId][i];
    }
    SplitJoin(pairs, '&');
    assert Split(query, '&') == pairs;
    assert PairValue(pairs[0], "coffee") == Some(coffeeId) by {
      assert pairs[0][..|"coffee="|] == "coffee=";
    }
    assert PairValue(pairs[0], "pastry").None? by {
      assert pairs[0][1] != "pastry="[1];
    }
    assert PairValue(pairs[0], "pairing").None? by {
      assert pairs[0][1] != "pairing="[1];
    }
    assert PairValue(pairs[1], "pastry") == Some(pastryId) by {
      assert pairs[1][..|"pastry="|] == "pastry=";
    }
    assert PairValue(pairs[1], "pairing").None? by {
      assert pairs[1][2] != "pairing="[2];
    }
    assert PairValue(pairs[2], "pairing") == Some(pairingId) by {
      assert pairs[2][..|"pairing="|] == "pairing=";
    }
    var rest := pairs[1..];
    assert rest[0] == pairs[1] && rest[1..] == [pairs[2]];
    assert FirstValue(rest, "pastry") == Some(pastryId);
    assert FirstValue(pairs, "pastry") == Some(pastryId);
    assert FirstValue([pairs[2]], "pairing") == Some(pairingId);
    assert FirstValue(rest, "pairing") == Some(pairingId);
    assert FirstValue(pairs, "pairing") == Some(pairingId);
  }

  /** The cart and checkout links carry their three ids through to the next page. */
  lemma ItemLinksReadBack(slug: string, coffeeId: string, pastryId: string, pairingId: string)
    requires Plain(slug) && Plain(coffeeId) && Plain(pastryId) && Plain(pairingId)
    ensures var cart := CartUrl(slug, coffeeId, pastryId, pairingId);
      Param(cart, "coffee") == Some(coffeeId) && Param(cart, "pastry") == Some(pastryId) &&
      Param(cart, "pairing") == Some(pairingId)
    ensures var checkout := CheckoutUrl(slug, coffeeId, pastryId, pairingId);
      Param(checkout, "coffee") == Some(coffeeId) && Param(checkout, "pastry") == Some(pastryId) &&
      Param(checkout, "pairing") == Some(pairingId)
  {
    ItemsUrlReadsBack("/shop/" + slug + "/cart", coffeeId, pastryId, pairingId);
    ItemsUrlReadsBack("/shop/" + slug + "/checkout", coffeeId, pastryId, pairingId);
  }
}

=== FILE: wrappers.dfy ===
/** Option and Result, the nullable values and error returns of the café application. */
module Wrappers {

  /** A value that may be absent: the `T | null` of the source. */
  datatype Option<+T> = None | Some(value: T) {
    function GetOr(default: T): T {
      match this
      case Some(v) => v
      case None => default
    }
  }

  /** The outcome of an operation that can fail with an error value. */
  datatype Result<+R, +E> = Success(value: R) | Failure(error: E)
}
